=== FILE: README.md ===
# Cryptojacking detector scripts: a Dafny model of the scoring core

This project models the deterministic core of the cryptojacking detector scripts. That core covers:

- **The indicator catalog.** Seven named lists of regular expressions, a weight per category, and the HIGH/MEDIUM thresholds.
- **The regex optimizer's pattern table.** Add, remove and `check_text`.
- **The miner detector.** Its score is an uncapped sum of one category weight per reported match.
- **The `ScanResult` record.** Severity from the score, the dictionary preview and the text rendering.
- **The pure steps of the host scanners.** The large-file chunk fold and deduplication, the `schtasks` block parser, and the `sc query` and `systemctl` line extractors.
- **The scan prioritizer.** A priority per target, then a stable descending sort with an optional limit.
- **The base64 heuristics.** The shape test, and the expansion of a text with its decoded tokens.
- **The worker-count heuristic.**
- **The logger and error-handler counters.** These include the bounded recovery loop.
- **The result writer's decisions.** Severity grouping and order in the text report, the four lists of the summary, and when the CSV and JSON writers succeed.

Regular expressions are not interpreted. A matcher `FindAll(pattern, text)` stands for `re.findall` with `IGNORECASE`, and the prioritizer takes a `Search(pattern, sample)` predicate. The base64 candidate finder and the decoder are also parameters. Command output, file contents, the clock and the machine's CPU count and memory are inputs. Nothing is read from the host.

Module layout, one file per module:

- `options.dfy`, `strings.dfy`, `tables.dfy`: Python's `None`, the `str` operations used, and dicts as insertion-ordered tables.
- `patterns.dfy`: the catalog.
- `regex_table.dfy`: `RegexOptimizer`.
- `scan_results.dfy`: `ScanResult`.
- `base64_heuristics.dfy`: `Base64Optimizer`.
- `scoring.dfy`: `check_for_miners` and the file scan.
- `host_parsing.dfy`: task blocks, service names and unit names.
- `prioritizer.dfy`: `ScanPrioritizer`.
- `workers.dfy`: `get_optimal_workers`.
- `logging.dfy`: `CryptoLogger` statistics and `ErrorHandler`.
- `result_writer.dfy`: `ResultWriter`.

## Model

| member | source | states |
|---|---|---|
| Patterns.GetAllPatterns | crypto-detector-scripts/enhanced_miner_patterns.py:169-177 | The combined list is the category table flattened in declaration order, 112 patterns in all |
| Patterns.FlattenCatalog | crypto-detector-scripts/enhanced_miner_patterns.py:169-188 | Concatenating the category table's lists in table order gives exactly `ALL_PATTERNS` |
| Patterns.CatalogSize | crypto-detector-scripts/enhanced_miner_patterns.py:8-177 | The seven lists hold 24+11+8+18+15+24+12 = 112 patterns |
| Patterns.GetPatternCategories | crypto-detector-scripts/enhanced_miner_patterns.py:180-188 | Seven distinct, non-empty categories whose names are exactly the keys of the weight table |
| Patterns.GetCategoryWeights | crypto-detector-scripts/enhanced_miner_patterns.py:191-199 | Seven weights, all in 3..9; `mining_pools` is the largest and `network` the smallest |
| Patterns.GetConfidenceThresholds | crypto-detector-scripts/enhanced_miner_patterns.py:202-224 | Exactly the keys `high` and `medium`, equal to the thresholds, with high > medium > 0 |
| RegexTable.AddPatterns | crypto-detector-scripts/performance_optimization.py:40-55 | The category's list becomes the old list (empty if absent) followed by the new patterns; other categories are unchanged; a new category is added last; a table without duplicate keys keeps none |
| RegexTable.RemovePatterns | crypto-detector-scripts/performance_optimization.py:57-70 | An absent category leaves the table as it was; otherwise the category keeps exactly its patterns not in the removal list; other categories and the key order are unchanged; a table without duplicate keys keeps none |
| RegexTable.WithoutAppend | crypto-detector-scripts/performance_optimization.py:67 | Removal distributes over concatenation, so the survivors keep their order |
| RegexTable.WithoutAbsent | crypto-detector-scripts/performance_optimization.py:67 | Removing patterns that are not present leaves the list unchanged |
| RegexTable.CheckText | crypto-detector-scripts/performance_optimization.py:73-99 | Empty text or an unknown named category gives no triples; with a category, every triple carries it; every triple's pattern is in its category and its match is among that pattern's matches |
| RegexTable.CheckTextComplete | crypto-detector-scripts/performance_optimization.py:88-97 | Every match of every pattern of every visited category appears as a triple |
| RegexTable.RunCheckText | crypto-detector-scripts/performance_optimization.py:84-99 | The loop nest, over categories, then patterns, then matches, builds the category/pattern/match-ordered triple list |
| ScanResults.CalculateSeverity | crypto-detector-scripts/enhanced_cloud_scanning.py:33-41 | HIGH iff score ≥ the high threshold (15); MEDIUM iff 8 ≤ score < 15; LOW iff 0 < score < 8; CLEAN iff score ≤ 0 |
| ScanResults.SeverityMonotone | crypto-detector-scripts/enhanced_cloud_scanning.py:35-41 | A higher score never gives a lower severity |
| ScanResults.NewScanResult | crypto-detector-scripts/enhanced_cloud_scanning.py:24-31 | Missing matches become the empty list; the severity is CLEAN exactly when the score is not positive |
| ScanResults.ToDict | crypto-detector-scripts/enhanced_cloud_scanning.py:43-53 | The preview is the content when it has at most 100 characters, else its first 100 characters and "..."; never longer than 103 characters |
| ScanResults.MatchText | crypto-detector-scripts/enhanced_cloud_scanning.py:59 | The matches line reads "None" exactly when there are no matches |
| ScanResults.ToText | crypto-detector-scripts/enhanced_cloud_scanning.py:55-61 | Starts with the severity/source/type header and ends with the content cut at 100 characters followed by "..." |
| ScanResults.ToTextShowsSeverity | crypto-detector-scripts/enhanced_cloud_scanning.py:58 | Results of different severities never render to the same text |
| ScanResults.ToTextCutsContent | crypto-detector-scripts/enhanced_cloud_scanning.py:61 | Content past the first 100 characters does not change the text |
| ScanResults.FallbackResultsAreClean | crypto-detector-scripts/enhanced_cloud_scanning.py:14-31 | Any result built from the fallback detector has no matches and is CLEAN |
| Base64Heuristics.FullMatchIsPaddedShape | crypto-detector-scripts/performance_optimization.py:461 | The base64 expression fully matches exactly the strings made of whole groups of four alphabet characters, with at most two '=' at the end |
| Base64Heuristics.IsLikelyBase64 | crypto-detector-scripts/performance_optimization.py:465-496 | True iff the length is at least 20 and the string has the padded base64 shape; so false when the length is under 20, not a multiple of 4, or any character is outside the alphabet |
| Base64Heuristics.ExpandedCandidatesAreLong | crypto-detector-scripts/performance_optimization.py:518-526 | A token is expanded only when it has at least 24 characters |
| Base64Heuristics.FindAndDecodeBase64 | crypto-detector-scripts/performance_optimization.py:499-530 | Empty text comes back unchanged; the input is always a prefix of the result; the text is unchanged exactly when no candidate expands |
| Base64Heuristics.ExpansionsSingle | crypto-detector-scripts/performance_optimization.py:518-526 | One token appends a space and its decoding when it is longer than 20 characters, looks like base64 and decodes to more than 10 characters that are not all whitespace; otherwise nothing |
| Base64Heuristics.ExpansionsAppend | crypto-detector-scripts/performance_optimization.py:518-526 | The tokens' contributions are appended in token order: two runs of tokens append the first run's text, then the second's |
| Scoring.Accumulate | crypto-detector-scripts/crypto_detector_optimized.py:125-137 | One formatted match per triple, in triple order, weighted by its category or 1; the score is the sum of the match weights |
| Scoring.CheckForMiners | crypto-detector-scripts/crypto_detector_optimized.py:96-143 | Empty text gives (0, []); otherwise one match per `check_text` triple, in order; each weight is the category's weight or 1 when it has none; the score is the sum of the weights |
| Scoring.ScoreIsWeightedMatchCount | crypto-detector-scripts/crypto_detector_optimized.py:125-137 | The score is the sum over categories of the number of matches times the category weight |
| Scoring.RepeatedMatchesAddUp | crypto-detector-scripts/crypto_detector_optimized.py:128-130 | A pattern that matches k times adds k times its category's weight |
| Scoring.TwoCategoriesAddUp | crypto-detector-scripts/crypto_detector_optimized.py:128-137 | With two categories of one pattern each, their contributions simply add |
| Scoring.ScoreAtLeastMatchCount | crypto-detector-scripts/crypto_detector_optimized.py:128-137 | No cap or normalisation: with weights of at least 1 the score is at least the number of matches |
| Scoring.WeightedCountOfTwo | crypto-detector-scripts/crypto_detector_optimized.py:128-137 | When only two categories find anything, the score over distinct categories is what those two contribute: their match counts times their weights |
| Scoring.CatalogScenario | crypto-detector-scripts/enhanced_miner_patterns.py:191-205 | On the full catalog, with or without base64 decoding, one miner-software match and one mining-pool match in the scanned text, with no other category matching, score 8 + 9 = 17, which is HIGH |
| Scoring.CatalogSingleHit | crypto-detector-scripts/enhanced_miner_patterns.py:191-205 | On the full catalog, with or without base64 decoding, a single miner-software match in the scanned text with no other category matching scores 8, which is only MEDIUM |
| Scoring.CatalogDetector | crypto-detector-scripts/crypto_detector_optimized.py:82-87 | The detector built on the catalog weighs every one of its categories, with a weight in 3..9 |
| Scoring.Chunks | crypto-detector-scripts/crypto_detector_optimized.py:178-182 | The chunks are non-empty, at most the chunk size, all full but the last, and together they are the content |
| Scoring.FoldChunks | crypto-detector-scripts/crypto_detector_optimized.py:175-186 | The running total is the sum of the weights of the collected matches |
| Scoring.FoldChunksSingle | crypto-detector-scripts/crypto_detector_optimized.py:172-186 | A single chunk contributes exactly its `check_for_miners` score and matches |
| Scoring.FoldChunksAppend | crypto-detector-scripts/crypto_detector_optimized.py:179-186 | Two runs of chunks fold to the sum of their scores and the concatenation of their matches, so the total is the sum of the per-chunk scores and the matches are all chunk matches in chunk order |
| Scoring.FoldChunksCovers | crypto-detector-scripts/crypto_detector_optimized.py:179-196 | Every match any chunk reports is collected, and its pattern is among the patterns kept after deduplication |
| Scoring.UniqueByPatternCovers | crypto-detector-scripts/crypto_detector_optimized.py:189-196 | The deduplicated list has no pattern twice and names every pattern of the input |
| Scoring.UniqueByPatternKeepsFirst | crypto-detector-scripts/crypto_detector_optimized.py:189-196 | Deduplication keeps exactly the matches that are the first with their pattern, in input order |
| Scoring.ScanFileContent | crypto-detector-scripts/crypto_detector_optimized.py:166-217 | A file over ten chunk sizes is a Large File whose score is the chunk fold's total and whose matches are the fold's matches deduplicated by pattern; a smaller file is a File whose score and matches are exactly `check_for_miners` of its content, previewed as its first 500 characters followed by "..." or in full |
| HostParsing.ParseLine | crypto-detector-scripts/crypto_detector_optimized.py:383-387 | A line gives an entry exactly when it contains a colon; the key holds no colon; key and value are stripped |
| HostParsing.ParseLineSplitsAtFirstColon | crypto-detector-scripts/crypto_detector_optimized.py:384-387 | A stripped line `before:after` with no colon in `before` gives key `before` stripped and value `after` stripped |
| HostParsing.LastAssignmentWins | crypto-detector-scripts/crypto_detector_optimized.py:382-387 | A key's value in the record comes from the last entry that sets it; a key nothing sets is absent |
| HostParsing.LastLineWins | crypto-detector-scripts/crypto_detector_optimized.py:382-387 | A later line with the same key overwrites an earlier one |
| HostParsing.ProcessTaskBlock | crypto-detector-scripts/crypto_detector_optimized.py:378-401 | Gives a result iff the block is not blank, has TaskName and Command, and the JSON rendering of its record scores above 0; the result is named after the task, shows its command, and carries exactly the score and matches `check_for_miners` gives that rendering |
| HostParsing.TaskBlocks | crypto-detector-scripts/crypto_detector_optimized.py:376 | The blocks join back to the output with the blank-line separator, no block holds the separator, and every separator is the leftmost one |
| Strings.SplitOn | crypto-detector-scripts/crypto_detector_optimized.py:376 | `split` cuts at the leftmost occurrence each time: no part holds the separator, and the first separator after each part starts right where the part ends |
| Strings.JoinSplitOn | crypto-detector-scripts/crypto_detector_optimized.py:376 | Joining the parts with the separator gives back the text |
| Strings.SplitOnUnique | crypto-detector-scripts/crypto_detector_optimized.py:376 | Any parts that join back to the text and are leftmost are exactly the split, so these properties determine `split` |
| HostParsing.ScanScheduledTasks | crypto-detector-scripts/crypto_detector_optimized.py:376-410 | The results are exactly those the blocks give, at most one per block |
| HostParsing.CollectSingle | crypto-detector-scripts/crypto_detector_optimized.py:404-410 | One block contributes its result when it gives one, and nothing otherwise |
| HostParsing.CollectAppend | crypto-detector-scripts/crypto_detector_optimized.py:404-410 | Two runs of blocks contribute the first run's results followed by the second's, so results keep block order and each block contributes at most once |
| HostParsing.ScheduledTaskResultsScore | crypto-detector-scripts/crypto_detector_optimized.py:393-410 | Every scheduled-task result has a positive score and is not CLEAN |
| HostParsing.ServiceNamesFailOnlyOnRaise | crypto-detector-scripts/crypto_detector_optimized.py:445-449 | Name extraction fails exactly when some `SERVICE_NAME` line has no colon |
| HostParsing.ServiceNamesOf | crypto-detector-scripts/crypto_detector_optimized.py:445-449 | Every extracted name is stripped, and there is at most one per line |
| HostParsing.LineServiceNames | crypto-detector-scripts/crypto_detector_optimized.py:447-448 | A line fails exactly when it mentions `SERVICE_NAME` and has no colon; otherwise it gives at most one stripped name |
| HostParsing.ServiceNamesSingle | crypto-detector-scripts/crypto_detector_optimized.py:446-449 | A line without `SERVICE_NAME` gives no name; one with it and a colon gives the stripped text after the first colon; one with it and no colon fails |
| HostParsing.ServiceNamesAppend | crypto-detector-scripts/crypto_detector_optimized.py:446-449 | Two runs of lines give the first run's names followed by the second's, and a failure in either fails the whole |
| HostParsing.UnitLines | crypto-detector-scripts/crypto_detector_optimized.py:654-655 | The kept lines are unit lines taken from the input; when every line is a unit line all are kept |
| HostParsing.UnitLinesSingle | crypto-detector-scripts/crypto_detector_optimized.py:654-655 | A line is kept exactly when it mentions `.service` or `.timer` |
| HostParsing.UnitLinesAppend | crypto-detector-scripts/crypto_detector_optimized.py:654-655 | Two runs of lines keep the first run's unit lines followed by the second's |
| HostParsing.UnitNamesOf | crypto-detector-scripts/crypto_detector_optimized.py:653-657 | One name per unit line, in order: the line's first whitespace-separated token, which is non-empty, free of whitespace and either runs to the end of the line or is followed by whitespace |
| HostParsing.UnitNamesOfSingle | crypto-detector-scripts/crypto_detector_optimized.py:653-657 | One line gives its first token when it mentions `.service` or `.timer`, and nothing otherwise |
| Strings.FirstToken | crypto-detector-scripts/crypto_detector_optimized.py:656 | `split()[0]`: none exactly when the text is blank; otherwise the longest non-empty whitespace-free prefix of the text with its leading whitespace dropped |
| HostParsing.UnitNameLine | crypto-detector-scripts/crypto_detector_optimized.py:653-657 | A `<unit> <state>` line for a service yields exactly the unit |
| Prioritizer.PatternHits | crypto-detector-scripts/performance_optimization.py:329-332 | The hit count is all patterns exactly when every one is found, and 0 exactly when none is |
| Prioritizer.CalculatePriority | crypto-detector-scripts/performance_optimization.py:314-344 | An empty sample scores 0; otherwise 10 per pattern found plus the keyword bonus, so between 10 per pattern found and that plus 10, never more than 10·n + 10 |
| Prioritizer.KeywordBonus | crypto-detector-scripts/performance_optimization.py:334-342 | The bonus is 0 exactly when the lower-cased sample mentions none of the three keyword pairs, and 10 exactly when it mentions all three |
| Prioritizer.StartupBonus | crypto-detector-scripts/performance_optimization.py:335-336 | Mentioning startup or boot, other keyword groups unchanged, adds exactly 5 |
| Prioritizer.CronBonus | crypto-detector-scripts/performance_optimization.py:338-339 | Mentioning cron or schedule, other keyword groups unchanged, adds exactly 3 |
| Prioritizer.ServiceBonus | crypto-detector-scripts/performance_optimization.py:341-342 | Mentioning service or daemon, other keyword groups unchanged, adds exactly 2 |
| Prioritizer.ExtraPatternRaises | crypto-detector-scripts/performance_optimization.py:329-332 | Adding a pattern raises the priority by exactly 10 if it is found, otherwise leaves it unchanged |
| Prioritizer.KeywordsIgnoreCase | crypto-detector-scripts/performance_optimization.py:334-342 | Samples that differ only in ASCII case get the same priority |
| Prioritizer.SortDescStable | crypto-detector-scripts/performance_optimization.py:305-306 | For every priority, the sort keeps exactly that priority's targets in their input order, so it is a stable permutation |
| Prioritizer.InsertDescStable | crypto-detector-scripts/performance_optimization.py:305-306 | Inserting one target adds it after the equal-priority targets already there |
| Prioritizer.Limit | crypto-detector-scripts/performance_optimization.py:308-310 | No limit for None or 0; a positive limit keeps that many from the front; a negative one drops that many from the end |
| Prioritizer.PrioritizeTargets | crypto-detector-scripts/performance_optimization.py:279-312 | Empty input gives []; otherwise a prefix of the ranking: all of it with no limit or 0, min(m, n) targets for a positive limit m, and max(0, n + m) for a negative one |
| Prioritizer.RankedByPriority | crypto-detector-scripts/performance_optimization.py:298-306 | An earlier ranked target never has a lower priority than a later one |
| Prioritizer.RankedInPriorityOrder | crypto-detector-scripts/performance_optimization.py:298-306 | An earlier ranked target's own sample scores at least as much as a later one's |
| Prioritizer.PrioritizeStrings | crypto-detector-scripts/performance_optimization.py:291-312 | Without a sample function each target is scored on its own text: empty input gives []; otherwise a prefix of that ranking, in descending priority, with all targets for no limit or 0 and min(m, n) for a positive limit m |
| Workers.OptimalWorkers | crypto-detector-scripts/performance_optimization.py:177-193 | Threads are min(2·cpu, 32); processes are at least 1, at most cpu − 1 and one per 2 GiB, and as large as both allow |
| Workers.WorkersMonotone | crypto-detector-scripts/performance_optimization.py:184-193 | More CPUs or more memory never shrink either pool |
| Logging.UpdateStats | crypto-detector-scripts/enhanced_logging.py:113-124 | Exactly the given level's counter goes up by one; the other four are unchanged |
| Logging.ReplayCounts | crypto-detector-scripts/enhanced_logging.py:166-177 | From fresh counters, each counter is the number of calls at its level and `total_logs` is the number of calls |
| Logging.SuccessRate | crypto-detector-scripts/enhanced_logging.py:295-306 | 0 before any attempt; with successes ≤ attempts it lies in 0..100, and is 100 exactly when every attempt succeeded |
| Logging.FirstSuccess | crypto-detector-scripts/enhanced_logging.py:263-280 | The first attempt number in 1..max_retries whose call returns, and none when every call raises |
| Logging.AttemptRecovery | crypto-detector-scripts/enhanced_logging.py:249-293 | If attempt k is the first to succeed, attempts grow by k, successes by 1, and k's result is returned; if every attempt fails, attempts grow by max_retries, successes are unchanged, (False, None) is returned and ERROR is logged last; successes ≤ attempts is kept. The logged levels are exactly INFO, WARNING for each failed attempt, then INFO, INFO on success or ERROR after all failures |
| Logging.RecoveryLogCounts | crypto-detector-scripts/enhanced_logging.py:263-291 | Replayed into fresh logger counters, a recovery succeeding at attempt k counts k + 1 INFO and k − 1 WARNING messages; one failing all n attempts counts n INFO, n WARNING and one ERROR; every other level stays 0 |
| Logging.FirstSuccessIs | crypto-detector-scripts/enhanced_logging.py:263-280 | The loop's first returning attempt is the first success |
| Logging.HandleException | crypto-detector-scripts/enhanced_logging.py:206-247 | WARNING counts only a warning; every other severity counts only an error; without recovery the result is (False, None) and the recovery counters are unchanged; with recovery it succeeds iff some attempt does |
| Logging.HandleWithoutRecovery | crypto-detector-scripts/enhanced_logging.py:233-247 | Handling without recovery logs exactly one message, at WARNING exactly when the severity is WARNING |
| ResultWriter.Group | crypto-detector-scripts/enhanced_logging.py:420-425 | A group holds only items of its label, and is non-empty iff some item has that label |
| ResultWriter.GroupSingle | crypto-detector-scripts/enhanced_logging.py:420-425 | A single item forms its own label's group, and every other group is empty |
| ResultWriter.GroupAppend | crypto-detector-scripts/enhanced_logging.py:420-425 | The group of `a + b` is the group of `a` followed by the group of `b`, so a group keeps its items in input order and with their multiplicity |
| ResultWriter.GroupsCover | crypto-detector-scripts/enhanced_logging.py:420-428 | As multisets, the five groups together are exactly the items: every label is one of the five, and a result without a severity is UNKNOWN |
| ResultWriter.GroupsPartition | crypto-detector-scripts/enhanced_logging.py:420-428 | The sizes of the five groups add up to the number of items |
| ResultWriter.TextGroupsInOrder | crypto-detector-scripts/enhanced_logging.py:428-438 | Groups are written in the order HIGH, MEDIUM, LOW, CLEAN, UNKNOWN, and every item's group is written |
| ResultWriter.KeptOrdered | crypto-detector-scripts/enhanced_logging.py:428-429 | Filtering a list of distinct labels keeps them in list order |
| ResultWriter.GroupHeading | crypto-detector-scripts/enhanced_logging.py:431-432 | A group heading names the label and is underlined by `len(label) + 19` dashes |
| ResultWriter.TextReport | crypto-detector-scripts/enhanced_logging.py:410-438 | The report begins with the header and item count; empty input gives only the header |
| ResultWriter.WithSeveritySingle | crypto-detector-scripts/enhanced_logging.py:460-463 | A single item is in the list of its own severity when it is a scan result, and in no list otherwise |
| ResultWriter.WithSeverityAppend | crypto-detector-scripts/enhanced_logging.py:460-463 | The list over `a + b` is the list over `a` followed by the list over `b`, so each list keeps input order and multiplicity |
| ResultWriter.ResultsOf | crypto-detector-scripts/enhanced_logging.py:460-463 | The items that have a severity are items of the input |
| ResultWriter.ResultsOfSingle | crypto-detector-scripts/enhanced_logging.py:460-463 | A scan result has a severity and is kept; anything else has none and is dropped |
| ResultWriter.ResultsOfAppend | crypto-detector-scripts/enhanced_logging.py:460-463 | The scan results of `a + b` are those of `a` followed by those of `b` |
| ResultWriter.SummaryCover | crypto-detector-scripts/enhanced_logging.py:460-463 | As multisets, the four summary lists together are exactly the scan results among the items: each result is in the list of its severity, and nothing else is in any list |
| ResultWriter.SummaryPartition | crypto-detector-scripts/enhanced_logging.py:460-463 | The sizes of the four summary lists add up to the number of scan results |
| ResultWriter.SummaryListsAreGroups | crypto-detector-scripts/enhanced_logging.py:460-463 | Each summary list is the text report's group of the same label, in input order |
| ResultWriter.FindingPatterns | crypto-detector-scripts/enhanced_logging.py:485 | A finding lists the patterns of at most its first three matches |
| ResultWriter.Summary | crypto-detector-scripts/enhanced_logging.py:458-495 | Starts with the counts of the four lists; with no HIGH or MEDIUM results there is nothing after them |
| ResultWriter.CsvRows | crypto-detector-scripts/enhanced_logging.py:383-392 | Rows exist iff every item is a scan result, one `to_dict` row per item in order |
| ResultWriter.CsvWritten | crypto-detector-scripts/enhanced_logging.py:372-408 | False on an empty list; True iff the list is non-empty and every item is a scan result |
| ResultWriter.JsonWritten | crypto-detector-scripts/enhanced_logging.py:355-370 | False on an empty list; True iff every item is a scan result or every item is not |

## Left out

- Cloud SDK scanning, subprocess calls, the registry, crontab and docker scans, directory walking, file reading and writing, and `main`: host and network I/O. Their outputs are inputs to the model.
- Thread and process pools: `parallel_map_thread` and `parallel_map_process` are modelled as a sequential map in input order.
- The regular-expression engine: abstract. For a pattern with groups, `findall` returns the group captures rather than the whole match, and the model cannot see this.
- The pattern `*/[0-9]+ \* \* \* \*` (enhanced_miner_patterns.py:132) is not a valid regular expression, so compiling the catalog raises at run time. The model keeps it as text.
- `check_for_miners` is not defined in enhanced_miner_patterns.py, so the cloud scanner's import always falls back to the stub. The stub is what is modelled there.
- Memoisation (`lru_cache`, `detection_cache`): every operation is a pure function. The cached `check_for_miners` is keyed on the text alone, ignoring `decode_base64`. The cached `check_text` can go stale after `add_patterns` or `remove_patterns`. The model shows neither.
- `add_patterns` extends the list object it was given, which for the catalog is the module-level list. This aliasing is not modelled.
- Base64 byte decoding and UTF-8 decoding with `errors='ignore'`: library calls, given as a decode parameter.
- The exception handler around base64 expansion in `check_for_miners`: the decoder is total here.
- Timestamps, durations, `datetime.now()` and `PerformanceMonitor`: clocks and resource probes. The scan time is an input string.
- Logging.SuccessRate: computed as an exact real, not a float rounded for display.
- Workers.OptimalWorkers: memory is taken as whole bytes, not the float `memory_gb`; `int(memory_gb / 2)` truncates to the same value.
- Strings.Lower: lower-cases ASCII letters only, not all of Unicode.
- Logger handler and formatter setup and `_format_message`: not modelled.
- enhanced_logging.py as written is not valid Python, on our reading of line 110. The expression part of the f-string in `_format_message` holds backslashes (`\'"\'`). Before Python 3.12 that is a syntax error. From 3.12 on, a backslash outside a string literal inside the braces is still one. So the module cannot be imported, and neither can `CryptoLogger`, `ErrorHandler` or `ResultWriter`. crypto_detector_optimized.py imports the module at line 47 and catches only `ImportError`, so the syntax error stops that script at import as well. The Logging and ResultWriter members, and the members that model crypto_detector_optimized.py, model the code as if the module compiled. If line 110 did compile, it would also emit a stray ")".
- A `CryptoLogger` call with a source (enhanced_logging.py:126-164) passes `extra={"name": ...}`, which clashes with a reserved `LogRecord` attribute, so the call raises `KeyError` whenever its level is enabled. The model assumes every logging call returns. The members that rest on this are listed next.
- Logging.HandleException: its warning, critical or error call (enhanced_logging.py:234-240) raises before the warning or error count goes up, so the handler raises instead of returning. The model counts the message and returns.
- Logging.AttemptRecovery: the first attempt's info call (enhanced_logging.py:267) raises inside the `try`, and the warning in the `except` branch (:283) raises again. The loop therefore leaves after counting one attempt, without calling the recovery function. The model runs the loop as if the log calls return.
- ResultWriter.CsvWritten: `_write_csv([])` warns with a source (enhanced_logging.py:380), the handler's error call (:407) raises too, and the exception leaves the writer instead of it returning False; the success path's info call (:403) raises the same way.
- ResultWriter.JsonWritten: the success path's info call (enhanced_logging.py:365) and the handler's error call (:369) raise, so the writer does not return normally.
- Scoring.ScanFileContent: the large-file branch first logs a debug message with a source (crypto_detector_optimized.py:169), which raises when DEBUG is enabled; the model scores the file.
- Level filtering of the logger: a call is counted whatever the configured level.
- An exception raised inside `handle_exception` itself: not modelled.
- ResultWriter.CsvWritten: lists of plain dictionaries, which `_write_csv` also accepts, are not modelled. Anything that is not a scan result counts as having no `to_dict`.
- Prioritizer.PrioritizeStrings: without a `sample_func` the default is the identity (performance_optimization.py:294-296), so a target that is not a string reaches `pattern.search` and raises `TypeError`. The model covers string targets, with the identity, and takes any other sample function as the `sampleOf` parameter.
- HostParsing.TaskBlocks: the `schtasks` output is read with `text=True` (crypto_detector_optimized.py:373), which turns "\r\n" into "\n", so the split on "\r\n\r\n" at :376 never cuts real output and the whole output is one block. The model splits the text it is given, as written.

=== FILE: base64_heuristics.dfy ===
/**
 * The base64 heuristics of the scanner: whether a token looks like base64,
 * and the expansion of a text with the decodings of the base64-looking
 * tokens it contains.
 *
 * The shape test is the full match of
 * `(?:[A-Za-z0-9+/]{4})*(?:[A-Za-z0-9+/]{2}==|[A-Za-z0-9+/]{3}=|[A-Za-z0-9+/]{4})`,
 * written out below. Finding the candidate tokens in a text (the same
 * expression's `findall`) and decoding them (base64 then UTF-8 with
 * undecodable bytes dropped) are left to parameters.
 */
module Base64Heuristics {
  import opened Strings

  /** `[A-Za-z0-9+/]`. */
  predicate InAlphabet(c: char) {
    ('A' <= c <= 'Z') || ('a' <= c <= 'z') || ('0' <= c <= '9') || c == '+' || c == '/'
  }

  /** The `valid_chars` set: the alphabet and the padding character. */
  predicate ValidChar(c: char) {
    InAlphabet(c) || c == '='
  }

  /** `[A-Za-z0-9+/]{4}`. */
  predicate IsQuad(s: string) {
    |s| == 4 && InAlphabet(s[0]) && InAlphabet(s[1]) && InAlphabet(s[2]) && InAlphabet(s[3])
  }

  /** `[A-Za-z0-9+/]{2}==|[A-Za-z0-9+/]{3}=|[A-Za-z0-9+/]{4}`. */
  predicate IsFinalGroup(s: string) {
    && |s| == 4 && InAlphabet(s[0]) && InAlphabet(s[1])
    && ((s[2] == '=' && s[3] == '=') || (InAlphabet(s[2]) && s[3] == '=') || (InAlphabet(s[2]) && InAlphabet(s[3])))
  }

  /** The full match of the base64 expression: quads, then one final group. */
  predicate FullMatch(s: string)
    decreases |s|
  {
    IsFinalGroup(s) || (|s| > 4 && IsQuad(s[..4]) && FullMatch(s[4..]))
  }

  /** Base64 text as a flat shape: a multiple of four, alphabet characters, and at most two '=' at the end. */
  predicate PaddedShape(s: string) {
    && |s| >= 4 && |s| % 4 == 0
    && (forall i :: 0 <= i < |s| - 2 ==> InAlphabet(s[i]))
    && ((InAlphabet(s[|s| - 2]) && InAlphabet(s[|s| - 1]))
        || (InAlphabet(s[|s| - 2]) && s[|s| - 1] == '=')
        || (s[|s| - 2] == '=' && s[|s| - 1] == '='))
  }

  /** The regular expression accepts exactly the flat padded shape. */
  lemma {:induction false} FullMatchIsPaddedShape(s: string)
    ensures FullMatch(s) <==> PaddedShape(s)
    decreases |s|
  {
    if |s| > 4 {
      var tail := s[4..];
      FullMatchIsPaddedShape(tail);
      assert forall i :: 4 <= i < |s| ==> s[i] == tail[i - 4];
      if PaddedShape(s) {
        assert IsQuad(s[..4]);
        assert PaddedShape(tail);
      }
      if FullMatch(s) {
        assert !IsFinalGroup(s);
        assert IsQuad(s[..4]);
      }
    }
  }

  /** `is_likely_base64`: at least 20 characters, and the full match of the base64 expression. */
  function IsLikelyBase64(s: string): (r: bool)
    ensures r <==> |s| >= 20 && PaddedShape(s)
    ensures |s| < 20 ==> !r
    ensures |s| % 4 != 0 ==> !r
    ensures r ==> forall i :: 0 <= i < |s| ==> ValidChar(s[i])
  {
    FullMatchIsPaddedShape(s);
    if |s| < 20 then false
    else if !FullMatch(s) then false
    else if !(forall i :: 0 <= i < |s| ==> ValidChar(s[i])) then false
    // The padding test of `is_likely_base64`: a string ending in '=' always ends in '=', so it never rejects.
    else if |s| > 0 && s[|s| - 1] == '=' && !(IsPrefix("==", s[|s| - 2..]) || IsPrefix("=", s[|s| - 1..])) then false
    else if |s| % 4 != 0 then false
    else true
  }

  /** A candidate is expanded when it is longer than 20 characters, looks like base64 and decodes to more than 10 characters that are not all whitespace. */
  predicate Expands(candidate: string, decode: string -> string) {
    |candidate| > 20 && IsLikelyBase64(candidate) && |decode(candidate)| > 10 && !AllSpace(decode(candidate))
  }

  /** Only candidates of at least 24 characters are ever expanded. */
  lemma ExpandedCandidatesAreLong(candidate: string, decode: string -> string)
    requires Expands(candidate, decode)
    ensures |candidate| >= 24
  {
  }

  /** What the candidates append, in order: `" " + decoded` for each one that expands. */
  function Expansions(candidates: seq<string>, decode: string -> string): (r: string)
    ensures r == "" <==> forall i :: 0 <= i < |candidates| ==> !Expands(candidates[i], decode)
  {
    if |candidates| == 0 then ""
    else
      var last := candidates[|candidates| - 1];
      var prefix := candidates[..|candidates| - 1];
      assert forall i :: 0 <= i < |prefix| ==> prefix[i] == candidates[i];
      Expansions(prefix, decode) + (if Expands(last, decode) then " " + decode(last) else "")
  }

  lemma ExpansionsLast(candidates: seq<string>, decode: string -> string)
    requires |candidates| > 0
    ensures var last := candidates[|candidates| - 1];
      Expansions(candidates, decode) == Expansions(candidates[..|candidates| - 1], decode) + (if Expands(last, decode) then " " + decode(last) else "")
  {
  }

  /** One candidate appends its decoding after a space when it expands, and nothing otherwise. */
  lemma ExpansionsSingle(candidate: string, decode: string -> string)
    ensures Expansions([candidate], decode) == if Expands(candidate, decode) then " " + decode(candidate) else ""
  {
    assert [candidate][..0] == [];
    ExpansionsLast([candidate], decode);
  }

  /** The expansions of two runs of candidates are those of each, in order. */
  lemma {:induction false} ExpansionsAppend(a: seq<string>, b: seq<string>, decode: string -> string)
    ensures Expansions(a + b, decode) == Expansions(a, decode) + Expansions(b, decode)
    decreases |b|
  {
    if |b| == 0 {
      assert a + b == a;
    } else {
      var ab := a + b;
      var front := b[..|b| - 1];
      var last := b[|b| - 1];
      assert ab[..|ab| - 1] == a + front;
      assert ab[|ab| - 1] == last;
      ExpansionsAppend(a, front, decode);
      ExpansionsLast(ab, decode);
      ExpansionsLast(b, decode);
      AppendAssoc(Expansions(a, decode), Expansions(front, decode), if Expands(last, decode) then " " + decode(last) else "");
    }
  }

  /**
   * `find_and_decode_base64`: the text, followed by the decodings of its
   * base64-looking tokens; empty text comes back unchanged.
   */
  function FindAndDecodeBase64(text: string, candidates: seq<string>, decode: string -> string): (r: string)
    ensures text == "" ==> r == text
    ensures IsPrefix(text, r)
    ensures text != "" ==> (r == text <==> forall i :: 0 <= i < |candidates| ==> !Expands(candidates[i], decode))
  {
    if text == "" then text else text + Expansions(candidates, decode)
  }
}

=== FILE: host_parsing.dfy ===
/**
 * Parsing of the text that host commands print: `schtasks /query /fo LIST /v`
 * blocks into key/value records, `sc query` into service names, and
 * `systemctl list-unit-files` into unit names. The command output is an input;
 * running the commands is not modelled.
 */
module HostParsing {
  import opened Options
  import opened Strings
  import opened Tables
  import opened ScanResults
  import opened Scoring

  // ---------------------------------------------------------------------
  // Scheduled tasks

  /**
   * One line of a task block: the stripped line split at its first colon,
   * key and value stripped. A line without a colon gives nothing.
   */
  function ParseLine(line: string): (r: Option<(string, string)>)
    ensures r.Some? <==> Contains(Strip(line), ":")
    ensures r.Some? ==> forall j :: 0 <= j < |r.value.0| ==> r.value.0[j] != ':'
    ensures r.Some? ==> Trimmed(r.value.0) && Trimmed(r.value.1)
  {
    var s := Strip(line);
    match Find(s, ":")
    case None => None
    case Some(i) =>
      var key := Strip(s[..i]);
      KeyHasNoColon(s, i, key);
      Some((key, Strip(s[i + 1..])))
  }

  lemma NoColonBefore(s: string, i: nat)
    requires Find(s, ":") == Some(i)
    ensures ':' !in s[..i]
  {
    forall j | 0 <= j < i ensures s[..i][j] != ':' {
      assert !IsPrefix(":", s[j..]);
    }
  }

  /** Text taken from before the first colon holds no colon. */
  lemma KeyHasNoColon(s: string, i: nat, key: string)
    requires Find(s, ":") == Some(i)
    requires forall k :: 0 <= k < |key| ==> key[k] in s[..i]
    ensures forall j :: 0 <= j < |key| ==> key[j] != ':'
  {
    NoColonBefore(s, i);
  }

  /**
   * A parsed line is the stripped line cut at its first colon: whenever the
   * stripped line is `before:after` with no colon in `before`, the key is
   * `before` stripped and the value `after` stripped.
   */
  lemma ParseLineSplitsAtFirstColon(line: string, before: string, after: string)
    requires Strip(line) == before + ":" + after
    requires forall j :: 0 <= j < |before| ==> before[j] != ':'
    ensures ParseLine(line) == Some((Strip(before), Strip(after)))
  {
    ColonSplit(Strip(line), before, after);
    ParseLineAt(line, |before|);
  }

  /** Text `before:after` with no colon in `before` has its first colon right after `before`. */
  lemma ColonSplit(s: string, before: string, after: string)
    requires s == before + ":" + after
    requires forall j :: 0 <= j < |before| ==> before[j] != ':'
    ensures Find(s, ":") == Some(|before|)
    ensures s[..|before|] == before && s[|before| + 1..] == after
  {
    FindAfterColonFree(before, after);
  }

  /** A line whose stripped text has its first colon at `i` parses into the stripped text on either side. */
  lemma ParseLineAt(line: string, i: nat)
    requires Find(Strip(line), ":") == Some(i)
    ensures ParseLine(line) == Some((Strip(Strip(line)[..i]), Strip(Strip(line)[i + 1..])))
  {
  }

  /** An entry sets key `k`. */
  predicate Sets(e: Option<(string, string)>, k: string) {
    e.Some? && e.value.0 == k
  }

  /** The dictionary the assignments build, later ones overwriting earlier ones, keys in first-set order. */
  function Assign(es: seq<Option<(string, string)>>): (t: Table<string>)
    ensures DistinctKeys(t)
  {
    if |es| == 0 then []
    else
      var prev := Assign(es[..|es| - 1]);
      match es[|es| - 1]
      case None => prev
      case Some((k, v)) =>
        PutKeepsKeysDistinct(prev, k, v);
        Put(prev, k, v)
  }

  /** One assignment more: it either sets `k` or leaves it as it was. */
  lemma AssignStep(es: seq<Option<(string, string)>>, k: string)
    requires |es| > 0
    ensures Lookup(Assign(es), k)
         == if Sets(es[|es| - 1], k) then Some(es[|es| - 1].value.1) else Lookup(Assign(es[..|es| - 1]), k)
  {
  }

  /** The position of the last assignment that sets `k`, if any. */
  function LastSetter(es: seq<Option<(string, string)>>, k: string): (r: Option<nat>)
    ensures r.None? <==> forall i :: 0 <= i < |es| ==> !Sets(es[i], k)
    ensures r.Some? ==> r.value < |es| && Sets(es[r.value], k)
    ensures r.Some? ==> forall j :: r.value < j < |es| ==> !Sets(es[j], k)
  {
    if |es| == 0 then None
    else if Sets(es[|es| - 1], k) then Some(|es| - 1)
    else
      var prefix := es[..|es| - 1];
      assert forall i :: 0 <= i < |prefix| ==> prefix[i] == es[i];
      LastSetter(prefix, k)
  }

  /**
   * The value a key has in the dictionary is the one the LAST assignment
   * setting it gives, and a key no assignment sets is absent.
   */
  lemma {:induction false} LastAssignmentWins(es: seq<Option<(string, string)>>, k: string)
    ensures Lookup(Assign(es), k) == match LastSetter(es, k)
      case None => None
      case Some(i) => Some(es[i].value.1)
    decreases |es|
  {
    if |es| > 0 {
      AssignStep(es, k);
      LastAssignmentWins(es[..|es| - 1], k);
    }
  }

  /** The parsed lines, one entry per line. */
  function LineEntries(lines: seq<string>): (es: seq<Option<(string, string)>>)
    ensures |es| == |lines| && forall i :: 0 <= i < |lines| ==> es[i] == ParseLine(lines[i])
  {
    seq(|lines|, i requires 0 <= i < |lines| => ParseLine(lines[i]))
  }

  /** `task_dict` as `process_task_block` fills it from a block. */
  function ParseTaskDict(block: string): (t: Table<string>)
    ensures DistinctKeys(t)
  {
    Assign(LineEntries(SplitLines(block)))
  }

  /**
   * A key is in the scheduled-task record exactly when some line of the block defines
   * it, and its value is the one of the LAST line defining it.
   */
  lemma LastLineWins(block: string, k: string)
    ensures var lines := SplitLines(block);
      Lookup(ParseTaskDict(block), k) == match LastSetter(LineEntries(lines), k)
        case None => None
        case Some(i) => Some(ParseLine(lines[i]).value.1)
  {
    LastAssignmentWins(LineEntries(SplitLines(block)), k);
  }

  /**
   * `process_task_block`: a block that is all whitespace gives nothing; so does
   * one without both a `TaskName` and a `Command` line, and one whose JSON
   * rendering (`dumps`) scores 0. Otherwise the result is named after the scheduled task
   * and shows its command.
   */
  function ProcessTaskBlock(d: Detector, block: string, dumps: Table<string> -> string): (r: Option<ScanResult>)
    ensures r.Some? <==>
      && !AllSpace(block)
      && Lookup(ParseTaskDict(block), "TaskName").Some?
      && Lookup(ParseTaskDict(block), "Command").Some?
      && CheckForMiners(d, dumps(ParseTaskDict(block)), true).0 > 0
    ensures r.Some? ==>
      && r.value.source == "Windows Scheduled Task"
      && r.value.itemType == Lookup(ParseTaskDict(block), "TaskName").value
      && r.value.content == Lookup(ParseTaskDict(block), "Command").value
      && r.value.score > 0
      && r.value.Severity() != CLEAN
    ensures r.Some? ==>
      && r.value.score == CheckForMiners(d, dumps(ParseTaskDict(block)), true).0
      && r.value.matches == CheckForMiners(d, dumps(ParseTaskDict(block)), true).1
  {
    if Strip(block) == "" then None
    else
      var t := ParseTaskDict(block);
      match (Lookup(t, "TaskName"), Lookup(t, "Command"))
      case (Some(name), Some(command)) =>
        var (score, matches) := CheckForMiners(d, dumps(t), true);
        if score > 0 then Some(NewScanResult("Windows Scheduled Task", name, command, Some(matches), score))
        else None
      case _ => None
  }

  /**
   * `tasks.split("\r\n\r\n")`: joining the blocks back gives the output, no
   * block holds the separator, and each separator is the leftmost one
   * (`SplitOnUnique`: nothing else has these properties).
   */
  function TaskBlocks(output: string): (r: seq<string>)
    ensures |r| >= 1
    ensures Join(r, "\r\n\r\n") == output
    ensures LeftmostParts(r, "\r\n\r\n")
  {
    JoinSplitOn(output, "\r\n\r\n");
    SplitOn(output, "\r\n\r\n")
  }

  /** `[r for r in map(f, xs) if r]`: the results `f` gives, in order. */
  function Collect<T(!new)>(xs: seq<string>, f: string -> Option<T>): (r: seq<T>)
    ensures |r| <= |xs|
    ensures forall y :: y in r <==> exists x :: x in xs && f(x) == Some(y)
  {
    if |xs| == 0 then []
    else
      var prev := Collect(xs[..|xs| - 1], f);
      assert xs == xs[..|xs| - 1] + [xs[|xs| - 1]];
      match f(xs[|xs| - 1])
      case None => prev
      case Some(y) => prev + [y]
  }

  /** The list a single result contributes: itself, or nothing. */
  function AsSeq<T>(o: Option<T>): seq<T> {
    match o
    case None => []
    case Some(y) => [y]
  }

  lemma CollectLast<T(!new)>(xs: seq<string>, f: string -> Option<T>)
    requires |xs| > 0
    ensures Collect(xs, f) == Collect(xs[..|xs| - 1], f) + AsSeq(f(xs[|xs| - 1]))
  {
  }

  /** Collecting over two runs of blocks concatenates the two results. */
  lemma {:induction false} CollectAppend<T(!new)>(a: seq<string>, b: seq<string>, f: string -> Option<T>)
    ensures Collect(a + b, f) == Collect(a, f) + Collect(b, f)
    decreases |b|
  {
    if |b| == 0 {
      assert a + b == a;
    } else {
      var ab := a + b;
      var front := b[..|b| - 1];
      assert ab[..|ab| - 1] == a + front;
      assert ab[|ab| - 1] == b[|b| - 1];
      CollectAppend(a, front, f);
      CollectLast(ab, f);
      CollectLast(b, f);
      AppendAssoc(Collect(a, f), Collect(front, f), AsSeq(f(b[|b| - 1])));
    }
  }

  /** One block gives its result, or nothing. */
  lemma CollectSingle<T(!new)>(x: string, f: string -> Option<T>)
    ensures Collect([x], f) == match f(x) case None => [] case Some(y) => [y]
  {
    assert [x][..0] == [];
    CollectLast([x], f);
  }

  /** The scheduled-task part of the Windows scan, given the `schtasks` output: the results of the blocks that give one. */
  function ScanScheduledTasks(d: Detector, output: string, dumps: Table<string> -> string): (r: seq<ScanResult>)
    ensures |r| <= |TaskBlocks(output)|
    ensures forall x :: x in r <==> exists b :: b in TaskBlocks(output) && ProcessTaskBlock(d, b, dumps) == Some(x)
  {
    Collect(TaskBlocks(output), b => ProcessTaskBlock(d, b, dumps))
  }

  /** Every scheduled-task result has a positive score and so a severity above CLEAN. */
  lemma ScheduledTaskResultsScore(d: Detector, output: string, dumps: Table<string> -> string)
    ensures forall x :: x in ScanScheduledTasks(d, output, dumps) ==> x.score > 0 && x.Severity() != CLEAN
  {
    forall x | x in ScanScheduledTasks(d, output, dumps) ensures x.score > 0 && x.Severity() != CLEAN {
      var b :| b in TaskBlocks(output) && ProcessTaskBlock(d, b, dumps) == Some(x);
    }
  }

  // ---------------------------------------------------------------------
  // Service and unit names

  /** A line `sc query` prints for a service. */
  predicate IsServiceNameLine(line: string) {
    Contains(line, "SERVICE_NAME")
  }

  /** A service-name line without a colon: `line.split(":", 1)[1]` raises IndexError on it. */
  predicate Raises(line: string) {
    IsServiceNameLine(line) && !Contains(line, ":")
  }

  /**
   * The service-name loop: the stripped text after the first colon of every
   * line mentioning `SERVICE_NAME`. A line that raises abandons the whole
   * extraction: `None`.
   */
  function ServiceNamesOf(lines: seq<string>): (r: Option<seq<string>>)
    ensures r.Some? ==> |r.value| <= |lines|
    ensures r.Some? ==> forall i :: 0 <= i < |r.value| ==> Trimmed(r.value[i])
  {
    if |lines| == 0 then Some([])
    else
      var prev := ServiceNamesOf(lines[..|lines| - 1]);
      var last := LineServiceNames(lines[|lines| - 1]);
      if prev.Some? && last.Some? then
        TrimmedAppend(prev.value, last.value);
        Some(prev.value + last.value)
      else None
  }

  /** The names one line contributes: none, its stripped name, or a failure. */
  function LineServiceNames(line: string): (r: Option<seq<string>>)
    ensures r.Some? ==> |r.value| <= 1 && forall i :: 0 <= i < |r.value| ==> Trimmed(r.value[i])
    ensures r.None? <==> Raises(line)
  {
    if !IsServiceNameLine(line) then Some([])
    else match Find(line, ":")
      case None => None
      case Some(i) => Some([Strip(line[i + 1..])])
  }

  /** Two outcomes in sequence: both names lists, or the failure. */
  function Both(x: Option<seq<string>>, y: Option<seq<string>>): (r: Option<seq<string>>)
    ensures r.None? <==> x.None? || y.None?
  {
    if x.Some? && y.Some? then Some(x.value + y.value) else None
  }

  lemma TrimmedAppend(names: seq<string>, more: seq<string>)
    requires forall i :: 0 <= i < |names| ==> Trimmed(names[i])
    requires forall i :: 0 <= i < |more| ==> Trimmed(more[i])
    ensures forall i :: 0 <= i < |names + more| ==> Trimmed((names + more)[i])
  {
    forall i | 0 <= i < |names + more|
      ensures Trimmed((names + more)[i])
    {
      if i >= |names| {
        assert (names + more)[i] == more[i - |names|];
      }
    }
  }

  /** The extraction fails exactly when some line raises. */
  lemma {:induction false} ServiceNamesFailOnlyOnRaise(lines: seq<string>)
    ensures ServiceNamesOf(lines).None? <==> exists i :: 0 <= i < |lines| && Raises(lines[i])
    decreases |lines|
  {
    if |lines| > 0 {
      ServiceNamesFailOnlyOnRaise(lines[..|lines| - 1]);
      ServiceNamesLast(lines);
      SomeRaisesSplit(lines, lines[..|lines| - 1]);
    }
  }

  lemma SomeRaisesSplit(lines: seq<string>, front: seq<string>)
    requires |lines| > 0 && front == lines[..|lines| - 1]
    ensures (exists i :: 0 <= i < |lines| && Raises(lines[i])) <==>
      (exists i :: 0 <= i < |front| && Raises(front[i])) || Raises(lines[|lines| - 1])
  {
    SomeSplit(lines, front, Raises);
  }

  lemma SomeSplit<T>(xs: seq<T>, front: seq<T>, p: T -> bool)
    requires |xs| > 0 && front == xs[..|xs| - 1]
    ensures (exists i :: 0 <= i < |xs| && p(xs[i])) <==> (exists i :: 0 <= i < |front| && p(front[i])) || p(xs[|xs| - 1])
  {
    if exists i :: 0 <= i < |front| && p(front[i]) {
      var i :| 0 <= i < |front| && p(front[i]);
      assert front[i] == xs[i];
    }
    forall i | 0 <= i < |front| && p(xs[i])
      ensures p(front[i])
    {
      assert front[i] == xs[i];
    }
  }

  lemma ServiceNamesLast(lines: seq<string>)
    requires |lines| > 0
    ensures ServiceNamesOf(lines) == Both(ServiceNamesOf(lines[..|lines| - 1]), LineServiceNames(lines[|lines| - 1]))
  {
  }

  /** One line: its name when it is a service-name line with a colon, nothing for another line. */
  lemma ServiceNamesSingle(line: string)
    ensures !IsServiceNameLine(line) ==> ServiceNamesOf([line]) == Some([])
    ensures Raises(line) ==> ServiceNamesOf([line]).None?
    ensures IsServiceNameLine(line) && Contains(line, ":") ==>
      ServiceNamesOf([line]) == Some([Strip(line[Find(line, ":").value + 1..])])
  {
    ServiceNamesOne(line);
    LineServiceNamesCases(line);
  }

  lemma LineServiceNamesCases(line: string)
    ensures !IsServiceNameLine(line) ==> LineServiceNames(line) == Some([])
    ensures IsServiceNameLine(line) && Contains(line, ":") ==>
      LineServiceNames(line) == Some([Strip(line[Find(line, ":").value + 1..])])
  {
    if !IsServiceNameLine(line) {
      LineServiceNamesUntagged(line);
    } else if Contains(line, ":") {
      LineServiceNamesAt(line, Find(line, ":").value);
    }
  }

  lemma LineServiceNamesUntagged(line: string)
    requires !IsServiceNameLine(line)
    ensures LineServiceNames(line) == Some([])
  {
    var r := LineServiceNames(line);
    assert r.Some? && |r.value| == 0;
  }

  lemma LineServiceNamesAt(line: string, i: nat)
    requires IsServiceNameLine(line) && Find(line, ":") == Some(i)
    ensures LineServiceNames(line) == Some([Strip(line[i + 1..])])
  {
    var r := LineServiceNames(line);
    assert r.Some? && |r.value| == 1 && r.value[0] == Strip(line[i + 1..]);
    assert r.value == [r.value[0]];
  }

  lemma ServiceNamesOne(line: string)
    ensures ServiceNamesOf([line]) == LineServiceNames(line)
  {
    assert [line][..0] == [];
    ServiceNamesLast([line]);
    var y := LineServiceNames(line);
    if y.Some? {
      assert [] + y.value == y.value;
    }
  }

  /**
   * The extraction over two runs of lines: the names of both, in order, when
   * neither fails; a failure in either fails the whole.
   */
  lemma {:induction false} ServiceNamesAppend(a: seq<string>, b: seq<string>)
    ensures ServiceNamesOf(a + b) ==
      if ServiceNamesOf(a).Some? && ServiceNamesOf(b).Some? then Some(ServiceNamesOf(a).value + ServiceNamesOf(b).value)
      else None
    decreases |b|
  {
    if |b| == 0 {
      assert a + b == a;
      if ServiceNamesOf(a).Some? {
        assert ServiceNamesOf(a).value + [] == ServiceNamesOf(a).value;
      }
    } else {
      var ab := a + b;
      var front := b[..|b| - 1];
      assert ab[..|ab| - 1] == a + front;
      assert ab[|ab| - 1] == b[|b| - 1];
      ServiceNamesAppend(a, front);
      ServiceNamesLast(ab);
      ServiceNamesLast(b);
      BothAssoc(ServiceNamesOf(a), ServiceNamesOf(front), LineServiceNames(b[|b| - 1]));
    }
  }

  lemma BothAssoc(x: Option<seq<string>>, y: Option<seq<string>>, z: Option<seq<string>>)
    ensures Both(Both(x, y), z) == Both(x, Both(y, z))
  {
    if x.Some? && y.Some? && z.Some? {
      AppendAssoc(x.value, y.value, z.value);
    }
  }

  /** The `sc query` part: service names from the output's lines. */
  function ServiceNames(output: string): Option<seq<string>> {
    ServiceNamesOf(SplitLines(output))
  }

  lemma {:induction false} FindAfterColonFree(p: string, rest: string)
    requires forall j :: 0 <= j < |p| ==> p[j] != ':'
    ensures Find(p + ":" + rest, ":") == Some(|p|)
    decreases |p|
  {
    var s := p + ":" + rest;
    if |p| == 0 {
      assert s[..1] == ":";
    } else {
      assert !IsPrefix(":", s) by {
        assert s[0] == p[0];
      }
      assert s[1..] == p[1..] + ":" + rest;
      FindAfterColonFree(p[1..], rest);
    }
  }

  /** A line `systemctl list-unit-files` prints for a service or timer unit. */
  predicate IsUnitLine(line: string) {
    Contains(line, ".service") || Contains(line, ".timer")
  }

  /** A line holding a non-space character is not all whitespace. */
  lemma ContainsNotAllSpace(line: string, sub: string)
    requires Contains(line, sub) && |sub| > 0 && !IsSpace(sub[0])
    ensures !AllSpace(line)
  {
    var i := Find(line, sub).value;
    assert line[i] == line[i..i + |sub|][0];
  }

  lemma UnitLineHasToken(line: string)
    requires IsUnitLine(line)
    ensures FirstToken(line).Some?
  {
    if Contains(line, ".service") {
      ContainsNotAllSpace(line, ".service");
    } else {
      ContainsNotAllSpace(line, ".timer");
    }
  }

  /** The unit lines, in order. */
  function UnitLines(lines: seq<string>): (r: seq<string>)
    ensures |r| <= |lines|
    ensures forall i :: 0 <= i < |r| ==> IsUnitLine(r[i]) && r[i] in lines
    ensures (forall i :: 0 <= i < |lines| ==> IsUnitLine(lines[i])) ==> r == lines
  {
    if |lines| == 0 then []
    else
      var n := |lines| - 1;
      var prev := UnitLines(lines[..n]);
      assert forall i :: 0 <= i < |prev| ==> prev[i] in lines[..n];
      if IsUnitLine(lines[n]) then
        assert lines == lines[..n] + [lines[n]];
        prev + [lines[n]]
      else prev
  }

  /**
   * The unit-name loop: the first token of every unit line, one per unit
   * line. A unit line always has one, so `split()[0]` never fails here.
   */
  function UnitNamesOf(lines: seq<string>): (r: seq<string>)
    ensures |r| == |UnitLines(lines)|
    ensures forall i :: 0 <= i < |r| ==> |r[i]| > 0 && forall j :: 0 <= j < |r[i]| ==> !IsSpace(r[i][j])
    ensures forall i :: 0 <= i < |r| ==> IsPrefix(r[i], LStrip(UnitLines(lines)[i]))
    ensures forall i :: 0 <= i < |r| ==> FirstToken(UnitLines(lines)[i]) == Some(r[i])
  {
    if |lines| == 0 then []
    else
      var n := |lines| - 1;
      var line := lines[n];
      var prev := UnitNamesOf(lines[..n]);
      if IsUnitLine(line) then
        UnitLineHasToken(line);
        prev + [FirstToken(line).value]
      else prev
  }

  /** One line is kept exactly when it is a unit line. */
  lemma UnitLinesSingle(line: string)
    ensures UnitLines([line]) == if IsUnitLine(line) then [line] else []
  {
    assert [line][..0] == [];
  }

  lemma UnitLinesLast(lines: seq<string>)
    requires |lines| > 0
    ensures UnitLines(lines) == UnitLines(lines[..|lines| - 1]) + (if IsUnitLine(lines[|lines| - 1]) then [lines[|lines| - 1]] else [])
  {
  }

  /** The unit lines of two runs of lines are those of each, in order. */
  lemma {:induction false} UnitLinesAppend(a: seq<string>, b: seq<string>)
    ensures UnitLines(a + b) == UnitLines(a) + UnitLines(b)
    decreases |b|
  {
    if |b| == 0 {
      assert a + b == a;
    } else {
      var ab := a + b;
      var front := b[..|b| - 1];
      var last := b[|b| - 1];
      assert ab[..|ab| - 1] == a + front;
      assert ab[|ab| - 1] == last;
      UnitLinesAppend(a, front);
      UnitLinesLast(ab);
      UnitLinesLast(b);
      AppendAssoc(UnitLines(a), UnitLines(front), if IsUnitLine(last) then [last] else []);
    }
  }

  /** The enabled-units part of the Linux scan: unit names from the output's lines. */
  function SystemdUnitNames(output: string): seq<string> {
    UnitNamesOf(SplitLines(output))
  }

  lemma ContainsExtend(a: string, b: string, sub: string)
    requires Contains(a, sub)
    ensures Contains(a + b, sub)
  {
    var i := Find(a, sub).value;
    assert (a + b)[i..][..|sub|] == a[i..i + |sub|];
    assert IsPrefix(sub, (a + b)[i..]);
  }

  /** A line `<unit> <state> ...` whose unit names a service yields exactly that unit. */
  lemma UnitNameLine(unit: string, rest: string)
    requires |unit| > 0 && forall j :: 0 <= j < |unit| ==> !IsSpace(unit[j])
    requires Contains(unit, ".service")
    ensures UnitNamesOf([unit + " " + rest]) == [unit]
  {
    var line := unit + " " + rest;
    ContainsExtend(unit, " " + rest, ".service");
    assert line == unit + (" " + rest);
    FirstTokenOfWord(unit, rest);
    UnitNamesOfSingle(line);
  }

  /** One line gives its first token when it is a unit line, and nothing otherwise. */
  lemma UnitNamesOfSingle(line: string)
    ensures IsUnitLine(line) ==> FirstToken(line).Some? && UnitNamesOf([line]) == [FirstToken(line).value]
    ensures !IsUnitLine(line) ==> UnitNamesOf([line]) == []
  {
    assert [line][..0] == [];
    if IsUnitLine(line) {
      UnitLineHasToken(line);
    }
  }

  /** The first token of a word followed by a space is the word. */
  lemma FirstTokenOfWord(word: string, rest: string)
    requires |word| > 0 && forall j :: 0 <= j < |word| ==> !IsSpace(word[j])
    ensures FirstToken(word + " " + rest) == Some(word)
  {
    var line := word + " " + rest;
    assert line[0] == word[0];
    assert LStrip(line) == line;
    var tok := TakeUntilSpace(line);
    assert line[|word|] == ' ';
    assert forall j :: 0 <= j < |word| ==> line[j] == word[j];
    assert |tok| == |word|;
    assert tok == line[..|word|] == word;
  }
}

=== FILE: logging.dfy ===
/**
 * `CryptoLogger` statistics and `ErrorHandler`: what each logging call and
 * each handled exception does to the counters, and the retry loop of a
 * recovery. Messages, formatting, handlers and clocks are not modelled; a
 * call is represented by the level it logs at.
 */
module Logging {
  import opened Options

  datatype LogLevel = DEBUG | INFO | WARNING | ERROR | CRITICAL

  /** The five per-level counters of `CryptoLogger.stats`. */
  datatype LogStats = LogStats(debugCount: nat, infoCount: nat, warningCount: nat, errorCount: nat, criticalCount: nat)
  {
    /** The counter of one level. */
    function CountOf(level: LogLevel): nat {
      match level
      case DEBUG => debugCount
      case INFO => infoCount
      case WARNING => warningCount
      case ERROR => errorCount
      case CRITICAL => criticalCount
    }

    /** `get_stats()["total_logs"]`. */
    function TotalLogs(): (n: nat)
      ensures n == CountOf(DEBUG) + CountOf(INFO) + CountOf(WARNING) + CountOf(ERROR) + CountOf(CRITICAL)
    {
      debugCount + infoCount + warningCount + errorCount + criticalCount
    }
  }

  const InitialStats := LogStats(0, 0, 0, 0, 0)

  /** `_update_stats(level)`: one more message at `level`, every other counter as it was. */
  function UpdateStats(s: LogStats, level: LogLevel): (r: LogStats)
    ensures r.CountOf(level) == s.CountOf(level) + 1
    ensures forall l :: l != level ==> r.CountOf(l) == s.CountOf(l)
    ensures r.TotalLogs() == s.TotalLogs() + 1
  {
    match level
    case DEBUG => s.(debugCount := s.debugCount + 1)
    case INFO => s.(infoCount := s.infoCount + 1)
    case WARNING => s.(warningCount := s.warningCount + 1)
    case ERROR => s.(errorCount := s.errorCount + 1)
    case CRITICAL => s.(criticalCount := s.criticalCount + 1)
  }

  /** The counters after a sequence of logging calls, whatever the configured level filters out. */
  function Replay(s: LogStats, levels: seq<LogLevel>): LogStats {
    if |levels| == 0 then s else UpdateStats(Replay(s, levels[..|levels| - 1]), levels[|levels| - 1])
  }

  /** How many of the calls log at `level`. */
  function Occurrences(levels: seq<LogLevel>, level: LogLevel): nat {
    if |levels| == 0 then 0
    else Occurrences(levels[..|levels| - 1], level) + if levels[|levels| - 1] == level then 1 else 0
  }

  /** From fresh counters, each counter is the number of calls at its level and the total is the number of calls. */
  lemma {:induction false} ReplayCounts(levels: seq<LogLevel>)
    ensures forall l :: Replay(InitialStats, levels).CountOf(l) == Occurrences(levels, l)
    ensures Replay(InitialStats, levels).TotalLogs() == |levels|
    decreases |levels|
  {
    if |levels| > 0 {
      ReplayCounts(levels[..|levels| - 1]);
    }
  }

  lemma {:induction false} ReplayAppend(s: LogStats, a: seq<LogLevel>, b: seq<LogLevel>)
    ensures Replay(s, a + b) == Replay(Replay(s, a), b)
    decreases |b|
  {
    if |b| == 0 {
      assert a + b == a;
    } else {
      assert (a + b)[..|a + b| - 1] == a + b[..|b| - 1];
      ReplayAppend(s, a, b[..|b| - 1]);
    }
  }

  // ---------------------------------------------------------------------
  // Error handling

  /** The four counters of an `ErrorHandler`. */
  datatype HandlerStats = HandlerStats(errorCount: nat, warningCount: nat, recoveryAttempts: nat, successfulRecoveries: nat)
  {
    /** Every successful recovery was an attempt. */
    predicate Valid() {
      successfulRecoveries <= recoveryAttempts
    }
  }

  /** `recovery_success_rate`: successes as a percentage of attempts, 0 before any attempt. */
  function SuccessRate(h: HandlerStats): (r: real)
    ensures h.recoveryAttempts == 0 ==> r == 0.0
    ensures h.Valid() ==> 0.0 <= r <= 100.0
    ensures h.Valid() && h.recoveryAttempts > 0 ==> (r == 100.0 <==> h.successfulRecoveries == h.recoveryAttempts)
  {
    if h.recoveryAttempts > 0 then (h.successfulRecoveries as real / h.recoveryAttempts as real) * 100.0 else 0.0
  }

  const InitialHandler := HandlerStats(0, 0, 0, 0)

  /**
   * A recovery function, by attempt number: `Some(result)` when the call
   * returns, `None` when it raises. Its arguments are fixed for the whole
   * recovery, so they are part of the function.
   */
  type Recovery<R> = nat -> Option<R>

  /** The number of the first successful attempt among `1..maxRetries`, if any. */
  function FirstSuccess<R>(recovery: Recovery<R>, maxRetries: int): (k: Option<nat>)
    ensures k.Some? ==> 1 <= k.value <= maxRetries && recovery(k.value).Some?
    ensures k.Some? ==> forall j :: 1 <= j < k.value ==> recovery(j).None?
    ensures k.None? ==> forall j :: 1 <= j <= maxRetries ==> recovery(j).None?
    decreases if maxRetries < 0 then 0 else maxRetries
  {
    if maxRetries < 1 then None
    else match FirstSuccess(recovery, maxRetries - 1)
      case Some(k) => Some(k)
      case None => if recovery(maxRetries).Some? then Some(maxRetries) else None
  }

  /** The levels logged by `n` failed recovery attempts: INFO before each attempt, WARNING after it. */
  function FailedAttempts(n: nat): (r: seq<LogLevel>)
    ensures |r| == 2 * n
    ensures forall i :: 0 <= i < |r| ==> r[i] == if i % 2 == 0 then INFO else WARNING
  {
    if n == 0 then [] else FailedAttempts(n - 1) + [INFO, WARNING]
  }

  lemma {:induction false} OccurrencesAppend(a: seq<LogLevel>, b: seq<LogLevel>, level: LogLevel)
    ensures Occurrences(a + b, level) == Occurrences(a, level) + Occurrences(b, level)
    decreases |b|
  {
    if |b| == 0 {
      assert a + b == a;
    } else {
      assert (a + b)[..|a + b| - 1] == a + b[..|b| - 1];
      OccurrencesAppend(a, b[..|b| - 1], level);
    }
  }

  /** `n` failed attempts log `n` times at INFO, `n` times at WARNING, and nothing else. */
  lemma {:induction false} FailedAttemptsCount(n: nat, level: LogLevel)
    ensures Occurrences(FailedAttempts(n), level) == if level == INFO || level == WARNING then n else 0
  {
    if n > 0 {
      FailedAttemptsCount(n - 1, level);
      OccurrencesAppend(FailedAttempts(n - 1), [INFO, WARNING], level);
      assert [INFO, WARNING][..1] == [INFO];
      assert [INFO][..0] == [];
    }
  }

  /**
   * Replayed into fresh counters, a recovery whose attempt `k` succeeds logs
   * `k + 1` INFO and `k - 1` WARNING messages; one that fails all `n`
   * attempts logs `n` INFO, `n` WARNING and one ERROR message.
   */
  lemma RecoveryLogCounts(k: nat, n: nat, level: LogLevel)
    requires k >= 1
    ensures Replay(InitialStats, FailedAttempts(k - 1) + [INFO, INFO]).CountOf(level)
         == if level == INFO then k + 1 else if level == WARNING then k - 1 else 0
    ensures Replay(InitialStats, FailedAttempts(n) + [ERROR]).CountOf(level)
         == if level == INFO || level == WARNING then n else if level == ERROR then 1 else 0
  {
    SuccessLogCount(k, level);
    FailureLogCount(n, level);
  }

  lemma SuccessLogCount(k: nat, level: LogLevel)
    requires k >= 1
    ensures Occurrences(FailedAttempts(k - 1) + [INFO, INFO], level)
         == if level == INFO then k + 1 else if level == WARNING then k - 1 else 0
    ensures Replay(InitialStats, FailedAttempts(k - 1) + [INFO, INFO]).CountOf(level)
         == Occurrences(FailedAttempts(k - 1) + [INFO, INFO], level)
  {
    var logged := FailedAttempts(k - 1) + [INFO, INFO];
    ReplayCounts(logged);
    FailedAttemptsCount(k - 1, level);
    OccurrencesAppend(FailedAttempts(k - 1), [INFO, INFO], level);
    assert [INFO, INFO][..1] == [INFO];
    assert [INFO][..0] == [];
  }

  lemma FailureLogCount(n: nat, level: LogLevel)
    ensures Occurrences(FailedAttempts(n) + [ERROR], level)
         == if level == INFO || level == WARNING then n else if level == ERROR then 1 else 0
    ensures Replay(InitialStats, FailedAttempts(n) + [ERROR]).CountOf(level)
         == Occurrences(FailedAttempts(n) + [ERROR], level)
  {
    var logged := FailedAttempts(n) + [ERROR];
    ReplayCounts(logged);
    FailedAttemptsCount(n, level);
    OccurrencesAppend(FailedAttempts(n), [ERROR], level);
    assert [ERROR][..0] == [];
  }

  /**
   * `_attempt_recovery`: attempts 1, 2, ... up to `max_retries`, each counted,
   * until one returns. Also gives the levels it logs at: INFO before each
   * attempt, INFO on success, WARNING on each failure, ERROR when all fail
   * (RecoveryLogCounts turns these into the logger's counters).
   */
  method AttemptRecovery<R>(h: HandlerStats, recovery: Recovery<R>, maxRetries: int)
    returns (h': HandlerStats, success: bool, result: Option<R>, logged: seq<LogLevel>)
    ensures h'.errorCount == h.errorCount && h'.warningCount == h.warningCount
    ensures success <==> FirstSuccess(recovery, maxRetries).Some?
    ensures success ==> var k := FirstSuccess(recovery, maxRetries).value;
      && result == recovery(k)
      && h'.recoveryAttempts == h.recoveryAttempts + k
      && h'.successfulRecoveries == h.successfulRecoveries + 1
      && |logged| == 2 * k
      && logged == FailedAttempts(k - 1) + [INFO, INFO]
    ensures !success ==>
      && result == None
      && h'.recoveryAttempts == h.recoveryAttempts + (if maxRetries < 0 then 0 else maxRetries)
      && h'.successfulRecoveries == h.successfulRecoveries
      && |logged| == 2 * (if maxRetries < 0 then 0 else maxRetries) + 1
      && logged[|logged| - 1] == ERROR
      && logged == FailedAttempts(if maxRetries < 0 then 0 else maxRetries) + [ERROR]
    ensures h.Valid() ==> h'.Valid()
  {
    h' := h;
    logged := [];
    var attempt := 1;
    while attempt <= maxRetries
      invariant 1 <= attempt
      invariant attempt <= maxRetries + 1 || attempt == 1
      invariant forall j :: 1 <= j < attempt ==> recovery(j).None?
      invariant h' == h.(recoveryAttempts := h.recoveryAttempts + attempt - 1)
      invariant logged == FailedAttempts(attempt - 1)
      decreases maxRetries - attempt
    {
      h' := h'.(recoveryAttempts := h'.recoveryAttempts + 1);
      logged := logged + [INFO];
      var outcome := recovery(attempt);
      if outcome.Some? {
        h' := h'.(successfulRecoveries := h'.successfulRecoveries + 1);
        logged := logged + [INFO];
        FirstSuccessIs(recovery, maxRetries, attempt);
        return h', true, outcome, logged;
      }
      logged := logged + [WARNING];
      assert logged == FailedAttempts(attempt);
      attempt := attempt + 1;
    }
    logged := logged + [ERROR];
    return h', false, None, logged;
  }

  /** The first success is the first attempt that returns. */
  lemma {:induction false} FirstSuccessIs<R>(recovery: Recovery<R>, maxRetries: int, k: nat)
    requires 1 <= k <= maxRetries && recovery(k).Some?
    requires forall j :: 1 <= j < k ==> recovery(j).None?
    ensures FirstSuccess(recovery, maxRetries) == Some(k)
    decreases maxRetries
  {
    if maxRetries > k {
      FirstSuccessIs(recovery, maxRetries - 1, k);
    } else {
      assert FirstSuccess(recovery, maxRetries - 1).None?;
    }
  }

  /**
   * `handle_exception`: a WARNING counts as a warning and anything else as an
   * error, logged at WARNING, CRITICAL or ERROR; with a recovery function the
   * recovery is attempted, without one the result is (False, None).
   */
  method HandleException<R>(h: HandlerStats, severity: LogLevel, recovery: Option<Recovery<R>>, maxRetries: int)
    returns (h': HandlerStats, success: bool, result: Option<R>, logged: seq<LogLevel>)
    ensures severity == WARNING ==> h'.warningCount == h.warningCount + 1 && h'.errorCount == h.errorCount
    ensures severity != WARNING ==> h'.errorCount == h.errorCount + 1 && h'.warningCount == h.warningCount
    ensures |logged| >= 1 && logged[0] == (if severity == WARNING || severity == CRITICAL then severity else ERROR)
    ensures recovery.None? ==>
      && !success && result.None? && |logged| == 1
      && h'.recoveryAttempts == h.recoveryAttempts && h'.successfulRecoveries == h.successfulRecoveries
    ensures recovery.Some? ==> (success <==> FirstSuccess(recovery.value, maxRetries).Some?)
    ensures success ==> result == recovery.value(FirstSuccess(recovery.value, maxRetries).value)
    ensures h.Valid() ==> h'.Valid()
  {
    if severity == WARNING {
      h' := h.(warningCount := h.warningCount + 1);
      logged := [WARNING];
    } else if severity == CRITICAL {
      h' := h.(errorCount := h.errorCount + 1);
      logged := [CRITICAL];
    } else {
      h' := h.(errorCount := h.errorCount + 1);
      logged := [ERROR];
    }
    if recovery.Some? {
      var more;
      h', success, result, more := AttemptRecovery(h', recovery.value, maxRetries);
      logged := logged + more;
    } else {
      success, result := false, None;
    }
  }

  /** Handling one exception without recovery adds exactly one logged message at warning-or-error level. */
  method HandleWithoutRecovery(log: LogStats, h: HandlerStats, severity: LogLevel)
    returns (log': LogStats, h': HandlerStats)
    ensures log'.TotalLogs() == log.TotalLogs() + 1
    ensures h'.errorCount + h'.warningCount == h.errorCount + h.warningCount + 1
    ensures severity == WARNING <==> log'.warningCount == log.warningCount + 1
  {
    var success: bool, result: Option<int>, logged: seq<LogLevel>;
    h', success, result, logged := HandleException<int>(h, severity, None, 3);
    log' := Replay(log, logged);
    assert |logged| == 1 && logged[..0] == [];
    assert Replay(log, logged[..0]) == log;
    assert log' == UpdateStats(log, logged[0]);
    assert log'.warningCount == log'.CountOf(WARNING) && log.warningCount == log.CountOf(WARNING);
  }
}

=== FILE: options.dfy ===
/** The optional value used wherever the source returns `None` or a value. */
module Options {

  datatype Option<+T> = None | Some(value: T) {

    /** The wrapped value, or `default` when there is none (Python's `x or default`). */
    function GetOr(default: T): T {
      match this
      case Some(v) => v
      case None => default
    }
  }
}

=== FILE: patterns.dfy ===
/**
 * The indicator catalog: seven named pattern lists, the weight of each
 * category, the combined list and the two confidence thresholds.
 * The patterns are kept as the regular-expression source text they are in
 * the catalog; what they match is left to the abstract matcher of `RegexTable`.
 */
module Patterns {
  import opened Tables

  /** Miner software names. */
  const MinerSoftware: seq<string> := [
    @"xmrig", @"minerd", @"ccminer", @"cpuminer", @"ethminer", @"t-rex",
    @"nanominer", @"nbminer", @"teamredminer", @"gminer", @"phoenixminer",
    @"lolminer", @"bminer", @"claymore", @"excavator", @"bfgminer", @"cgminer",
    @"sgminer", @"xmr-stak", @"cryptonight", @"coinhive", @"minergate",
    @"nicehash", @"nanopool"
  ]

  /** Mining pool URLs and protocols. */
  const MiningPools: seq<string> := [
    @"stratum\+tcp://",
    @"stratum\+udp://",
    @"stratum\+ssl://",
    @"pool\.(hash|mine|xmr|btc|eth)",
    @"(crypto|coin|xmr|monero|btc|eth|zcash)pool",
    @"(mining|miner|crypto|coin).(pool|farm)",
    @"(us|eu|asia|sg|hk|jp)[-.]pool\.",
    @"(us|eu|asia)\d+\.pool\.",
    @"pool\.(minergate|nanopool|ethermine|flypool|f2pool|antpool|slushpool|hiveon|miningpoolhub)",
    @"(hashrate|hashpower|nicehash|minergate|nanopool|ethermine|flypool|f2pool|antpool|slushpool|hiveon|miningpoolhub)\.(com|org|net|io|me)",
    @"(xmr|monero|eth|ethereum|btc|bitcoin|ltc|litecoin|zec|zcash)\.(pool|mine)"
  ]

  /** Wallet address shapes, one per currency, then a generic long token. */
  const WalletPatterns: seq<string> := [
    @"\b(bc1|[13])[a-zA-HJ-NP-Z0-9]{25,39}\b",
    @"\b0x[a-fA-F0-9]{40}\b",
    @"\b4[0-9AB][1-9A-HJ-NP-Za-km-z]{93}\b",
    @"\b[LM3][a-km-zA-HJ-NP-Z1-9]{26,33}\b",
    @"\bt[13][a-zA-Z0-9]{33}\b",
    @"\bX[1-9A-HJ-NP-Za-km-z]{33}\b",
    @"\br[0-9a-zA-Z]{24,34}\b",
    @"[0-9A-Za-z]{40,100}"
  ]

  /** Command-line parameters used by miners. */
  const MinerParams: seq<string> := [
    @"--algo=", @"-a [a-z0-9]+", @"--coin=", @"--pool=", @"--user=", @"--pass=",
    @"--wallet=", @"--rig-id=", @"-o stratum", @"-u wallet", @"-p x",
    @"--cpu-priority=", @"--cpu-affinity=", @"--threads=", @"--max-cpu-usage=",
    @"--donate-level=", @"--no-huge-pages", @"--hash-report"
  ]

  /** Obfuscation idioms: encoded payloads, dynamic evaluation, download-and-run. */
  const ObfuscationPatterns: seq<string> := [
    @"(?:[A-Za-z0-9+/]{4})*(?:[A-Za-z0-9+/]{2}==|[A-Za-z0-9+/]{3}=|[A-Za-z0-9+/]{4})",
    @"\\x[0-9a-fA-F]{2}",
    @"%[0-9a-fA-F]{2}",
    @"eval\(.*\)",
    @"atob\(.*\)",
    @"setTimeout\(.*\)",
    @"new Function\(.*\)",
    @"String\.fromCharCode\(.*\)",
    @"var _0x[a-f0-9]{4}",
    @"chmod \+x",
    @"\.\/[a-zA-Z0-9]{1,8}",
    @"curl -s.*\|bash",
    @"wget.*\|bash",
    @"curl.*\|sh",
    @"wget.*\|sh"
  ]

  /** Process hiding, persistence and defence-evasion idioms. */
  const BehavioralIndicators: seq<string> := [
    @"setsid", @"disown", @"nohup", @"screen -d", @"tmux new-session -d", @"daemon",
    @"--background", @">/dev/null", @"2>&1",
    @"crontab -e", @"@reboot", @"*/[0-9]+ \* \* \* \*", @"rc\.local", @"systemctl enable",
    @"chkconfig on", @"update-rc\.d.*enable",
    @"pkill -f", @"killall", @"\.\/[a-zA-Z0-9]{1,8} -d", @"ps aux \| grep", @"lsof -i",
    @"netstat -tulpn", @"iptables -A", @"nice -n [0-9]+"
  ]

  /** Mining ports, generated domain names, onion addresses and IPv4 addresses. */
  const NetworkIndicators: seq<string> := [
    @":[0-9]{4,5}", @":3333", @":5555", @":7777", @":8080", @":8888", @":9999",
    @":14444", @":45560",
    @"[a-z0-9]{10,}\.(com|net|org|info|xyz|io)",
    @"\.onion",
    @"\b(?:\d{1,3}\.){3}\d{1,3}\b"
  ]

  /** Every pattern, category lists concatenated in declaration order. */
  const AllPatterns: seq<string> :=
    MinerSoftware + MiningPools + WalletPatterns + MinerParams +
    ObfuscationPatterns + BehavioralIndicators + NetworkIndicators

  /** The category table, in insertion order (a Python dict keeps it). */
  const PatternCategories: Table<seq<string>> := [
    ("miner_software", MinerSoftware),
    ("mining_pools", MiningPools),
    ("wallet_patterns", WalletPatterns),
    ("miner_params", MinerParams),
    ("obfuscation", ObfuscationPatterns),
    ("behavioral", BehavioralIndicators),
    ("network", NetworkIndicators)
  ]

  /** The score a hit in each category adds. */
  const CategoryWeights: map<string, int> := map[
    "miner_software" := 8,
    "mining_pools" := 9,
    "wallet_patterns" := 7,
    "miner_params" := 6,
    "obfuscation" := 4,
    "behavioral" := 5,
    "network" := 3
  ]

  const HighConfidenceThreshold: int := 15
  const MediumConfidenceThreshold: int := 8

  /** The pattern lists of a table concatenated in table order. */
  function FlattenPatterns(t: Table<seq<string>>): seq<string> {
    if |t| == 0 then [] else t[0].1 + FlattenPatterns(t[1..])
  }

  /** `get_all_patterns()`: the whole catalog, which is the category table flattened. */
  function GetAllPatterns(): (r: seq<string>)
    ensures r == FlattenPatterns(GetPatternCategories())
    ensures |r| == 112
  {
    FlattenCatalog();
    CatalogSize();
    AllPatterns
  }

  lemma FlattenCatalog()
    ensures FlattenPatterns(PatternCategories) == AllPatterns
  {
    var t := PatternCategories;
    FlattenSeven(t);
    var a, b, c, d := MinerSoftware, MiningPools, WalletPatterns, MinerParams;
    var e, f, g := ObfuscationPatterns, BehavioralIndicators, NetworkIndicators;
    assert t[0].1 == a && t[1].1 == b && t[2].1 == c && t[3].1 == d;
    assert t[4].1 == e && t[5].1 == f && t[6].1 == g;
    Assoc(a, b, c + (d + (e + (f + g))));
    Assoc(a + b, c, d + (e + (f + g)));
    Assoc(a + b + c, d, e + (f + g));
    Assoc(a + b + c + d, e, f + g);
    Assoc(a + b + c + d + e, f, g);
  }

  lemma Assoc(x: seq<string>, y: seq<string>, z: seq<string>)
    ensures x + (y + z) == (x + y) + z
  {
  }

  /** A seven-entry table flattens to its seven lists in order. */
  lemma FlattenSeven(t: Table<seq<string>>)
    requires |t| == 7
    ensures FlattenPatterns(t) == t[0].1 + (t[1].1 + (t[2].1 + (t[3].1 + (t[4].1 + (t[5].1 + t[6].1)))))
  {
    FlattenStep(t, 0);
    FlattenStep(t, 1);
    FlattenStep(t, 2);
    FlattenStep(t, 3);
    FlattenStep(t, 4);
    FlattenStep(t, 5);
    FlattenStep(t, 6);
    assert t[7..] == [];
    assert t[6].1 + [] == t[6].1;
    assert t[0..] == t;
  }

  lemma FlattenStep(t: Table<seq<string>>, k: nat)
    requires k < |t|
    ensures FlattenPatterns(t[k..]) == t[k].1 + FlattenPatterns(t[k + 1..])
  {
    assert t[k..][1..] == t[k + 1..];
  }

  lemma CatalogSize()
    ensures |AllPatterns| == 112
  {
    assert |MinerSoftware| == 24 && |MiningPools| == 11 && |WalletPatterns| == 8 && |MinerParams| == 18;
    assert |ObfuscationPatterns| == 15 && |BehavioralIndicators| == 24 && |NetworkIndicators| == 12;
  }

  /** `get_pattern_categories()`: seven distinct categories, each non-empty, sharing their keys with the weights. */
  function GetPatternCategories(): (r: Table<seq<string>>)
    ensures |r| == 7
    ensures forall i, j :: 0 <= i < j < |r| ==> r[i].0 != r[j].0
    ensures forall i :: 0 <= i < |r| ==> |r[i].1| > 0
    ensures forall c :: c in Keys(r) <==> c in GetCategoryWeights()
  {
    CatalogNames();
    CatalogNamesAreWeighted();
    PatternCategories
  }

  /** The catalog's category names, in table order. */
  const CategoryNames: seq<string> :=
    ["miner_software", "mining_pools", "wallet_patterns", "miner_params", "obfuscation", "behavioral", "network"]

  lemma CatalogNames()
    ensures Keys(PatternCategories) == CategoryNames
  {
    var t := PatternCategories;
    forall i | 0 <= i < 7 ensures Keys(t)[i] == CategoryNames[i] {
      KeyIndex(t, i);
    }
  }

  lemma CatalogNamesAreWeighted()
    ensures forall c :: c in CategoryNames <==> c in CategoryWeights.Keys
  {
  }

  /** `get_category_weights()`: seven positive weights in 3..9, mining pools highest and network lowest. */
  function GetCategoryWeights(): (r: map<string, int>)
    ensures |r| == 7
    ensures forall c :: c in r ==> 3 <= r[c] <= 9
    ensures "mining_pools" in r && forall c :: c in r ==> r[c] <= r["mining_pools"]
    ensures "network" in r && forall c :: c in r ==> r["network"] <= r[c]
  {
    WeightsSize();
    WeightsRange();
    CategoryWeights
  }

  lemma WeightsSize()
    ensures |CategoryWeights| == 7
  {
    assert CategoryWeights.Keys == {"miner_software", "mining_pools", "wallet_patterns", "miner_params",
                                    "obfuscation", "behavioral", "network"};
  }

  lemma WeightsRange()
    ensures forall c :: c in CategoryWeights ==> 3 <= CategoryWeights[c] <= 9
    ensures "mining_pools" in CategoryWeights && forall c :: c in CategoryWeights ==> CategoryWeights[c] <= CategoryWeights["mining_pools"]
    ensures "network" in CategoryWeights && forall c :: c in CategoryWeights ==> CategoryWeights["network"] <= CategoryWeights[c]
  {
  }

  /** `get_confidence_thresholds()`: exactly `high` and `medium`, with high > medium > 0. */
  function GetConfidenceThresholds(): (r: map<string, int>)
    ensures r.Keys == {"high", "medium"}
    ensures r["high"] == HighConfidenceThreshold && r["medium"] == MediumConfidenceThreshold
    ensures r["high"] > r["medium"] > 0
  {
    map["high" := HighConfidenceThreshold, "medium" := MediumConfidenceThreshold]
  }
}

=== FILE: prioritizer.dfy ===
/**
 * `ScanPrioritizer`: a priority score per target from its sample text, a
 * stable sort by descending score, and an optional cut to the first targets.
 * The compiled case-insensitive patterns are a search function.
 */
module Prioritizer {
  import opened Options
  import opened Strings

  /** `re.compile(pattern, re.IGNORECASE).search(sample)` succeeds. */
  type Search = (string, string) -> bool

  /** The number of high-priority patterns found in the sample. */
  function PatternHits(patterns: seq<string>, sample: string, search: Search): (n: nat)
    ensures n <= |patterns|
    ensures n == |patterns| <==> forall i :: 0 <= i < |patterns| ==> search(patterns[i], sample)
    ensures n == 0 <==> forall i :: 0 <= i < |patterns| ==> !search(patterns[i], sample)
  {
    if |patterns| == 0 then 0
    else
      var prefix := patterns[..|patterns| - 1];
      assert forall i :: 0 <= i < |prefix| ==> prefix[i] == patterns[i];
      PatternHits(prefix, sample, search) + if search(patterns[|patterns| - 1], sample) then 1 else 0
  }

  /** The lower-cased sample mentions one of the two words. */
  predicate MentionsEither(lower: string, a: string, b: string) {
    Contains(lower, a) || Contains(lower, b)
  }

  /** The keyword bonus: startup/boot 5, cron/schedule 3, service/daemon 2. */
  function KeywordBonus(sample: string): (b: nat)
    ensures b <= 10
    ensures b == 0 <==>
      && !MentionsEither(Lower(sample), "startup", "boot")
      && !MentionsEither(Lower(sample), "cron", "schedule")
      && !MentionsEither(Lower(sample), "service", "daemon")
    ensures b == 10 <==>
      && MentionsEither(Lower(sample), "startup", "boot")
      && MentionsEither(Lower(sample), "cron", "schedule")
      && MentionsEither(Lower(sample), "service", "daemon")
  {
    var lower := Lower(sample);
    (if MentionsEither(lower, "startup", "boot") then 5 else 0)
      + (if MentionsEither(lower, "cron", "schedule") then 3 else 0)
      + (if MentionsEither(lower, "service", "daemon") then 2 else 0)
  }

  /**
   * `_calculate_priority`: 0 for an empty sample; otherwise 10 for every
   * pattern found, plus the keyword bonus, so between ten per hit and ten
   * per hit plus ten.
   */
  function CalculatePriority(sample: string, patterns: seq<string>, search: Search): (r: nat)
    ensures sample == "" ==> r == 0
    ensures sample != "" ==> 10 * PatternHits(patterns, sample, search) <= r <= 10 * PatternHits(patterns, sample, search) + 10
    ensures r <= 10 * |patterns| + 10
    ensures sample != "" ==> r == 10 * PatternHits(patterns, sample, search) + KeywordBonus(sample)
  {
    if sample == "" then 0
    else 10 * PatternHits(patterns, sample, search) + KeywordBonus(sample)
  }

  /** The keywords are matched without regard to ASCII case. */
  lemma KeywordsIgnoreCase(a: string, b: string, patterns: seq<string>, search: Search)
    requires Lower(a) == Lower(b) && a != "" && b != ""
    requires forall p :: search(p, a) == search(p, b)
    ensures CalculatePriority(a, patterns, search) == CalculatePriority(b, patterns, search)
  {
    SameHits(patterns, a, b, search);
  }

  lemma {:induction false} SameHits(patterns: seq<string>, a: string, b: string, search: Search)
    requires forall p :: search(p, a) == search(p, b)
    ensures PatternHits(patterns, a, search) == PatternHits(patterns, b, search)
    decreases |patterns|
  {
    if |patterns| > 0 {
      SameHits(patterns[..|patterns| - 1], a, b, search);
    }
  }

  /** Another pattern never lowers a priority, and one that is found raises it by exactly ten. */
  lemma {:induction false} ExtraPatternRaises(sample: string, patterns: seq<string>, p: string, search: Search)
    requires sample != ""
    ensures CalculatePriority(sample, patterns + [p], search)
         == CalculatePriority(sample, patterns, search) + (if search(p, sample) then 10 else 0)
  {
    assert (patterns + [p])[..|patterns|] == patterns;
  }

  /** Mentioning startup or boot, where the sample did not, adds exactly 5. */
  lemma StartupBonus(a: string, b: string)
    requires !MentionsEither(Lower(a), "startup", "boot") && MentionsEither(Lower(b), "startup", "boot")
    requires MentionsEither(Lower(a), "cron", "schedule") == MentionsEither(Lower(b), "cron", "schedule")
    requires MentionsEither(Lower(a), "service", "daemon") == MentionsEither(Lower(b), "service", "daemon")
    ensures KeywordBonus(b) == KeywordBonus(a) + 5
  {
  }

  /** Mentioning cron or schedule, where the sample did not, adds exactly 3. */
  lemma CronBonus(a: string, b: string)
    requires MentionsEither(Lower(a), "startup", "boot") == MentionsEither(Lower(b), "startup", "boot")
    requires !MentionsEither(Lower(a), "cron", "schedule") && MentionsEither(Lower(b), "cron", "schedule")
    requires MentionsEither(Lower(a), "service", "daemon") == MentionsEither(Lower(b), "service", "daemon")
    ensures KeywordBonus(b) == KeywordBonus(a) + 3
  {
  }

  /** Mentioning service or daemon, where the sample did not, adds exactly 2. */
  lemma ServiceBonus(a: string, b: string)
    requires MentionsEither(Lower(a), "startup", "boot") == MentionsEither(Lower(b), "startup", "boot")
    requires MentionsEither(Lower(a), "cron", "schedule") == MentionsEither(Lower(b), "cron", "schedule")
    requires !MentionsEither(Lower(a), "service", "daemon") && MentionsEither(Lower(b), "service", "daemon")
    ensures KeywordBonus(b) == KeywordBonus(a) + 2
  {
  }

  // ---------------------------------------------------------------------
  // Ordering

  datatype Scored<T> = Scored(priority: int, target: T)

  predicate SortedDesc<T>(s: seq<Scored<T>>) {
    forall i, j :: 0 <= i < j < |s| ==> s[i].priority >= s[j].priority
  }

  /** The elements with priority `k`, in order. */
  function WithPriority<T>(s: seq<Scored<T>>, k: int): (r: seq<Scored<T>>)
    ensures |r| <= |s|
    ensures forall i :: 0 <= i < |r| ==> r[i].priority == k
  {
    if |s| == 0 then []
    else WithPriority(s[..|s| - 1], k) + if s[|s| - 1].priority == k then [s[|s| - 1]] else []
  }

  lemma {:induction false} WithPriorityAppend<T>(a: seq<Scored<T>>, b: seq<Scored<T>>, k: int)
    ensures WithPriority(a + b, k) == WithPriority(a, k) + WithPriority(b, k)
    decreases |b|
  {
    if |b| == 0 {
      assert a + b == a;
    } else {
      assert (a + b)[..|a + b| - 1] == a + b[..|b| - 1];
      WithPriorityAppend(a, b[..|b| - 1], k);
    }
  }

  lemma {:induction false} WithPriorityNone<T>(s: seq<Scored<T>>, k: int)
    requires forall i :: 0 <= i < |s| ==> s[i].priority < k
    ensures WithPriority(s, k) == []
    decreases |s|
  {
    if |s| > 0 {
      WithPriorityNone(s[..|s| - 1], k);
    }
  }

  /** Insert after every element whose priority is at least `x`'s: ties keep their arrival order. */
  function InsertDesc<T>(s: seq<Scored<T>>, x: Scored<T>): (r: seq<Scored<T>>)
    requires SortedDesc(s)
    ensures |r| == |s| + 1
    ensures SortedDesc(r)
    ensures r[0] == x || (|s| > 0 && r[0] == s[0])
  {
    if |s| == 0 then [x]
    else if s[0].priority >= x.priority then
      var rest := InsertDesc(s[1..], x);
      [s[0]] + rest
    else [x] + s
  }

  lemma WithPrioritySingle<T>(x: Scored<T>, k: int)
    ensures WithPriority([x], k) == if x.priority == k then [x] else []
  {
    assert [x][..0] == [];
  }

  lemma {:induction false} InsertDescStable<T>(s: seq<Scored<T>>, x: Scored<T>, k: int)
    requires SortedDesc(s)
    ensures WithPriority(InsertDesc(s, x), k) == WithPriority(s, k) + if x.priority == k then [x] else []
    decreases |s|
  {
    WithPrioritySingle(x, k);
    if |s| > 0 {
      if s[0].priority >= x.priority {
        InsertDescStable(s[1..], x, k);
        StableBehind(s, x, k, if x.priority == k then [x] else []);
      } else {
        assert InsertDesc(s, x) == [x] + s;
        StableFront(x, s, k);
      }
    }
  }

  /** An element inserted behind the head: the head is kept in front of both sides. */
  lemma StableBehind<T>(s: seq<Scored<T>>, x: Scored<T>, k: int, tail: seq<Scored<T>>)
    requires SortedDesc(s) && |s| > 0 && s[0].priority >= x.priority
    requires WithPriority(InsertDesc(s[1..], x), k) == WithPriority(s[1..], k) + tail
    ensures WithPriority(InsertDesc(s, x), k) == WithPriority(s, k) + tail
  {
    var rest := InsertDesc(s[1..], x);
    assert InsertDesc(s, x) == [s[0]] + rest;
    StableCons(s[0], rest, s[1..], tail, k);
    assert [s[0]] + s[1..] == s;
  }

  /** Putting the same element in front of both sides keeps a per-priority equation. */
  lemma StableCons<T>(h: Scored<T>, rest: seq<Scored<T>>, s: seq<Scored<T>>, tail: seq<Scored<T>>, k: int)
    requires WithPriority(rest, k) == WithPriority(s, k) + tail
    ensures WithPriority([h] + rest, k) == WithPriority([h] + s, k) + tail
  {
    WithPriorityAppend([h], rest, k);
    WithPriorityAppend([h], s, k);
    assert WithPriority([h], k) + (WithPriority(s, k) + tail) == (WithPriority([h], k) + WithPriority(s, k)) + tail;
  }

  /** An element ahead of every lower priority lands last among its own priority. */
  lemma StableFront<T>(x: Scored<T>, s: seq<Scored<T>>, k: int)
    requires SortedDesc(s) && |s| > 0 && s[0].priority < x.priority
    ensures WithPriority([x] + s, k) == WithPriority(s, k) + if x.priority == k then [x] else []
  {
    WithPrioritySingle(x, k);
    WithPriorityAppend([x], s, k);
    if x.priority == k {
      WithPriorityNone(s, k);
    } else {
      assert WithPriority([x], k) == [];
    }
  }

  /** `sorted(scored, key=priority, reverse=True)`, which Python keeps stable. */
  function SortDesc<T>(s: seq<Scored<T>>): (r: seq<Scored<T>>)
    ensures |r| == |s|
    ensures SortedDesc(r)
  {
    if |s| == 0 then [] else InsertDesc(SortDesc(s[..|s| - 1]), s[|s| - 1])
  }

  /**
   * The sort is a stable permutation: for every priority, the targets with
   * that priority appear in the output exactly as, and in the order, they
   * appear in the input.
   */
  lemma {:induction false} SortDescStable<T>(s: seq<Scored<T>>, k: int)
    ensures WithPriority(SortDesc(s), k) == WithPriority(s, k)
    decreases |s|
  {
    if |s| > 0 {
      SortDescStable(s[..|s| - 1], k);
      InsertDescStable(SortDesc(s[..|s| - 1]), s[|s| - 1], k);
    }
  }

  /** Scored targets, in input order. */
  function ScoreTargets<T>(targets: seq<T>, sampleOf: T -> string, patterns: seq<string>, search: Search): (r: seq<Scored<T>>)
    ensures |r| == |targets|
    ensures forall i :: 0 <= i < |r| ==>
      r[i] == Scored(CalculatePriority(sampleOf(targets[i]), patterns, search), targets[i])
  {
    seq(|targets|, i requires 0 <= i < |targets| => Scored(CalculatePriority(sampleOf(targets[i]), patterns, search), targets[i]))
  }

  function TargetsOf<T>(s: seq<Scored<T>>): (r: seq<T>)
    ensures |r| == |s| && forall i :: 0 <= i < |s| ==> r[i] == s[i].target
  {
    seq(|s|, i requires 0 <= i < |s| => s[i].target)
  }

  /**
   * `if max_targets and len(xs) > max_targets: xs[:max_targets]`: no limit for
   * `None` or 0; a negative limit slices from the end, as Python does.
   */
  function Limit<T>(xs: seq<T>, maxTargets: Option<int>): (r: seq<T>)
    ensures |r| <= |xs| && r == xs[..|r|]
    ensures maxTargets.None? || maxTargets.value == 0 ==> r == xs
    ensures maxTargets.Some? && maxTargets.value > 0 ==>
      |r| == if |xs| < maxTargets.value then |xs| else maxTargets.value
    ensures maxTargets.Some? && maxTargets.value < 0 ==>
      |r| == if |xs| + maxTargets.value < 0 then 0 else |xs| + maxTargets.value
  {
    match maxTargets
    case None => xs
    case Some(m) =>
      if m == 0 || |xs| <= m then xs
      else if m > 0 then xs[..m]
      else if |xs| + m <= 0 then []
      else xs[..|xs| + m]
  }

  /**
   * `prioritize_targets`: empty input gives the empty list; otherwise the
   * targets ordered by descending priority, ties in input order, cut by the
   * limit.
   */
  function PrioritizeTargets<T>(targets: seq<T>, sampleOf: T -> string, patterns: seq<string>, search: Search, maxTargets: Option<int>): (r: seq<T>)
    ensures targets == [] ==> r == []
    ensures |r| <= |targets|
    ensures r == Ranked(targets, sampleOf, patterns, search)[..|r|]
    ensures maxTargets.None? || maxTargets.value == 0 ==> |r| == |targets|
    ensures maxTargets.Some? && maxTargets.value > 0 ==>
      |r| == if |targets| < maxTargets.value then |targets| else maxTargets.value
    ensures maxTargets.Some? && maxTargets.value < 0 ==>
      |r| == if |targets| + maxTargets.value < 0 then 0 else |targets| + maxTargets.value
  {
    if targets == [] then []
    else Limit(Ranked(targets, sampleOf, patterns, search), maxTargets)
  }

  /** All targets, highest priority first. */
  function Ranked<T>(targets: seq<T>, sampleOf: T -> string, patterns: seq<string>, search: Search): (r: seq<T>)
    ensures |r| == |targets|
  {
    TargetsOf(SortDesc(ScoreTargets(targets, sampleOf, patterns, search)))
  }

  /** The ranking puts a higher-priority target before a lower-priority one. */
  lemma RankedByPriority<T>(targets: seq<T>, sampleOf: T -> string, patterns: seq<string>, search: Search, i: nat, j: nat)
    requires i < j < |targets|
    ensures var s := SortDesc(ScoreTargets(targets, sampleOf, patterns, search));
      s[i].priority >= s[j].priority && Ranked(targets, sampleOf, patterns, search)[i] == s[i].target
  {
  }

  /** Every element of an insertion is the inserted one or was already there. */
  lemma {:induction false} InsertDescFrom<T>(s: seq<Scored<T>>, x: Scored<T>)
    requires SortedDesc(s)
    ensures forall y :: y in InsertDesc(s, x) ==> y in s || y == x
    decreases |s|
  {
    if |s| > 0 && s[0].priority >= x.priority {
      InsertDescFrom(s[1..], x);
      assert InsertDesc(s, x) == [s[0]] + InsertDesc(s[1..], x);
      assert forall y :: y in s[1..] ==> y in s;
    }
  }

  /** The sort brings in nothing new. */
  lemma {:induction false} SortDescFrom<T>(s: seq<Scored<T>>)
    ensures forall y :: y in SortDesc(s) ==> y in s
    decreases |s|
  {
    if |s| > 0 {
      var front := s[..|s| - 1];
      SortDescFrom(front);
      InsertDescFrom(SortDesc(front), s[|s| - 1]);
      assert forall y :: y in front ==> y in s;
    }
  }

  /**
   * The ranking is in descending order of the targets' own priorities: an
   * earlier target's sample scores at least as much as a later one's.
   */
  lemma RankedInPriorityOrder<T>(targets: seq<T>, sampleOf: T -> string, patterns: seq<string>, search: Search)
    ensures var r := Ranked(targets, sampleOf, patterns, search);
      forall i, j :: 0 <= i < j < |r| ==>
        CalculatePriority(sampleOf(r[i]), patterns, search) >= CalculatePriority(sampleOf(r[j]), patterns, search)
  {
    var scored := ScoreTargets(targets, sampleOf, patterns, search);
    var s := SortDesc(scored);
    SortDescFrom(scored);
    forall i | 0 <= i < |s| ensures s[i].priority == CalculatePriority(sampleOf(s[i].target), patterns, search) {
      assert s[i] in scored;
    }
  }

  /** The default sample function: a target is its own sample. */
  function Itself(x: string): string {
    x
  }

  /**
   * `prioritize_targets` without a `sample_func`: each string target is
   * scored on its own text, and the result is a prefix of that ranking, cut
   * by the limit.
   */
  function PrioritizeStrings(targets: seq<string>, patterns: seq<string>, search: Search, maxTargets: Option<int>): (r: seq<string>)
    ensures targets == [] ==> r == []
    ensures |r| <= |targets|
    ensures r == Ranked(targets, Itself, patterns, search)[..|r|]
    ensures forall i, j :: 0 <= i < j < |r| ==>
      CalculatePriority(r[i], patterns, search) >= CalculatePriority(r[j], patterns, search)
    ensures maxTargets.None? || maxTargets.value == 0 ==> |r| == |targets|
    ensures maxTargets.Some? && maxTargets.value > 0 ==>
      |r| == if |targets| < maxTargets.value then |targets| else maxTargets.value
  {
    var r := PrioritizeTargets(targets, Itself, patterns, search, maxTargets);
    RankedInPriorityOrder(targets, Itself, patterns, search);
    var ranked := Ranked(targets, Itself, patterns, search);
    assert forall i :: 0 <= i < |r| ==> r[i] == ranked[i];
    r
  }
}

=== FILE: regex_table.dfy ===
/**
 * The pattern table of the regex optimizer: a category -> pattern-list dict
 * with add and remove operations, and `check_text`, which runs every pattern
 * of the selected categories over a text and lists each match as a
 * (category, pattern, match) triple.
 *
 * Regular expressions are not interpreted: `FindAll(p, text)` stands for
 * `re.compile(p, re.IGNORECASE).findall(text)`, the matches of `p` in `text`
 * from left to right.
 */
module RegexTable {
  import opened Options
  import opened Tables
  import Strings

  type FindAll = (string, string) -> seq<string>

  type PatternTable = Table<seq<string>>

  datatype Triple = Triple(category: string, pattern: string, matched: string)

  /** `[p for p in xs if p not in ps]`. */
  function Without(xs: seq<string>, ps: seq<string>): (r: seq<string>)
    ensures forall x :: x in r <==> x in xs && x !in ps
    ensures |r| <= |xs|
  {
    if |xs| == 0 then [] else (if xs[0] in ps then [] else [xs[0]]) + Without(xs[1..], ps)
  }

  /** What the first element of a list keeps after removal: itself, unless it is removed. */
  function Survivor(x: string, ps: seq<string>): seq<string> {
    if x in ps then [] else [x]
  }

  lemma WithoutFirst(xs: seq<string>, ps: seq<string>)
    requires |xs| > 0
    ensures Without(xs, ps) == Survivor(xs[0], ps) + Without(xs[1..], ps)
  {
  }

  /** Removal keeps the survivors in their original order: it distributes over concatenation. */
  lemma {:induction false} WithoutAppend(a: seq<string>, b: seq<string>, ps: seq<string>)
    ensures Without(a + b, ps) == Without(a, ps) + Without(b, ps)
  {
    if |a| > 0 {
      var ab := a + b;
      assert ab[1..] == a[1..] + b;
      assert ab[0] == a[0];
      WithoutAppend(a[1..], b, ps);
      WithoutFirst(ab, ps);
      WithoutFirst(a, ps);
      Strings.AppendAssoc(Survivor(a[0], ps), Without(a[1..], ps), Without(b, ps));
    } else {
      assert a + b == b;
    }
  }

  /** Removing patterns none of which is present changes nothing. */
  lemma {:induction false} WithoutAbsent(xs: seq<string>, ps: seq<string>)
    requires forall x :: x in xs ==> x !in ps
    ensures Without(xs, ps) == xs
  {
    if |xs| > 0 {
      WithoutAbsent(xs[1..], ps);
      assert xs == [xs[0]] + xs[1..];
    }
  }

  /** `add_patterns`: extend the category's list in order, creating the category at the end if absent. */
  function AddPatterns(t: PatternTable, category: string, patterns: seq<string>): (r: PatternTable)
    ensures Lookup(r, category) == Some(Lookup(t, category).GetOr([]) + patterns)
    ensures forall c :: c != category ==> Lookup(r, c) == Lookup(t, c)
    ensures category in Keys(t) ==> Keys(r) == Keys(t)
    ensures category !in Keys(t) ==> Keys(r) == Keys(t) + [category]
    ensures DistinctKeys(t) ==> DistinctKeys(r)
  {
    var ps := Lookup(t, category).GetOr([]) + patterns;
    assert DistinctKeys(t) ==> DistinctKeys(Put(t, category, ps)) by {
      if DistinctKeys(t) {
        PutKeepsKeysDistinct(t, category, ps);
      }
    }
    Put(t, category, ps)
  }

  /** `remove_patterns`: drop every listed pattern from an existing category; a no-op otherwise. */
  function RemovePatterns(t: PatternTable, category: string, patterns: seq<string>): (r: PatternTable)
    ensures Lookup(t, category).None? ==> r == t
    ensures Lookup(t, category).Some? ==>
      Lookup(r, category) == Some(Without(Lookup(t, category).value, patterns))
    ensures forall c :: c != category ==> Lookup(r, c) == Lookup(t, c)
    ensures Keys(r) == Keys(t)
    ensures DistinctKeys(t) ==> DistinctKeys(r)
  {
    match Lookup(t, category)
    case None => t
    case Some(ps) =>
      assert DistinctKeys(t) ==> DistinctKeys(Put(t, category, Without(ps, patterns))) by {
        if DistinctKeys(t) {
          PutKeepsKeysDistinct(t, category, Without(ps, patterns));
        }
      }
      Put(t, category, Without(ps, patterns))
  }

  /** The triples of one pattern: one per match, in match order. */
  function MatchTriples(category: string, pattern: string, matches: seq<string>): (r: seq<Triple>)
    ensures |r| == |matches|
    ensures forall i :: 0 <= i < |r| ==> r[i] == Triple(category, pattern, matches[i])
  {
    seq(|matches|, i requires 0 <= i < |matches| => Triple(category, pattern, matches[i]))
  }

  /** The triples of a pattern list, pattern by pattern. */
  function PatternTriples(category: string, patterns: seq<string>, text: string, findAll: FindAll): (r: seq<Triple>)
    ensures forall i :: 0 <= i < |r| ==>
      r[i].category == category && r[i].pattern in patterns && r[i].matched in findAll(r[i].pattern, text)
  {
    if |patterns| == 0 then []
    else
      var last := patterns[|patterns| - 1];
      PatternTriples(category, patterns[..|patterns| - 1], text, findAll)
        + MatchTriples(category, last, findAll(last, text))
  }

  /** The triples of the listed categories that are in the table, category by category. */
  function CategoryTriples(t: PatternTable, categories: seq<string>, text: string, findAll: FindAll): (r: seq<Triple>)
    ensures forall i :: 0 <= i < |r| ==>
      && r[i].category in categories
      && Lookup(t, r[i].category).Some?
      && r[i].pattern in Lookup(t, r[i].category).value
      && r[i].matched in findAll(r[i].pattern, text)
  {
    if |categories| == 0 then []
    else
      var last := categories[|categories| - 1];
      CategoryTriples(t, categories[..|categories| - 1], text, findAll)
        + match Lookup(t, last)
          case None => []
          case Some(ps) => PatternTriples(last, ps, text, findAll)
  }

  /** The categories `check_text` visits: the given one if it is truthy, else every key in order. */
  function SelectedCategories(t: PatternTable, category: Option<string>): seq<string> {
    if category.Some? && category.value != "" then [category.value] else Keys(t)
  }

  /** `check_text(text, category)`. */
  function CheckText(t: PatternTable, text: string, category: Option<string>, findAll: FindAll): (r: seq<Triple>)
    ensures text == "" ==> r == []
    ensures category.Some? && category.value != "" && Lookup(t, category.value).None? ==> r == []
    ensures category.Some? && category.value != "" ==>
      forall i :: 0 <= i < |r| ==> r[i].category == category.value
    ensures forall i :: 0 <= i < |r| ==>
      && Lookup(t, r[i].category).Some?
      && r[i].pattern in Lookup(t, r[i].category).value
      && r[i].matched in findAll(r[i].pattern, text)
  {
    if text == "" then []
    else
      var r := CategoryTriples(t, SelectedCategories(t, category), text, findAll);
      assert |r| > 0 ==> r[0].category in SelectedCategories(t, category) && Lookup(t, r[0].category).Some?;
      r
  }

  /** Every match of every pattern of a visited category is reported. */
  lemma {:induction false} CheckTextComplete(t: PatternTable, text: string, category: Option<string>,
                                            findAll: FindAll, c: string, p: string, m: string)
    requires text != ""
    requires c in SelectedCategories(t, category)
    requires Lookup(t, c).Some? && p in Lookup(t, c).value
    requires m in findAll(p, text)
    ensures Triple(c, p, m) in CheckText(t, text, category, findAll)
  {
    CategoryTriplesComplete(t, SelectedCategories(t, category), text, findAll, c, p, m);
  }

  lemma {:induction false} CategoryTriplesComplete(t: PatternTable, categories: seq<string>, text: string,
                                                  findAll: FindAll, c: string, p: string, m: string)
    requires c in categories
    requires Lookup(t, c).Some? && p in Lookup(t, c).value
    requires m in findAll(p, text)
    ensures Triple(c, p, m) in CategoryTriples(t, categories, text, findAll)
  {
    var n := |categories|;
    var last := categories[n - 1];
    if last == c {
      PatternTriplesComplete(c, Lookup(t, c).value, text, findAll, p, m);
    } else {
      assert c in categories[..n - 1] by {
        var k :| 0 <= k < n && categories[k] == c;
        assert categories[..n - 1][k] == c;
      }
      CategoryTriplesComplete(t, categories[..n - 1], text, findAll, c, p, m);
    }
  }

  lemma {:induction false} PatternTriplesComplete(c: string, patterns: seq<string>, text: string,
                                                 findAll: FindAll, p: string, m: string)
    requires p in patterns
    requires m in findAll(p, text)
    ensures Triple(c, p, m) in PatternTriples(c, patterns, text, findAll)
  {
    var n := |patterns|;
    var last := patterns[n - 1];
    if last == p {
      var ms := findAll(p, text);
      var k :| 0 <= k < |ms| && ms[k] == m;
      assert MatchTriples(c, p, ms)[k] == Triple(c, p, m);
    } else {
      assert p in patterns[..n - 1] by {
        var k :| 0 <= k < n && patterns[k] == p;
        assert patterns[..n - 1][k] == p;
      }
      PatternTriplesComplete(c, patterns[..n - 1], text, findAll, p, m);
    }
  }

  /**
   * The loop nest of `check_text`: categories in order, then each category's
   * patterns in order, then each pattern's matches in order, appending one
   * triple per match.
   */
  method RunCheckText(t: PatternTable, text: string, category: Option<string>, findAll: FindAll)
    returns (results: seq<Triple>)
    ensures results == CheckText(t, text, category, findAll)
  {
    if text == "" {
      return [];
    }
    results := [];
    var categories := SelectedCategories(t, category);
    var i := 0;
    while i < |categories|
      invariant 0 <= i <= |categories|
      invariant results == CategoryTriples(t, categories[..i], text, findAll)
    {
      var cat := categories[i];
      assert categories[..i + 1][..i] == categories[..i];
      var entry := Lookup(t, cat);
      if entry.Some? {
        results := ScanCategory(results, cat, entry.value, text, findAll);
      }
      i := i + 1;
    }
    assert categories[..i] == categories;
  }

  /** The middle loop: every pattern of one category. */
  method ScanCategory(before: seq<Triple>, cat: string, patterns: seq<string>, text: string, findAll: FindAll)
    returns (results: seq<Triple>)
    ensures results == before + PatternTriples(cat, patterns, text, findAll)
  {
    results := before;
    var j := 0;
    while j < |patterns|
      invariant 0 <= j <= |patterns|
      invariant results == before + PatternTriples(cat, patterns[..j], text, findAll)
    {
      var pattern := patterns[j];
      assert patterns[..j + 1][..j] == patterns[..j];
      results := ScanPattern(results, cat, pattern, findAll(pattern, text));
      j := j + 1;
    }
    assert patterns[..j] == patterns;
  }

  /** The inner loop: one triple per match of one pattern. */
  method ScanPattern(before: seq<Triple>, cat: string, pattern: string, matches: seq<string>)
    returns (results: seq<Triple>)
    ensures results == before + MatchTriples(cat, pattern, matches)
  {
    results := before;
    var k := 0;
    while k < |matches|
      invariant 0 <= k <= |matches|
      invariant results == before + MatchTriples(cat, pattern, matches[..k])
    {
      assert MatchTriples(cat, pattern, matches[..k + 1])
          == MatchTriples(cat, pattern, matches[..k]) + [Triple(cat, pattern, matches[k])];
      results := results + [Triple(cat, pattern, matches[k])];
      k := k + 1;
    }
    assert matches[..k] == matches;
  }
}

=== FILE: result_writer.dfy ===
/**
 * `ResultWriter`: the text report grouped by severity, the summary report
 * with its four severity lists, and whether the CSV and JSON writers succeed.
 * The report texts are produced as strings; writing them to a file is not
 * modelled, and the scan time is an input.
 */
module ResultWriter {
  import opened Options
  import opened Strings
  import opened ScanResults

  /**
   * What a results list may hold: scan results, or anything else (a plain
   * string, say), which has no `severity`, `to_text` or `to_dict`.
   */
  datatype Reportable = Result(result: ScanResult) | Other(text: string)

  /** `result.severity if hasattr(result, 'severity') else "UNKNOWN"`. */
  function Label(x: Reportable): string {
    match x
    case Result(r) => r.Severity().Name()
    case Other(_) => "UNKNOWN"
  }

  /** The order the text report writes its groups in. */
  const GroupOrder: seq<string> := ["HIGH", "MEDIUM", "LOW", "CLEAN", "UNKNOWN"]

  /** The items with a given label, in input order. */
  function Group(items: seq<Reportable>, tag: string): (g: seq<Reportable>)
    ensures |g| <= |items|
    ensures forall i :: 0 <= i < |g| ==> Label(g[i]) == tag && g[i] in items
    ensures (exists i :: 0 <= i < |items| && Label(items[i]) == tag) <==> |g| > 0
  {
    if |items| == 0 then []
    else
      var prefix := items[..|items| - 1];
      var x := items[|items| - 1];
      var prev := Group(prefix, tag);
      assert forall i :: 0 <= i < |prefix| ==> prefix[i] == items[i];
      if Label(x) == tag then prev + [x] else prev
  }

  /** What one item adds to the group of `tag`: itself when it carries the label, else nothing. */
  function LabelledAs(x: Reportable, tag: string): seq<Reportable> {
    if Label(x) == tag then [x] else []
  }

  lemma GroupLast(items: seq<Reportable>, tag: string)
    requires |items| > 0
    ensures Group(items, tag) == Group(items[..|items| - 1], tag) + LabelledAs(items[|items| - 1], tag)
  {
  }

  /** A single item forms its label's group, and every other group is empty. */
  lemma GroupSingle(x: Reportable, tag: string)
    ensures Label(x) == tag ==> Group([x], tag) == [x]
    ensures Label(x) != tag ==> Group([x], tag) == []
  {
    assert [x][..0] == [];
    GroupLast([x], tag);
  }

  /** Grouping two runs of items concatenates their groups: a group keeps input order and multiplicity. */
  lemma {:induction false} GroupAppend(a: seq<Reportable>, b: seq<Reportable>, tag: string)
    ensures Group(a + b, tag) == Group(a, tag) + Group(b, tag)
    decreases |b|
  {
    if |b| == 0 {
      assert a + b == a;
    } else {
      var ab := a + b;
      var front := b[..|b| - 1];
      assert ab[..|ab| - 1] == a + front;
      assert ab[|ab| - 1] == b[|b| - 1];
      GroupAppend(a, front, tag);
      GroupLast(ab, tag);
      GroupLast(b, tag);
      AppendAssoc(Group(a, tag), Group(front, tag), LabelledAs(b[|b| - 1], tag));
    }
  }

  /** The multiset of the five groups of `items`. */
  function GroupsBag(items: seq<Reportable>): multiset<Reportable> {
    multiset(Group(items, "HIGH")) + multiset(Group(items, "MEDIUM")) + multiset(Group(items, "LOW"))
      + multiset(Group(items, "CLEAN")) + multiset(Group(items, "UNKNOWN"))
  }

  /** One item lands in exactly one of the five groups. */
  lemma LabelledOnce(x: Reportable)
    ensures multiset(LabelledAs(x, "HIGH")) + multiset(LabelledAs(x, "MEDIUM")) + multiset(LabelledAs(x, "LOW"))
      + multiset(LabelledAs(x, "CLEAN")) + multiset(LabelledAs(x, "UNKNOWN")) == multiset{x}
  {
    assert Label(x) in GroupOrder;
  }

  lemma GroupsBagLast(items: seq<Reportable>)
    requires |items| > 0
    ensures GroupsBag(items) == GroupsBag(items[..|items| - 1]) + multiset{items[|items| - 1]}
  {
    var x := items[|items| - 1];
    var prefix := items[..|items| - 1];
    GroupLast(items, "HIGH");
    GroupLast(items, "MEDIUM");
    GroupLast(items, "LOW");
    GroupLast(items, "CLEAN");
    GroupLast(items, "UNKNOWN");
    LabelledOnce(x);
  }

  /** The five groups together hold every item exactly once: every label is one of the five. */
  lemma {:induction false} GroupsCover(items: seq<Reportable>)
    ensures GroupsBag(items) == multiset(items)
    decreases |items|
  {
    if |items| > 0 {
      var prefix := items[..|items| - 1];
      GroupsCover(prefix);
      GroupsBagLast(items);
      MultisetLast(items);
    }
  }

  /** Counting the five groups counts every item once. */
  lemma GroupsPartition(items: seq<Reportable>)
    ensures |Group(items, "HIGH")| + |Group(items, "MEDIUM")| + |Group(items, "LOW")|
          + |Group(items, "CLEAN")| + |Group(items, "UNKNOWN")| == |items|
  {
    GroupsCover(items);
    assert |GroupsBag(items)| == |multiset(items)|;
  }

  /** `result.to_text()`, or `str(result)` for anything else. */
  function RenderItem(x: Reportable): string {
    match x
    case Result(r) => ToText(r)
    case Other(t) => t
  }

  function RenderItems(g: seq<Reportable>): (s: string)
    ensures |g| == 0 ==> s == ""
  {
    if |g| == 0 then "" else RenderItems(g[..|g| - 1]) + RenderItem(g[|g| - 1]) + "\n"
  }

  /** The heading of a group, underlined by a rule one character longer than "<label> SEVERITY FINDINGS ". */
  function GroupHeading(tag: string, count: nat): (h: string)
    ensures IsPrefix("\n" + tag + " SEVERITY FINDINGS (", h)
    ensures h[|h| - |tag| - 20..] == Repeat('-', |tag| + 19) + "\n"
  {
    var title := "\n" + tag + " SEVERITY FINDINGS (" + NatToString(count) + "):\n";
    var rule := Repeat('-', |tag| + 19) + "\n";
    assert (title + rule)[..|"\n" + tag + " SEVERITY FINDINGS ("|] == "\n" + tag + " SEVERITY FINDINGS (";
    assert (title + rule)[|title + rule| - |tag| - 20..] == rule;
    title + rule
  }

  /** The labels of `tags` that `keep` accepts, in the order of `tags`. */
  function Kept(tags: seq<string>, keep: string -> bool): (k: seq<string>)
    ensures |k| <= |tags|
    ensures forall i :: 0 <= i < |k| ==> k[i] in tags && keep(k[i])
    ensures forall l :: l in tags && keep(l) ==> l in k
  {
    if |tags| == 0 then []
    else
      var prefix := tags[..|tags| - 1];
      var l := tags[|tags| - 1];
      var prev := Kept(prefix, keep);
      assert tags == prefix + [l];
      if keep(l) then prev + [l] else prev
  }

  /** A label whose group has items. */
  function HasItems(items: seq<Reportable>): string -> bool {
    l => |Group(items, l)| > 0
  }

  /** The groups the text report writes: one per label of `tags` whose group has items, with its items. */
  function Sections(items: seq<Reportable>, tags: seq<string>): (s: seq<(string, seq<Reportable>)>)
    ensures |s| == |Kept(tags, HasItems(items))|
    ensures forall i :: 0 <= i < |s| ==> s[i].0 == Kept(tags, HasItems(items))[i] && s[i].1 == Group(items, s[i].0) && |s[i].1| > 0
  {
    var k := Kept(tags, HasItems(items));
    seq(|k|, i requires 0 <= i < |k| => (k[i], Group(items, k[i])))
  }

  function RenderSections(s: seq<(string, seq<Reportable>)>): string {
    if |s| == 0 then ""
    else RenderSections(s[..|s| - 1]) + GroupHeading(s[|s| - 1].0, |s[|s| - 1].1|) + RenderItems(s[|s| - 1].1)
  }

  /** The lines `_write_text` starts with. */
  function TextHeader(items: seq<Reportable>, now: string): string {
    "CRYPTOJACKING DETECTION SCAN RESULTS\n"
      + "===================================\n"
      + "Scan completed at: " + now + "\n"
      + "Total items scanned: " + NatToString(|items|) + "\n\n"
  }

  /**
   * `_write_text`'s file content: the header, then the non-empty groups in
   * the order HIGH, MEDIUM, LOW, CLEAN, UNKNOWN.
   */
  function TextReport(items: seq<Reportable>, now: string): (t: string)
    ensures IsPrefix(TextHeader(items, now), t)
    ensures items == [] ==> t == TextHeader(items, now)
  {
    var sections := Sections(items, GroupOrder);
    if items == [] then
      NoSectionsWhenEmpty(GroupOrder);
      assert TextHeader(items, now) + "" == TextHeader(items, now);
      TextHeader(items, now) + RenderSections(sections)
    else TextHeader(items, now) + RenderSections(sections)
  }

  lemma {:induction false} NoSectionsWhenEmpty(tags: seq<string>)
    ensures Kept(tags, HasItems([])) == []
    decreases |tags|
  {
    if |tags| > 0 {
      NoSectionsWhenEmpty(tags[..|tags| - 1]);
    }
  }

  /**
   * The text report writes the groups in severity order, HIGH first and
   * UNKNOWN last, and writes every group that has items.
   */
  lemma TextGroupsInOrder(items: seq<Reportable>)
    ensures InTagOrder(GroupOrder, Kept(GroupOrder, HasItems(items)))
    ensures forall x :: x in items ==> Label(x) in Kept(GroupOrder, HasItems(items))
  {
    KeptOrdered(GroupOrder, HasItems(items));
    forall x | x in items ensures Label(x) in Kept(GroupOrder, HasItems(items)) {
      ItemGroupWritten(items, x);
    }
  }

  /** An item's label has a non-empty group, so the report writes it. */
  lemma ItemGroupWritten(items: seq<Reportable>, x: Reportable)
    requires x in items
    ensures Label(x) in Kept(GroupOrder, HasItems(items))
  {
    var i :| 0 <= i < |items| && items[i] == x;
    assert |Group(items, Label(x))| > 0;
    assert HasItems(items)(Label(x));
    assert Label(x) in GroupOrder;
  }

  /** The position of the first occurrence of `x` in `xs`, |xs| when absent. */
  function IndexIn(xs: seq<string>, x: string): (k: nat)
    ensures k <= |xs|
    ensures k < |xs| <==> x in xs
    ensures k < |xs| ==> xs[k] == x
  {
    if |xs| == 0 then 0
    else if xs[0] == x then 0
    else 1 + IndexIn(xs[1..], x)
  }

  /** The labels of `k` occur in `tags` in the same order as in `k`. */
  predicate InTagOrder(tags: seq<string>, k: seq<string>) {
    forall i, j :: 0 <= i < j < |k| ==> IndexIn(tags, k[i]) < IndexIn(tags, k[j])
  }

  /** `Kept` writes the accepted labels in the order of `tags`. */
  lemma {:induction false} KeptOrdered(tags: seq<string>, keep: string -> bool)
    requires forall i, j :: 0 <= i < j < |tags| ==> tags[i] != tags[j]
    ensures InTagOrder(tags, Kept(tags, keep))
    decreases |tags|
  {
    if |tags| > 0 {
      var n := |tags| - 1;
      var prev := Kept(tags[..n], keep);
      KeptOrdered(tags[..n], keep);
      KeptStep(tags, keep);
      OrderedInLonger(tags, n, prev);
      if keep(tags[n]) {
        OrderedAppendLast(tags, prev);
        assert Kept(tags, keep) == prev + [tags[n]];
      } else {
        assert Kept(tags, keep) == prev;
      }
    }
  }

  lemma KeptStep(tags: seq<string>, keep: string -> bool)
    requires |tags| > 0
    ensures var prev := Kept(tags[..|tags| - 1], keep);
      && Kept(tags, keep) == (if keep(tags[|tags| - 1]) then prev + [tags[|tags| - 1]] else prev)
      && forall i :: 0 <= i < |prev| ==> prev[i] in tags[..|tags| - 1]
  {
  }

  /** An order with respect to a prefix of `tags` is an order with respect to `tags`. */
  lemma OrderedInLonger(tags: seq<string>, n: nat, k: seq<string>)
    requires n <= |tags|
    requires forall i :: 0 <= i < |k| ==> k[i] in tags[..n]
    requires InTagOrder(tags[..n], k)
    ensures InTagOrder(tags, k)
    ensures forall i :: 0 <= i < |k| ==> IndexIn(tags, k[i]) < n
  {
    forall i | 0 <= i < |k| ensures IndexIn(tags, k[i]) == IndexIn(tags[..n], k[i]) < n {
      IndexInPrefix(tags, n, k[i]);
    }
  }

  /** Appending the last label of `tags` keeps the order. */
  lemma OrderedAppendLast(tags: seq<string>, k: seq<string>)
    requires |tags| > 0
    requires forall i, j :: 0 <= i < j < |tags| ==> tags[i] != tags[j]
    requires InTagOrder(tags, k)
    requires forall i :: 0 <= i < |k| ==> IndexIn(tags, k[i]) < |tags| - 1
    ensures InTagOrder(tags, k + [tags[|tags| - 1]])
  {
    IndexInLast(tags);
    var k' := k + [tags[|tags| - 1]];
    forall i, j | 0 <= i < j < |k'| ensures IndexIn(tags, k'[i]) < IndexIn(tags, k'[j]) {
      assert k'[i] == k[i];
      if j < |k| {
        assert k'[j] == k[j];
      }
    }
  }

  lemma {:induction false} IndexInPrefix(xs: seq<string>, n: nat, x: string)
    requires n <= |xs| && x in xs[..n]
    ensures IndexIn(xs, x) == IndexIn(xs[..n], x) < n
    decreases n
  {
    if xs[0] != x {
      assert xs[..n][1..] == xs[1..][..n - 1];
      IndexInPrefix(xs[1..], n - 1, x);
    }
  }

  lemma {:induction false} IndexInLast(xs: seq<string>)
    requires |xs| > 0
    requires forall i, j :: 0 <= i < j < |xs| ==> xs[i] != xs[j]
    ensures IndexIn(xs, xs[|xs| - 1]) == |xs| - 1
    decreases |xs|
  {
    if |xs| > 1 {
      assert xs[1..][|xs| - 2] == xs[|xs| - 1];
      IndexInLast(xs[1..]);
    }
  }

  // ---------------------------------------------------------------------
  // Summary report

  /** `[r for r in results if hasattr(r, 'severity') and r.severity == level]`. */
  function WithSeverity(items: seq<Reportable>, level: SeverityLevel): (g: seq<ScanResult>)
    ensures |g| <= |items|
    ensures forall i :: 0 <= i < |g| ==> g[i].Severity() == level && Result(g[i]) in items
  {
    if |items| == 0 then []
    else
      var prefix := items[..|items| - 1];
      var prev := WithSeverity(prefix, level);
      assert forall x :: x in prefix ==> x in items;
      match items[|items| - 1]
      case Result(r) => if r.Severity() == level then prev + [r] else prev
      case Other(_) => prev
  }

  /** What one item adds to the summary list of `level`. */
  function OfSeverity(x: Reportable, level: SeverityLevel): seq<ScanResult> {
    match x
    case Result(r) => if r.Severity() == level then [r] else []
    case Other(_) => []
  }

  lemma WithSeverityLast(items: seq<Reportable>, level: SeverityLevel)
    requires |items| > 0
    ensures WithSeverity(items, level) == WithSeverity(items[..|items| - 1], level) + OfSeverity(items[|items| - 1], level)
  {
  }

  /** A single item is in its own severity's list, and in no list when it is not a scan result. */
  lemma WithSeveritySingle(x: Reportable, level: SeverityLevel)
    ensures x.Result? && x.result.Severity() == level ==> WithSeverity([x], level) == [x.result]
    ensures !(x.Result? && x.result.Severity() == level) ==> WithSeverity([x], level) == []
  {
    assert [x][..0] == [];
    WithSeverityLast([x], level);
  }

  /** A summary list over two runs of items is the concatenation of their lists: input order and multiplicity are kept. */
  lemma {:induction false} WithSeverityAppend(a: seq<Reportable>, b: seq<Reportable>, level: SeverityLevel)
    ensures WithSeverity(a + b, level) == WithSeverity(a, level) + WithSeverity(b, level)
    decreases |b|
  {
    if |b| == 0 {
      assert a + b == a;
    } else {
      var ab := a + b;
      var front := b[..|b| - 1];
      assert ab[..|ab| - 1] == a + front;
      assert ab[|ab| - 1] == b[|b| - 1];
      WithSeverityAppend(a, front, level);
      WithSeverityLast(ab, level);
      WithSeverityLast(b, level);
      AppendAssoc(WithSeverity(a, level), WithSeverity(front, level), OfSeverity(b[|b| - 1], level));
    }
  }

  /** The scan results among the items. */
  function ResultsOf(items: seq<Reportable>): (rs: seq<ScanResult>)
    ensures |rs| <= |items|
    ensures forall i :: 0 <= i < |rs| ==> Result(rs[i]) in items
  {
    if |items| == 0 then []
    else
      var prefix := items[..|items| - 1];
      var prev := ResultsOf(prefix);
      assert forall x :: x in prefix ==> x in items;
      match items[|items| - 1]
      case Result(r) => prev + [r]
      case Other(_) => prev
  }

  /** What one item adds to the scan results: itself when it is one. */
  function AsResult(x: Reportable): seq<ScanResult> {
    match x
    case Result(r) => [r]
    case Other(_) => []
  }

  lemma ResultsOfLast(items: seq<Reportable>)
    requires |items| > 0
    ensures ResultsOf(items) == ResultsOf(items[..|items| - 1]) + AsResult(items[|items| - 1])
  {
  }

  /** A single scan result is kept; anything else is dropped. */
  lemma ResultsOfSingle(x: Reportable)
    ensures x.Result? ==> ResultsOf([x]) == [x.result]
    ensures x.Other? ==> ResultsOf([x]) == []
  {
    assert [x][..0] == [];
    ResultsOfLast([x]);
  }

  /** The scan results of two runs of items are the concatenation of theirs. */
  lemma {:induction false} ResultsOfAppend(a: seq<Reportable>, b: seq<Reportable>)
    ensures ResultsOf(a + b) == ResultsOf(a) + ResultsOf(b)
    decreases |b|
  {
    if |b| == 0 {
      assert a + b == a;
    } else {
      var ab := a + b;
      var front := b[..|b| - 1];
      assert ab[..|ab| - 1] == a + front;
      assert ab[|ab| - 1] == b[|b| - 1];
      ResultsOfAppend(a, front);
      ResultsOfLast(ab);
      ResultsOfLast(b);
      AppendAssoc(ResultsOf(a), ResultsOf(front), AsResult(b[|b| - 1]));
    }
  }

  /** The multiset of the four summary lists. */
  function SummaryBag(items: seq<Reportable>): multiset<ScanResult> {
    multiset(WithSeverity(items, HIGH)) + multiset(WithSeverity(items, MEDIUM))
      + multiset(WithSeverity(items, LOW)) + multiset(WithSeverity(items, CLEAN))
  }

  lemma SummaryBagLast(items: seq<Reportable>)
    requires |items| > 0
    ensures SummaryBag(items) == SummaryBag(items[..|items| - 1]) + multiset(AsResult(items[|items| - 1]))
  {
    WithSeverityLast(items, HIGH);
    WithSeverityLast(items, MEDIUM);
    WithSeverityLast(items, LOW);
    WithSeverityLast(items, CLEAN);
  }

  /** The four summary lists hold every scan result exactly once, and nothing else. */
  lemma {:induction false} SummaryCover(items: seq<Reportable>)
    ensures SummaryBag(items) == multiset(ResultsOf(items))
    decreases |items|
  {
    if |items| > 0 {
      SummaryCover(items[..|items| - 1]);
      SummaryBagLast(items);
      ResultsOfLast(items);
    }
  }

  /** Counting the four summary lists counts every scan result once. */
  lemma SummaryPartition(items: seq<Reportable>)
    ensures |WithSeverity(items, HIGH)| + |WithSeverity(items, MEDIUM)| + |WithSeverity(items, LOW)|
          + |WithSeverity(items, CLEAN)| == |ResultsOf(items)|
  {
    SummaryCover(items);
    assert |SummaryBag(items)| == |multiset(ResultsOf(items))|;
  }

  /** Each summary list is the text report's group of the same tag. */
  lemma {:induction false} SummaryListsAreGroups(items: seq<Reportable>, level: SeverityLevel)
    ensures |WithSeverity(items, level)| == |Group(items, level.Name())|
    ensures forall i :: 0 <= i < |WithSeverity(items, level)| ==>
      Group(items, level.Name())[i] == Result(WithSeverity(items, level)[i])
    decreases |items|
  {
    if |items| > 0 {
      var prefix := items[..|items| - 1];
      var x := items[|items| - 1];
      SummaryListsAreGroups(prefix, level);
      LabelIsLevel(x, level);
      var g, w := Group(prefix, level.Name()), WithSeverity(prefix, level);
      if Label(x) == level.Name() {
        assert Group(items, level.Name()) == g + [x];
        assert WithSeverity(items, level) == w + [x.result];
      } else {
        assert Group(items, level.Name()) == g;
        assert WithSeverity(items, level) == w;
      }
    }
  }

  /** An item carries a severity's label exactly when it is a scan result of that severity. */
  lemma LabelIsLevel(x: Reportable, level: SeverityLevel)
    ensures Label(x) == level.Name() <==> x.Result? && x.result.Severity() == level
  {
  }

  /** The patterns a finding lists: those of its first three matches. */
  function FindingPatterns(r: ScanResult): (ps: seq<string>)
    ensures |ps| == if |r.matches| < 3 then |r.matches| else 3
    ensures forall i :: 0 <= i < |ps| ==> ps[i] == r.matches[i].pattern
  {
    var n := if |r.matches| < 3 then |r.matches| else 3;
    seq(n, i requires 0 <= i < n => r.matches[i].pattern)
  }

  /** One finding of the summary. */
  function Finding(r: ScanResult): (f: string)
    ensures IsPrefix("- " + r.source + ": " + r.itemType + "\n", f)
  {
    var head := "- " + r.source + ": " + r.itemType + "\n";
    var f := head
      + "  Score: " + IntToString(r.score) + "\n"
      + "  Matches: " + Join(FindingPatterns(r), ", ") + "\n"
      + "  Content preview: " + Take(r.content, 100) + "...\n\n";
    assert f[..|head|] == head;
    f
  }

  function Findings(rs: seq<ScanResult>): string {
    if |rs| == 0 then "" else Findings(rs[..|rs| - 1]) + Finding(rs[|rs| - 1])
  }

  function SummaryHeader(items: seq<Reportable>, now: string): string {
    "\nCRYPTOJACKING DETECTION SCAN SUMMARY\n"
      + "===================================\n"
      + "Scan completed at: " + now + "\n"
      + "Total items scanned: " + NatToString(|items|) + "\n\n"
      + "RESULTS BY SEVERITY:\n"
      + "- HIGH severity: " + NatToString(|WithSeverity(items, HIGH)|) + " items\n"
      + "- MEDIUM severity: " + NatToString(|WithSeverity(items, MEDIUM)|) + " items\n"
      + "- LOW severity: " + NatToString(|WithSeverity(items, LOW)|) + " items\n"
      + "- CLEAN: " + NatToString(|WithSeverity(items, CLEAN)|) + " items\n\n"
  }

  /**
   * `generate_summary`'s file content: the counts of the four lists, then the
   * HIGH findings and the MEDIUM findings, each section only when its list is
   * non-empty.
   */
  function Summary(items: seq<Reportable>, now: string): (t: string)
    ensures IsPrefix(SummaryHeader(items, now), t)
    ensures |WithSeverity(items, HIGH)| == 0 && |WithSeverity(items, MEDIUM)| == 0 ==> t == SummaryHeader(items, now)
  {
    var high := WithSeverity(items, HIGH);
    var medium := WithSeverity(items, MEDIUM);
    var highPart := if |high| > 0 then "\nHIGH SEVERITY FINDINGS:\n" + "----------------------\n" + Findings(high) else "";
    var mediumPart := if |medium| > 0 then "\nMEDIUM SEVERITY FINDINGS:\n" + "------------------------\n" + Findings(medium) else "";
    var h := SummaryHeader(items, now);
    PrefixOfAppend(h, highPart + mediumPart);
    h + (highPart + mediumPart)
  }

  lemma PrefixOfAppend(a: string, b: string)
    ensures IsPrefix(a, a + b)
    ensures b == "" ==> a + b == a
  {
    assert (a + b)[..|a|] == a;
  }

  // ---------------------------------------------------------------------
  // CSV and JSON

  /** The CSV rows: `to_dict()` of every item, or nothing when some item has no `to_dict`. */
  function CsvRows(items: seq<Reportable>): (rows: Option<seq<ResultDict>>)
    ensures rows.Some? <==> forall i :: 0 <= i < |items| ==> items[i].Result?
    ensures rows.Some? ==>
      && |rows.value| == |items|
      && forall i :: 0 <= i < |items| ==> rows.value[i] == ToDict(items[i].result)
  {
    if |items| == 0 then Some([])
    else
      var prefix := items[..|items| - 1];
      assert forall i :: 0 <= i < |prefix| ==> prefix[i] == items[i];
      match (CsvRows(prefix), items[|items| - 1])
      case (Some(rows), Result(r)) => Some(rows + [ToDict(r)])
      case _ => None
  }

  /**
   * `_write_csv`'s return value: False for an empty list; False when an item
   * has no `to_dict` (the first one's `keys()`, or a later one's `to_dict()`,
   * raises); True otherwise.
   */
  function CsvWritten(items: seq<Reportable>): (ok: bool)
    ensures items == [] ==> !ok
    ensures ok <==> |items| > 0 && forall i :: 0 <= i < |items| ==> items[i].Result?
  {
    if items == [] then false
    else if items[0].Other? then false
    else CsvRows(items).Some?
  }

  /**
   * `_write_json`'s return value: `results[0]` raises on an empty list; with
   * a scan result first every item must have `to_dict`; otherwise the list is
   * dumped as it is, which fails on a scan result.
   */
  function JsonWritten(items: seq<Reportable>): (ok: bool)
    ensures items == [] ==> !ok
    ensures ok <==> |items| > 0 && ((forall i :: 0 <= i < |items| ==> items[i].Result?)
                                 || (forall i :: 0 <= i < |items| ==> items[i].Other?))
  {
    if items == [] then false
    else if items[0].Result? then CsvRows(items).Some?
    else AllOther(items)
  }

  predicate AllOther(items: seq<Reportable>) {
    forall i :: 0 <= i < |items| ==> items[i].Other?
  }
}

=== FILE: scan_results.dfy ===
/**
 * The scan result record: where an item came from, what it contained, what
 * matched and the additive score, with a severity derived from the score,
 * and its two renderings (the JSON dictionary and the text block).
 */
module ScanResults {
  import opened Options
  import opened Strings
  import Patterns

  datatype SeverityLevel = HIGH | MEDIUM | LOW | CLEAN {
    /** The literal written to every output. */
    function Name(): string {
      match this
      case HIGH => "HIGH"
      case MEDIUM => "MEDIUM"
      case LOW => "LOW"
      case CLEAN => "CLEAN"
    }

    /** Position in the order CLEAN < LOW < MEDIUM < HIGH. */
    function Rank(): nat {
      match this
      case CLEAN => 0
      case LOW => 1
      case MEDIUM => 2
      case HIGH => 3
    }
  }

  /** One formatted match: the pattern, the matched text, its category and the weight it added. */
  datatype Match = Match(pattern: string, matched: string, category: string, weight: int)

  /** `_calculate_severity`: the hard-coded cut-offs are the catalog's confidence thresholds. */
  function CalculateSeverity(score: int): (s: SeverityLevel)
    ensures s == HIGH <==> score >= Patterns.HighConfidenceThreshold
    ensures s == MEDIUM <==> Patterns.MediumConfidenceThreshold <= score < Patterns.HighConfidenceThreshold
    ensures s == LOW <==> 0 < score < Patterns.MediumConfidenceThreshold
    ensures s == CLEAN <==> score <= 0
  {
    if score >= 15 then HIGH
    else if score >= 8 then MEDIUM
    else if score > 0 then LOW
    else CLEAN
  }

  /** A higher score never gives a lower severity. */
  lemma SeverityMonotone(a: int, b: int)
    requires a <= b
    ensures CalculateSeverity(a).Rank() <= CalculateSeverity(b).Rank()
  {
  }

  datatype ScanResult = ScanResult(source: string, itemType: string, content: string, matches: seq<Match>, score: int) {
    /** Computed from the score the result was built with, which nothing changes afterwards. */
    function Severity(): SeverityLevel {
      CalculateSeverity(score)
    }
  }

  /** The constructor: missing (or empty) matches become the empty list. */
  function NewScanResult(source: string, itemType: string, content: string, matches: Option<seq<Match>>, score: int): (r: ScanResult)
    ensures matches.None? ==> r.matches == []
    ensures matches.Some? ==> r.matches == matches.value
    ensures r.score == score && r.content == content
    ensures r.Severity() == CLEAN <==> score <= 0
  {
    ScanResult(source, itemType, content, matches.GetOr([]), score)
  }

  /** The fields of `to_dict`, the timestamp aside. */
  datatype ResultDict = ResultDict(source: string, itemType: string, contentPreview: string,
                                   matches: seq<Match>, score: int, severity: string)

  /** `to_dict`: the preview is the content itself up to 100 characters, else 100 characters and "...". */
  function ToDict(r: ScanResult): (d: ResultDict)
    ensures |r.content| <= 100 ==> d.contentPreview == r.content
    ensures |r.content| > 100 ==> d.contentPreview == r.content[..100] + "..."
    ensures |d.contentPreview| <= 103
    ensures d.severity == r.Severity().Name() && d.matches == r.matches && d.score == r.score
  {
    ResultDict(r.source, r.itemType, Preview(r.content, 100), r.matches, r.score, r.Severity().Name())
  }

  /** The `Matches:` line of `to_text`: "None" exactly when there are no matches. */
  function MatchText(ms: seq<Match>): (t: string)
    ensures t == "None" <==> |ms| == 0
  {
    if |ms| == 0 then "None"
    else
      var parts := seq(|ms|, i requires 0 <= i < |ms| => ms[i].pattern + " (" + ms[i].category + ")");
      var t := Join(parts, ", ");
      JoinFirst(parts, ", ");
      var n := |ms[0].pattern|;
      assert parts[0][n] == ' ';
      assert t[n] == ' ';
      assert forall i :: 0 <= i < 4 ==> "None"[i] != ' ';
      t
  }

  lemma JoinFirst(parts: seq<string>, sep: string)
    requires |parts| > 0
    ensures IsPrefix(parts[0], Join(parts, sep))
  {
  }

  /** `to_text`: a severity header, and a content line that always ends in "..." after at most 100 characters. */
  function ToText(r: ScanResult): (t: string)
    ensures IsPrefix("[" + r.Severity().Name() + "] " + r.source + " - " + r.itemType + "\n", t)
    ensures |t| >= 13 + |Take(r.content, 100)|
    ensures t[|t| - 13 - |Take(r.content, 100)|..] == "Content: " + Take(r.content, 100) + "...\n"
  {
    var header := "[" + r.Severity().Name() + "] " + r.source + " - " + r.itemType + "\n";
    var last := "Content: " + Take(r.content, 100) + "...\n";
    var t := header + "Score: " + IntToString(r.score) + "\n" + "Matches: " + MatchText(r.matches) + "\n" + last;
    assert t[..|header|] == header;
    assert t[|t| - |last|..] == last;
    t
  }

  /** The text names the severity first: results of different severities never render alike. */
  lemma ToTextShowsSeverity(a: ScanResult, b: ScanResult)
    requires a.Severity() != b.Severity()
    ensures ToText(a) != ToText(b)
  {
    var ha := "[" + a.Severity().Name() + "] " + a.source + " - " + a.itemType + "\n";
    var hb := "[" + b.Severity().Name() + "] " + b.source + " - " + b.itemType + "\n";
    assert ToText(a)[1] == ha[1] == a.Severity().Name()[0];
    assert ToText(b)[1] == hb[1] == b.Severity().Name()[0];
  }

  /** Only the first 100 characters of the content reach the text. */
  lemma ToTextCutsContent(r: ScanResult, content: string)
    requires Take(content, 100) == Take(r.content, 100)
    ensures ToText(r.(content := content)) == ToText(r)
  {
  }

  /** The stand-in `check_for_miners` the cloud scanners fall back on: nothing ever matches. */
  function FallbackCheckForMiners(text: string, decodeBase64: bool): (r: (int, seq<Match>))
    ensures r.0 == 0 && r.1 == []
  {
    (0, [])
  }

  /** Every result the cloud scanners build from the fallback is CLEAN. */
  lemma FallbackResultsAreClean(source: string, itemType: string, content: string, text: string, decodeBase64: bool)
    ensures
      var (score, matches) := FallbackCheckForMiners(text, decodeBase64);
      var r := NewScanResult(source, itemType, content, Some(matches), score);
      r.Severity() == CLEAN && r.matches == []
  {
  }
}

=== FILE: scoring.dfy ===
/**
 * The miner detector: scores a text against the pattern table, one category
 * weight per reported match, with no cap; and the file scan built on it,
 * which for a large file folds the chunk scores and keeps one match per pattern.
 */
module Scoring {
  import opened Options
  import opened Strings
  import opened Tables
  import opened RegexTable
  import opened ScanResults
  import opened Base64Heuristics
  import Patterns

  /**
   * What the detector is built from: the pattern table, the category weights,
   * the matcher, and the base64 candidate finder and decoder.
   */
  datatype Detector = Detector(
    table: PatternTable,
    weights: map<string, int>,
    findAll: FindAll,
    base64Candidates: string -> seq<string>,
    base64Decode: string -> string)

  /** The detector over the catalog's categories and weights. */
  function CatalogDetector(findAll: FindAll, base64Candidates: string -> seq<string>, base64Decode: string -> string): (d: Detector)
    ensures Keys(d.table) == Keys(Patterns.GetPatternCategories())
    ensures forall c :: c in Keys(d.table) ==> c in d.weights && 3 <= d.weights[c] <= 9
  {
    var d := Detector(Patterns.GetPatternCategories(), Patterns.GetCategoryWeights(), findAll, base64Candidates, base64Decode);
    d
  }

  /** `category_weights.get(category, 1)`. */
  function WeightOf(weights: map<string, int>, category: string): int {
    if category in weights then weights[category] else 1
  }

  /** The sum of the `weight` fields. */
  function TotalWeight(ms: seq<Match>): int {
    if |ms| == 0 then 0 else TotalWeight(ms[..|ms| - 1]) + ms[|ms| - 1].weight
  }

  /** The sum of the weights the triples' categories carry. */
  function TripleWeight(weights: map<string, int>, ts: seq<Triple>): int {
    if |ts| == 0 then 0 else TripleWeight(weights, ts[..|ts| - 1]) + WeightOf(weights, ts[|ts| - 1].category)
  }

  /** The match recorded for a triple: its pattern, text and category, and the weight it adds. */
  function Formatted(weights: map<string, int>, t: Triple): Match {
    Match(t.pattern, t.matched, t.category, WeightOf(weights, t.category))
  }

  /** The scoring loop: add the category weight and record one formatted match per triple. */
  function Accumulate(weights: map<string, int>, ts: seq<Triple>): (r: (int, seq<Match>))
    ensures |r.1| == |ts|
    ensures forall i :: 0 <= i < |ts| ==> r.1[i] == Formatted(weights, ts[i])
    ensures r.0 == TotalWeight(r.1) == TripleWeight(weights, ts)
  {
    if |ts| == 0 then (0, [])
    else
      var (score, ms) := Accumulate(weights, ts[..|ts| - 1]);
      AccumulateStep(weights, ts, score, ms);
      (score + WeightOf(weights, ts[|ts| - 1].category), ms + [Formatted(weights, ts[|ts| - 1])])
  }

  /** One more triple: one more match, and its weight on the score. */
  lemma AccumulateStep(weights: map<string, int>, ts: seq<Triple>, score: int, ms: seq<Match>)
    requires |ts| > 0
    requires |ms| == |ts| - 1
    requires forall i :: 0 <= i < |ms| ==> ms[i] == Formatted(weights, ts[..|ts| - 1][i])
    requires score == TotalWeight(ms) == TripleWeight(weights, ts[..|ts| - 1])
    ensures var ms' := ms + [Formatted(weights, ts[|ts| - 1])];
      && (forall i :: 0 <= i < |ts| ==> ms'[i] == Formatted(weights, ts[i]))
      && score + WeightOf(weights, ts[|ts| - 1].category) == TotalWeight(ms') == TripleWeight(weights, ts)
  {
    var ms' := ms + [Formatted(weights, ts[|ts| - 1])];
    assert ms'[..|ms'| - 1] == ms;
    forall i | 0 <= i < |ts| ensures ms'[i] == Formatted(weights, ts[i]) {
      if i < |ms| {
        assert ms'[i] == ms[i];
        assert ts[..|ts| - 1][i] == ts[i];
      }
    }
  }

  /** The text the patterns run over: the input, expanded with its base64 decodings when asked. */
  function ScannedText(d: Detector, text: string, decodeBase64: bool): (s: string)
    ensures IsPrefix(text, s)
  {
    if decodeBase64 then FindAndDecodeBase64(text, d.base64Candidates(text), d.base64Decode) else text
  }

  /** `check_text` over every category of the detector's table. */
  function Triples(d: Detector, text: string, decodeBase64: bool): seq<Triple> {
    CheckText(d.table, ScannedText(d, text, decodeBase64), None, d.findAll)
  }

  /**
   * `check_for_miners(text, decode_base64)`: empty text scores 0 with no
   * matches; otherwise one match per triple, in order, and the score is the
   * sum of their weights.
   */
  function CheckForMiners(d: Detector, text: string, decodeBase64: bool): (r: (int, seq<Match>))
    ensures text == "" ==> r == (0, [])
    ensures r.0 == TotalWeight(r.1)
    ensures text != "" ==> |r.1| == |Triples(d, text, decodeBase64)|
    ensures text != "" ==> forall i :: 0 <= i < |r.1| ==>
      var t := Triples(d, text, decodeBase64)[i];
      r.1[i].pattern == t.pattern && r.1[i].matched == t.matched && r.1[i].category == t.category
    ensures forall i :: 0 <= i < |r.1| ==>
      r.1[i].weight == if r.1[i].category in d.weights then d.weights[r.1[i].category] else 1
  {
    if text == "" then (0, [])
    else Accumulate(d.weights, Triples(d, text, decodeBase64))
  }

  // ---------------------------------------------------------------------
  // The score as a weighted count of matches

  /** The number of matches of a pattern list. */
  function MatchCount(patterns: seq<string>, text: string, findAll: FindAll): nat {
    if |patterns| == 0 then 0
    else MatchCount(patterns[..|patterns| - 1], text, findAll) + |findAll(patterns[|patterns| - 1], text)|
  }

  /** Each category's match count times its weight, summed over the listed categories. */
  function WeightedCount(t: PatternTable, categories: seq<string>, text: string, findAll: FindAll, weights: map<string, int>): int {
    if |categories| == 0 then 0
    else
      var c := categories[|categories| - 1];
      WeightedCount(t, categories[..|categories| - 1], text, findAll, weights)
        + match Lookup(t, c)
          case None => 0
          case Some(ps) => MatchCount(ps, text, findAll) * WeightOf(weights, c)
  }

  lemma {:induction false} TripleWeightAppend(weights: map<string, int>, a: seq<Triple>, b: seq<Triple>)
    ensures TripleWeight(weights, a + b) == TripleWeight(weights, a) + TripleWeight(weights, b)
    decreases |b|
  {
    if |b| > 0 {
      assert (a + b)[..|a + b| - 1] == a + b[..|b| - 1];
      TripleWeightAppend(weights, a, b[..|b| - 1]);
    } else {
      assert a + b == a;
    }
  }

  lemma {:induction false} MatchTriplesWeight(weights: map<string, int>, c: string, p: string, ms: seq<string>)
    ensures TripleWeight(weights, MatchTriples(c, p, ms)) == |ms| * WeightOf(weights, c)
    decreases |ms|
  {
    if |ms| > 0 {
      var ts := MatchTriples(c, p, ms);
      assert ts[..|ts| - 1] == MatchTriples(c, p, ms[..|ms| - 1]);
      MatchTriplesWeight(weights, c, p, ms[..|ms| - 1]);
      Distribute(|ms| - 1, 1, WeightOf(weights, c));
    }
  }

  lemma {:induction false} PatternTriplesWeight(weights: map<string, int>, c: string, ps: seq<string>, text: string, findAll: FindAll)
    ensures TripleWeight(weights, PatternTriples(c, ps, text, findAll)) == MatchCount(ps, text, findAll) * WeightOf(weights, c)
    decreases |ps|
  {
    if |ps| > 0 {
      var pre := ps[..|ps| - 1];
      var last := ps[|ps| - 1];
      var ms := findAll(last, text);
      var a := PatternTriples(c, pre, text, findAll);
      var b := MatchTriples(c, last, ms);
      var w := WeightOf(weights, c);
      assert PatternTriples(c, ps, text, findAll) == a + b;
      assert MatchCount(ps, text, findAll) == MatchCount(pre, text, findAll) + |ms|;
      PatternTriplesWeight(weights, c, pre, text, findAll);
      TripleWeightAppend(weights, a, b);
      MatchTriplesWeight(weights, c, last, ms);
      Distribute(MatchCount(pre, text, findAll), |ms|, w);
    }
  }

  lemma Distribute(a: int, b: int, w: int)
    ensures (a + b) * w == a * w + b * w
  {
  }

  lemma {:induction false} CategoryTriplesWeight(t: PatternTable, cats: seq<string>, text: string, findAll: FindAll, weights: map<string, int>)
    ensures TripleWeight(weights, CategoryTriples(t, cats, text, findAll)) == WeightedCount(t, cats, text, findAll, weights)
    decreases |cats|
  {
    if |cats| > 0 {
      var c := cats[|cats| - 1];
      CategoryTriplesWeight(t, cats[..|cats| - 1], text, findAll, weights);
      var tail := match Lookup(t, c) case None => [] case Some(ps) => PatternTriples(c, ps, text, findAll);
      TripleWeightAppend(weights, CategoryTriples(t, cats[..|cats| - 1], text, findAll), tail);
      if Lookup(t, c).Some? {
        PatternTriplesWeight(weights, c, Lookup(t, c).value, text, findAll);
      }
    }
  }

  /**
   * The score of a non-empty text is, over every category, the number of
   * matches of its patterns times the category weight: a pattern that
   * matches k times adds k times the weight.
   */
  lemma ScoreIsWeightedMatchCount(d: Detector, text: string, decodeBase64: bool)
    requires text != ""
    ensures CheckForMiners(d, text, decodeBase64).0
         == WeightedCount(d.table, Keys(d.table), ScannedText(d, text, decodeBase64), d.findAll, d.weights)
  {
    CategoryTriplesWeight(d.table, Keys(d.table), ScannedText(d, text, decodeBase64), d.findAll, d.weights);
  }

  /** With one category holding one pattern, k matches score exactly k times the weight. */
  lemma RepeatedMatchesAddUp(d: Detector, text: string, decodeBase64: bool, c: string, p: string)
    requires text != ""
    requires d.table == [(c, [p])]
    ensures CheckForMiners(d, text, decodeBase64).0
         == |d.findAll(p, ScannedText(d, text, decodeBase64))| * WeightOf(d.weights, c)
  {
    var s := ScannedText(d, text, decodeBase64);
    ScoreIsWeightedMatchCount(d, text, decodeBase64);
    assert Keys(d.table) == [c];
    assert [c][..0] == [];
    assert [p][..0] == [];
    assert MatchCount([p], s, d.findAll) == |d.findAll(p, s)|;
  }

  /** No cap: with weights of at least 1, the score is at least the number of matches. */
  lemma {:induction false} ScoreAtLeastMatchCount(d: Detector, text: string, decodeBase64: bool)
    requires forall c :: c in d.weights ==> d.weights[c] >= 1
    ensures CheckForMiners(d, text, decodeBase64).0 >= |CheckForMiners(d, text, decodeBase64).1|
  {
    var r := CheckForMiners(d, text, decodeBase64);
    TotalWeightAtLeastLength(r.1);
  }

  lemma {:induction false} TotalWeightAtLeastLength(ms: seq<Match>)
    requires forall i :: 0 <= i < |ms| ==> ms[i].weight >= 1
    ensures TotalWeight(ms) >= |ms|
    decreases |ms|
  {
    if |ms| > 0 {
      TotalWeightAtLeastLength(ms[..|ms| - 1]);
    }
  }

  /** With two categories of one pattern each, the score is each match count times its category's weight. */
  lemma TwoCategoriesAddUp(d: Detector, text: string, decodeBase64: bool, c1: string, p: string, c2: string, q: string)
    requires text != "" && c1 != c2
    requires d.table == [(c1, [p]), (c2, [q])]
    ensures CheckForMiners(d, text, decodeBase64).0
         == |d.findAll(p, ScannedText(d, text, decodeBase64))| * WeightOf(d.weights, c1)
          + |d.findAll(q, ScannedText(d, text, decodeBase64))| * WeightOf(d.weights, c2)
  {
    var s := ScannedText(d, text, decodeBase64);
    var t := d.table;
    ScoreIsWeightedMatchCount(d, text, decodeBase64);
    assert Keys(t[1..]) == [c2] by {
      assert t[1..][1..] == [];
    }
    assert Keys(t) == [c1, c2];
    assert Lookup(t, c1) == Some([p]);
    assert Lookup(t, c2) == Some([q]);
    WeightedCountStep(t, [c1, c2], s, d.findAll, d.weights, [q]);
    WeightedCountStep(t, [c1], s, d.findAll, d.weights, [p]);
    assert [c1, c2][..1] == [c1];
    assert [c1][..0] == [];
    SingleMatchCount(p, s, d.findAll);
    SingleMatchCount(q, s, d.findAll);
  }

  lemma WeightedCountStep(t: PatternTable, cats: seq<string>, text: string, findAll: FindAll, weights: map<string, int>, ps: seq<string>)
    requires |cats| > 0 && Lookup(t, cats[|cats| - 1]) == Some(ps)
    ensures WeightedCount(t, cats, text, findAll, weights)
         == WeightedCount(t, cats[..|cats| - 1], text, findAll, weights) + MatchCount(ps, text, findAll) * WeightOf(weights, cats[|cats| - 1])
  {
  }

  lemma SingleMatchCount(p: string, text: string, findAll: FindAll)
    ensures MatchCount([p], text, findAll) == |findAll(p, text)|
  {
    assert [p][..0] == [];
  }

  /** How many matches the patterns of category `c` find in `s`; 0 for a category the table lacks. */
  function CategoryMatches(d: Detector, s: string, c: string): nat {
    match Lookup(d.table, c)
    case None => 0
    case Some(ps) => MatchCount(ps, s, d.findAll)
  }

  /** What category `c` adds to the weighted count. */
  function Contribution(d: Detector, s: string, c: string): int {
    CategoryMatches(d, s, c) * WeightOf(d.weights, c)
  }

  /**
   * When every category but `c1` and `c2` finds nothing, the weighted count
   * over distinct categories is what those two add.
   */
  lemma {:induction false} WeightedCountOfTwo(d: Detector, cats: seq<string>, s: string, c1: string, c2: string)
    requires c1 != c2
    requires forall i, j :: 0 <= i < j < |cats| ==> cats[i] != cats[j]
    requires forall c :: c in cats && c != c1 && c != c2 ==> CategoryMatches(d, s, c) == 0
    ensures WeightedCount(d.table, cats, s, d.findAll, d.weights)
         == (if c1 in cats then Contribution(d, s, c1) else 0) + (if c2 in cats then Contribution(d, s, c2) else 0)
    decreases |cats|
  {
    if |cats| > 0 {
      var n := |cats| - 1;
      var front := cats[..n];
      var c := cats[n];
      WeightedCountLast(d, cats, s);
      assert c !in front by {
        forall i | 0 <= i < n ensures front[i] != c {
          assert front[i] == cats[i];
        }
      }
      assert cats == front + [c];
      assert c1 in cats <==> c1 in front || c1 == c;
      assert c2 in cats <==> c2 in front || c2 == c;
      WeightedCountOfTwo(d, front, s, c1, c2);
      if c != c1 && c != c2 {
        assert CategoryMatches(d, s, c) == 0;
        assert Contribution(d, s, c) == 0;
      }
    }
  }

  lemma WeightedCountLast(d: Detector, cats: seq<string>, s: string)
    requires |cats| > 0
    ensures WeightedCount(d.table, cats, s, d.findAll, d.weights)
         == WeightedCount(d.table, cats[..|cats| - 1], s, d.findAll, d.weights) + Contribution(d, s, cats[|cats| - 1])
  {
  }

  /** The score of a non-empty text over distinct categories of which only `c1` and `c2` find anything. */
  lemma ScoreOfTwo(d: Detector, text: string, decodeBase64: bool, c1: string, c2: string)
    requires text != "" && c1 != c2
    requires forall i, j :: 0 <= i < j < |Keys(d.table)| ==> Keys(d.table)[i] != Keys(d.table)[j]
    requires c1 in Keys(d.table) && c2 in Keys(d.table)
    requires forall c :: c != c1 && c != c2 ==> CategoryMatches(d, ScannedText(d, text, decodeBase64), c) == 0
    ensures CheckForMiners(d, text, decodeBase64).0
         == Contribution(d, ScannedText(d, text, decodeBase64), c1) + Contribution(d, ScannedText(d, text, decodeBase64), c2)
  {
    ScoreIsWeightedMatchCount(d, text, decodeBase64);
    WeightedCountOfTwo(d, Keys(d.table), ScannedText(d, text, decodeBase64), c1, c2);
  }

  /** The detector built on the catalog's categories and weights, whatever its regex engine and base64 helpers. */
  predicate UsesCatalog(d: Detector) {
    d.table == Patterns.GetPatternCategories() && d.weights == Patterns.GetCategoryWeights()
  }

  /**
   * On the catalog detector, one miner-software match and one mining-pool
   * match in the scanned text (decoded or not), with nothing else matching,
   * score 8 + 9 = 17, which is HIGH.
   */
  lemma CatalogScenario(d: Detector, text: string, decodeBase64: bool)
    requires text != "" && UsesCatalog(d)
    requires CategoryMatches(d, ScannedText(d, text, decodeBase64), "miner_software") == 1
    requires CategoryMatches(d, ScannedText(d, text, decodeBase64), "mining_pools") == 1
    requires forall c :: c != "miner_software" && c != "mining_pools" ==> CategoryMatches(d, ScannedText(d, text, decodeBase64), c) == 0
    ensures CheckForMiners(d, text, decodeBase64).0 == 17
    ensures CalculateSeverity(CheckForMiners(d, text, decodeBase64).0) == HIGH
  {
    CatalogKeys(d);
    ScoreOfTwo(d, text, decodeBase64, "miner_software", "mining_pools");
    CatalogWeights();
  }

  /** On the catalog detector, a single miner-software match and nothing else scores 8, which is only MEDIUM. */
  lemma CatalogSingleHit(d: Detector, text: string, decodeBase64: bool)
    requires text != "" && UsesCatalog(d)
    requires CategoryMatches(d, ScannedText(d, text, decodeBase64), "miner_software") == 1
    requires forall c :: c != "miner_software" ==> CategoryMatches(d, ScannedText(d, text, decodeBase64), c) == 0
    ensures CheckForMiners(d, text, decodeBase64).0 == 8
    ensures CalculateSeverity(CheckForMiners(d, text, decodeBase64).0) == MEDIUM
  {
    CatalogKeys(d);
    ScoreOfTwo(d, text, decodeBase64, "miner_software", "mining_pools");
    CatalogWeights();
  }

  /** The catalog's categories are distinct and include miner software and mining pools. */
  lemma CatalogKeys(d: Detector)
    requires UsesCatalog(d)
    ensures forall i, j :: 0 <= i < j < |Keys(d.table)| ==> Keys(d.table)[i] != Keys(d.table)[j]
    ensures "miner_software" in Keys(d.table) && "mining_pools" in Keys(d.table)
  {
    var t := d.table;
    forall i, j | 0 <= i < j < |Keys(t)| ensures Keys(t)[i] != Keys(t)[j] {
      KeyIndex(t, i);
      KeyIndex(t, j);
    }
    CatalogWeights();
  }

  lemma CatalogWeights()
    ensures WeightOf(Patterns.GetCategoryWeights(), "miner_software") == 8
    ensures WeightOf(Patterns.GetCategoryWeights(), "mining_pools") == 9
  {
    assert Patterns.CategoryWeights["miner_software"] == 8;
    assert Patterns.CategoryWeights["mining_pools"] == 9;
  }

  // ---------------------------------------------------------------------
  // File scanning

  /** The chunks `f.read(size)` returns until end of file: full chunks, then the rest. */
  function Chunks(content: string, size: nat): (r: seq<string>)
    ensures size == 0 ==> r == []
    ensures size > 0 ==> Concat(r) == content
    ensures forall i :: 0 <= i < |r| ==> 0 < |r[i]| <= size
    ensures forall i :: 0 <= i < |r| - 1 ==> |r[i]| == size
    decreases |content|
  {
    if size == 0 || content == "" then []
    else if |content| <= size then
      assert Concat([content]) == Concat([content][..0]) + content;
      [content]
    else
      var rest := Chunks(content[size..], size);
      ConcatCons(content[..size], rest);
      [content[..size]] + rest
  }

  lemma {:induction false} ConcatCons(head: string, tail: seq<string>)
    ensures Concat([head] + tail) == head + Concat(tail)
    decreases |tail|
  {
    if |tail| == 0 {
      assert [head] + tail == [head];
      assert [head][..0] == [];
    } else {
      var all := [head] + tail;
      assert all[..|all| - 1] == [head] + tail[..|tail| - 1];
      ConcatCons(head, tail[..|tail| - 1]);
    }
  }

  /** The large-file loop: the chunk scores added up and the chunk matches concatenated. */
  function FoldChunks(d: Detector, chunks: seq<string>): (r: (int, seq<Match>))
    ensures r.0 == TotalWeight(r.1)
  {
    if |chunks| == 0 then (0, [])
    else
      var front := FoldChunks(d, chunks[..|chunks| - 1]);
      var last := CheckForMiners(d, chunks[|chunks| - 1], true);
      TotalWeightAppend(front.1, last.1);
      (front.0 + last.0, front.1 + last.1)
  }

  /** One chunk folds to that chunk's `check_for_miners` result. */
  lemma FoldChunksSingle(d: Detector, c: string)
    ensures FoldChunks(d, [c]).0 == CheckForMiners(d, c, true).0
    ensures FoldChunks(d, [c]).1 == CheckForMiners(d, c, true).1
  {
    assert [c][..0] == [];
    FoldChunksLast(d, [c]);
    assert [] + CheckForMiners(d, c, true).1 == CheckForMiners(d, c, true).1;
  }

  /** Folding two runs of chunks adds their scores and concatenates their matches. */
  lemma {:induction false} FoldChunksAppend(d: Detector, a: seq<string>, b: seq<string>)
    ensures FoldChunks(d, a + b).0 == FoldChunks(d, a).0 + FoldChunks(d, b).0
    ensures FoldChunks(d, a + b).1 == FoldChunks(d, a).1 + FoldChunks(d, b).1
    decreases |b|
  {
    if |b| == 0 {
      assert a + b == a;
      assert FoldChunks(d, a).1 + [] == FoldChunks(d, a).1;
    } else {
      var ab := a + b;
      var front := b[..|b| - 1];
      assert ab[..|ab| - 1] == a + front;
      assert ab[|ab| - 1] == b[|b| - 1];
      FoldChunksAppend(d, a, front);
      FoldChunksLast(d, ab);
      FoldChunksLast(d, b);
      AppendAssoc(FoldChunks(d, a).1, FoldChunks(d, front).1, CheckForMiners(d, b[|b| - 1], true).1);
    }
  }

  lemma FoldChunksLast(d: Detector, chunks: seq<string>)
    requires |chunks| > 0
    ensures FoldChunks(d, chunks).0 == FoldChunks(d, chunks[..|chunks| - 1]).0 + CheckForMiners(d, chunks[|chunks| - 1], true).0
    ensures FoldChunks(d, chunks).1 == FoldChunks(d, chunks[..|chunks| - 1]).1 + CheckForMiners(d, chunks[|chunks| - 1], true).1
  {
  }

  /**
   * Every match of every chunk is in the fold, so the deduplicated large-file
   * result names each pattern any chunk matched.
   */
  lemma {:induction false} FoldChunksCovers(d: Detector, chunks: seq<string>, k: nat, m: Match)
    requires k < |chunks| && m in CheckForMiners(d, chunks[k], true).1
    ensures m in FoldChunks(d, chunks).1
    ensures m.pattern in PatternsOf(UniqueByPattern(FoldChunks(d, chunks).1))
    decreases |chunks|
  {
    var prefix := chunks[..|chunks| - 1];
    FoldChunksLast(d, chunks);
    if k < |chunks| - 1 {
      assert prefix[k] == chunks[k];
      FoldChunksCovers(d, prefix, k, m);
    }
    InAppend(FoldChunks(d, prefix).1, CheckForMiners(d, chunks[|chunks| - 1], true).1, m);
    KeptPattern(FoldChunks(d, chunks).1, m);
  }

  lemma InAppend(x: seq<Match>, y: seq<Match>, m: Match)
    ensures m in x + y <==> m in x || m in y
  {
  }

  /** A match's pattern survives deduplication. */
  lemma KeptPattern(ms: seq<Match>, m: Match)
    requires m in ms
    ensures m.pattern in PatternsOf(UniqueByPattern(ms))
  {
    var i :| 0 <= i < |ms| && ms[i] == m;
    assert PatternsOf(ms)[i] == m.pattern;
    UniqueByPatternCovers(ms);
  }

  lemma {:induction false} TotalWeightAppend(a: seq<Match>, b: seq<Match>)
    ensures TotalWeight(a + b) == TotalWeight(a) + TotalWeight(b)
    decreases |b|
  {
    if |b| > 0 {
      assert (a + b)[..|a + b| - 1] == a + b[..|b| - 1];
      TotalWeightAppend(a, b[..|b| - 1]);
    } else {
      assert a + b == a;
    }
  }

  /** The patterns of a match list, in order. */
  function PatternsOf(ms: seq<Match>): (r: seq<string>)
    ensures |r| == |ms| && forall i :: 0 <= i < |ms| ==> r[i] == ms[i].pattern
  {
    seq(|ms|, i requires 0 <= i < |ms| => ms[i].pattern)
  }

  /**
   * The deduplication loop: keep a match when its pattern has not been seen
   * before. `UniqueByPatternCovers` and `UniqueByPatternKeepsFirst` state
   * what it keeps.
   */
  function UniqueByPattern(ms: seq<Match>): (r: seq<Match>)
    ensures |r| <= |ms|
    ensures forall i :: 0 <= i < |r| ==> r[i] in ms
  {
    if |ms| == 0 then []
    else
      var prefix := ms[..|ms| - 1];
      var m := ms[|ms| - 1];
      if m.pattern in PatternsOf(prefix) then UniqueByPattern(prefix)
      else UniqueByPattern(prefix) + [m]
  }

  /** The deduplicated list names every pattern of the input, and none twice. */
  lemma {:induction false} UniqueByPatternCovers(ms: seq<Match>)
    ensures var r := UniqueByPattern(ms);
      && (forall i, j :: 0 <= i < j < |r| ==> r[i].pattern != r[j].pattern)
      && (forall p :: p in PatternsOf(r) <==> p in PatternsOf(ms))
    decreases |ms|
  {
    if |ms| > 0 {
      var prefix := ms[..|ms| - 1];
      var m := ms[|ms| - 1];
      var prev := UniqueByPattern(prefix);
      UniqueByPatternCovers(prefix);
      assert PatternsOf(ms) == PatternsOf(prefix) + [m.pattern];
      if m.pattern !in PatternsOf(prefix) {
        assert PatternsOf(prev + [m]) == PatternsOf(prev) + [m.pattern];
      }
    }
  }

  /** No earlier match has the pattern of match `i`. */
  predicate IsFirstOfPattern(ms: seq<Match>, i: nat)
    requires i < |ms|
  {
    forall j :: 0 <= j < i ==> ms[j].pattern != ms[i].pattern
  }

  /** The matches among the first `n` that are the first with their pattern, in order. */
  function FirstsUpTo(ms: seq<Match>, n: nat): seq<Match>
    requires n <= |ms|
  {
    if n == 0 then []
    else FirstsUpTo(ms, n - 1) + (if IsFirstOfPattern(ms, n - 1) then [ms[n - 1]] else [])
  }

  /**
   * The deduplication keeps exactly the matches no earlier match shares a
   * pattern with, in input order.
   */
  lemma UniqueByPatternKeepsFirst(ms: seq<Match>)
    ensures UniqueByPattern(ms) == FirstsUpTo(ms, |ms|)
  {
    UniqueByPatternPrefix(ms, |ms|);
    assert ms[..|ms|] == ms;
  }

  lemma {:induction false} UniqueByPatternPrefix(ms: seq<Match>, n: nat)
    requires n <= |ms|
    ensures UniqueByPattern(ms[..n]) == FirstsUpTo(ms, n)
    decreases n
  {
    if n > 0 {
      UniqueByPatternPrefix(ms, n - 1);
      var prefix := ms[..n][..n - 1];
      assert prefix == ms[..n - 1];
      SeenBefore(ms, n - 1);
    }
  }

  /** A pattern occurs among the earlier matches exactly when the match is not the first with it. */
  lemma SeenBefore(ms: seq<Match>, i: nat)
    requires i < |ms|
    ensures ms[i].pattern in PatternsOf(ms[..i]) <==> !IsFirstOfPattern(ms, i)
  {
    if !IsFirstOfPattern(ms, i) {
      var j :| 0 <= j < i && ms[j].pattern == ms[i].pattern;
      assert PatternsOf(ms[..i])[j] == ms[i].pattern;
    }
  }

  /**
   * `scan_file` once the file is read: a file over ten chunk sizes is scored
   * chunk by chunk (total score, one match per pattern); a smaller one whole,
   * with a preview of its first 500 characters. `sizeLabel` is the formatted
   * size in MB.
   */
  function ScanFileContent(d: Detector, path: string, content: string, fileSize: nat, chunkSize: nat, sizeLabel: string): (r: ScanResult)
    ensures r.source == "File: " + path
    ensures r.score == TotalWeight(if fileSize > 10 * chunkSize then FoldChunks(d, Chunks(content, chunkSize)).1 else r.matches)
    ensures fileSize > 10 * chunkSize ==>
      && r.itemType == "Large File"
      && r.matches == UniqueByPattern(FoldChunks(d, Chunks(content, chunkSize)).1)
    ensures fileSize > 10 * chunkSize ==> r.score == FoldChunks(d, Chunks(content, chunkSize)).0
    ensures fileSize <= 10 * chunkSize ==>
      && r.itemType == "File"
      && (r.score, r.matches) == CheckForMiners(d, content, true)
      && (|content| <= 500 ==> r.content == content)
      && (|content| > 500 ==> r.content == content[..500] + "...")
  {
    if fileSize > 10 * chunkSize then
      var (total, all) := FoldChunks(d, Chunks(content, chunkSize));
      NewScanResult("File: " + path, "Large File", "Large file: " + sizeLabel + " MB", Some(UniqueByPattern(all)), total)
    else
      var (score, matches) := CheckForMiners(d, content, true);
      NewScanResult("File: " + path, "File", Preview(content, 500), Some(matches), score)
  }
}

=== FILE: strings.dfy ===
/** The handful of Python `str` operations the scanner relies on, over `seq<char>`. */
module Strings {
  import opened Options

  /** The characters Python's `str.isspace()` accepts. */
  const SpaceChars: set<char> := {
    ' ', '\t', '\n', '\r', '\U{000B}', '\U{000C}',
    '\U{001C}', '\U{001D}', '\U{001E}', '\U{001F}', '\U{0085}', '\U{00A0}', '\U{1680}',
    '\U{2000}', '\U{2001}', '\U{2002}', '\U{2003}', '\U{2004}', '\U{2005}',
    '\U{2006}', '\U{2007}', '\U{2008}', '\U{2009}', '\U{200A}',
    '\U{2028}', '\U{2029}', '\U{202F}', '\U{205F}', '\U{3000}'
  }

  /** Python's `str.isspace()` for a single character. */
  predicate IsSpace(c: char) {
    c in SpaceChars
  }

  /** The characters `str.splitlines()` treats as line boundaries (`\r\n` counts as one). */
  predicate IsLineBreak(c: char) {
    || c == '\n' || c == '\r' || c == '\U{000B}' || c == '\U{000C}'
    || c == '\U{001C}' || c == '\U{001D}' || c == '\U{001E}' || c == '\U{0085}'
    || c == '\U{2028}' || c == '\U{2029}'
  }

  predicate AllSpace(s: string) {
    forall i :: 0 <= i < |s| ==> IsSpace(s[i])
  }

  /** `s.lstrip()`: drops leading whitespace and nothing else. */
  function LStrip(s: string): (r: string)
    ensures |r| <= |s| && r == s[|s| - |r|..]
    ensures forall i :: 0 <= i < |s| - |r| ==> IsSpace(s[i])
    ensures |r| > 0 ==> !IsSpace(r[0])
    decreases |s|
  {
    if |s| > 0 && IsSpace(s[0]) then LStrip(s[1..]) else s
  }

  /** `s.rstrip()`: drops trailing whitespace and nothing else. */
  function RStrip(s: string): (r: string)
    ensures |r| <= |s| && r == s[..|r|]
    ensures forall i :: |r| <= i < |s| ==> IsSpace(s[i])
    ensures |r| > 0 ==> !IsSpace(r[|r| - 1])
    decreases |s|
  {
    if |s| > 0 && IsSpace(s[|s| - 1]) then RStrip(s[..|s| - 1]) else s
  }

  /** Neither end of `s` is whitespace. */
  predicate Trimmed(s: string) {
    |s| > 0 ==> !IsSpace(s[0]) && !IsSpace(s[|s| - 1])
  }

  /** `s.strip()`. */
  function Strip(s: string): (r: string)
    ensures |r| <= |s|
    ensures Trimmed(r)
    ensures r == "" <==> AllSpace(s)
    ensures Trimmed(s) ==> r == s
    ensures forall k :: 0 <= k < |r| ==> r[k] in s
  {
    var l := LStrip(s);
    var r := RStrip(l);
    StripIsSlice(s, l, r);
    r
  }

  /**
   * What `Strip` needs of its two halves: `l` is `s` without its leading
   * whitespace and `r` is `l` without its trailing whitespace.
   */
  lemma StripIsSlice(s: string, l: string, r: string)
    requires |l| <= |s| && l == s[|s| - |l|..]
    requires forall i :: 0 <= i < |s| - |l| ==> IsSpace(s[i])
    requires |l| > 0 ==> !IsSpace(l[0])
    requires |r| <= |l| && r == l[..|r|]
    requires forall i :: |r| <= i < |l| ==> IsSpace(l[i])
    requires |r| > 0 ==> !IsSpace(r[|r| - 1])
    ensures Trimmed(r)
    ensures r == "" <==> AllSpace(s)
    ensures Trimmed(s) ==> r == s
    ensures forall k :: 0 <= k < |r| ==> r[k] in s
  {
    var a := |s| - |l|;
    forall k | 0 <= k < |r| ensures r[k] == s[a + k] && r[k] in s {
      assert r[k] == l[k] == s[a + k];
    }
    if r == "" {
      assert |l| == 0;
    } else {
      assert !IsSpace(s[a]);
    }
    if |s| > 0 && !IsSpace(s[0]) && !IsSpace(s[|s| - 1]) {
      assert a == 0;
      assert l == s;
      assert |r| == |l|;
    }
  }

  /** `p` is a prefix of `s`. */
  predicate IsPrefix(p: string, s: string) {
    |p| <= |s| && s[..|p|] == p
  }

  /** `s.find(sub)`: the first index at which `sub` occurs in `s`, if any. */
  function Find(s: string, sub: string): (r: Option<nat>)
    ensures r.Some? ==> r.value + |sub| <= |s| && s[r.value..r.value + |sub|] == sub
    ensures r.Some? ==> forall j {:trigger IsPrefix(sub, s[j..])} :: 0 <= j < r.value ==> !IsPrefix(sub, s[j..])
    ensures r.None? ==> forall j {:trigger IsPrefix(sub, s[j..])} :: 0 <= j <= |s| ==> !IsPrefix(sub, s[j..])
    ensures r.Some? ==> IsPrefix(sub, s[r.value..])
    decreases |s|
  {
    if IsPrefix(sub, s) then
      assert s[0..] == s;
      Some(0)
    else if |s| == 0 then None
    else
      match Find(s[1..], sub)
      case None =>
        FindShiftNone(s, sub);
        None
      case Some(k) =>
        FindShiftSome(s, sub, k);
        Some(k + 1)
  }

  /** No occurrence in the tail and none at the front: none at all. */
  lemma FindShiftNone(s: string, sub: string)
    requires |s| > 0 && !IsPrefix(sub, s)
    requires forall j :: 0 <= j <= |s| - 1 ==> !IsPrefix(sub, s[1..][j..])
    ensures forall j :: 0 <= j <= |s| ==> !IsPrefix(sub, s[j..])
  {
    forall j | 0 <= j <= |s| ensures !IsPrefix(sub, s[j..]) {
      if j == 0 {
        assert s[j..] == s;
      } else {
        assert s[j..] == s[1..][j - 1..];
      }
    }
  }

  /** The first occurrence in the tail, at `k`, is the first in `s`, at `k + 1`, when there is none at the front. */
  lemma FindShiftSome(s: string, sub: string, k: nat)
    requires |s| > 0 && !IsPrefix(sub, s)
    requires k + |sub| <= |s| - 1 && IsPrefix(sub, s[1..][k..])
    requires forall j :: 0 <= j < k ==> !IsPrefix(sub, s[1..][j..])
    ensures k + 1 + |sub| <= |s| && s[k + 1..k + 1 + |sub|] == sub && IsPrefix(sub, s[k + 1..])
    ensures forall j :: 0 <= j < k + 1 ==> !IsPrefix(sub, s[j..])
  {
    assert s[k + 1..] == s[1..][k..];
    assert s[k + 1..k + 1 + |sub|] == s[k + 1..][..|sub|];
    forall j | 0 <= j < k + 1 ensures !IsPrefix(sub, s[j..]) {
      if j == 0 {
        assert s[j..] == s;
      } else {
        assert s[j..] == s[1..][j - 1..];
      }
    }
  }

  /** Python's `sub in s`. */
  predicate Contains(s: string, sub: string) {
    Find(s, sub).Some?
  }

  /** An occurrence of `sub` with none before it is the one `Find` reports. */
  lemma FindIs(s: string, sub: string, i: nat)
    requires i + |sub| <= |s| && s[i..i + |sub|] == sub
    requires forall j :: 0 <= j < i ==> !IsPrefix(sub, s[j..])
    ensures Find(s, sub) == Some(i)
  {
    assert IsPrefix(sub, s[i..]) by {
      assert s[i..][..|sub|] == s[i..i + |sub|];
    }
  }

  /**
   * The parts of a split are leftmost: no part holds the separator, and the
   * separator after each part but the last starts right after that part
   * (an overlapping occurrence reaching back into the part would have split
   * it earlier).
   */
  predicate LeftmostParts(parts: seq<string>, sep: string) {
    && (forall k :: 0 <= k < |parts| ==> FreeOf(parts[k], sep))
    && (forall k :: 0 <= k < |parts| - 1 ==> SepFirstAfter(parts[k], sep))
  }

  /** `sep` does not occur in `part`. */
  predicate FreeOf(part: string, sep: string) {
    !Contains(part, sep)
  }

  /** The first `sep` in `part + sep` is the appended one. */
  predicate SepFirstAfter(part: string, sep: string) {
    Find(part + sep, sep) == Some(|part|)
  }

  /** `s.split(sep)` for a non-empty separator (Python raises on an empty one). */
  function SplitOn(s: string, sep: string): (r: seq<string>)
    requires |sep| > 0
    ensures |r| >= 1
    ensures LeftmostParts(r, sep)
    decreases |s|
  {
    match Find(s, sep)
    case None => [s]
    case Some(i) =>
      var tail := SplitOn(s[i + |sep|..], sep);
      SplitHead(s, sep, i);
      LeftmostCons(s[..i], tail, sep);
      [s[..i]] + tail
  }

  /** The text before the first separator holds none, and the separator comes first after it. */
  lemma SplitHead(s: string, sep: string, i: nat)
    requires |sep| > 0 && Find(s, sep) == Some(i)
    ensures FreeOf(s[..i], sep)
    ensures SepFirstAfter(s[..i], sep)
  {
    HeadFree(s, sep, i);
    HeadThenSep(s, sep, i, s[..i] + sep);
  }

  lemma HeadFree(s: string, sep: string, i: nat)
    requires |sep| > 0 && Find(s, sep) == Some(i)
    ensures Find(s[..i], sep).None?
  {
    NoneInHead(s, sep, i);
    FindNone(s[..i], sep);
  }

  lemma NoneInHead(s: string, sep: string, i: nat)
    requires |sep| > 0 && Find(s, sep) == Some(i)
    ensures forall j :: 0 <= j <= i ==> !IsPrefix(sep, s[..i][j..])
  {
    var h := s[..i];
    forall j | 0 <= j <= |h|
      ensures !IsPrefix(sep, h[j..])
    {
      if j + |sep| <= |h| {
        assert !IsPrefix(sep, s[j..]);
        assert h[j..][..|sep|] == s[j..][..|sep|];
      }
    }
  }

  /** No occurrence anywhere: `Find` reports none. */
  lemma FindNone(s: string, sub: string)
    requires forall j :: 0 <= j <= |s| ==> !IsPrefix(sub, s[j..])
    ensures Find(s, sub).None?
  {
  }

  lemma HeadThenSep(s: string, sep: string, i: nat, hs: string)
    requires |sep| > 0 && Find(s, sep) == Some(i) && hs == s[..i] + sep
    ensures Find(hs, sep) == Some(i)
  {
    NoEarlierInHead(s, sep, i);
    assert hs[i..i + |sep|] == sep;
    FindIs(hs, sep, i);
  }

  lemma NoEarlierInHead(s: string, sep: string, i: nat)
    requires |sep| > 0 && Find(s, sep) == Some(i)
    ensures forall j :: 0 <= j < i ==> !IsPrefix(sep, (s[..i] + sep)[j..])
  {
    var hs := s[..i] + sep;
    assert s[i..i + |sep|] == sep;
    forall j | 0 <= j < i
      ensures !IsPrefix(sep, hs[j..])
    {
      assert !IsPrefix(sep, s[j..]);
      HeadWindow(s, sep, i, j);
    }
  }

  /** Before `i`, a window of `|sep|` characters reads the same in `s` and in `s[..i] + sep` when `sep` sits at `i`. */
  lemma HeadWindow(s: string, sep: string, i: nat, j: nat)
    requires j < i && i + |sep| <= |s| && s[i..i + |sep|] == sep
    ensures (s[..i] + sep)[j..][..|sep|] == s[j..][..|sep|]
  {
    var hs := s[..i] + sep;
    var a, b := hs[j..][..|sep|], s[j..][..|sep|];
    forall m | 0 <= m < |sep| ensures a[m] == b[m] {
      if j + m < i {
        assert a[m] == hs[j + m] == s[j + m];
      } else {
        assert a[m] == sep[j + m - i] == s[i..i + |sep|][j + m - i];
      }
    }
  }

  lemma LeftmostCons(head: string, tail: seq<string>, sep: string)
    requires |tail| >= 1 && LeftmostParts(tail, sep)
    requires FreeOf(head, sep) && SepFirstAfter(head, sep)
    ensures LeftmostParts([head] + tail, sep)
  {
    var all := [head] + tail;
    forall k | 0 <= k < |all|
      ensures FreeOf(all[k], sep)
    {
      if k > 0 {
        assert all[k] == tail[k - 1];
      }
    }
    forall k | 0 <= k < |all| - 1
      ensures SepFirstAfter(all[k], sep)
    {
      if k > 0 {
        assert all[k] == tail[k - 1];
      }
    }
  }

  /**
   * Leftmost parts that join back to `s` are exactly the split of `s`: the
   * two properties of `SplitOn` determine it.
   */
  lemma {:induction false} SplitOnUnique(s: string, sep: string, parts: seq<string>)
    requires |sep| > 0 && |parts| >= 1
    requires LeftmostParts(parts, sep) && Join(parts, sep) == s
    ensures parts == SplitOn(s, sep)
    decreases |parts|
  {
    var p := parts[0];
    if |parts| == 1 {
      assert s == p;
      assert FreeOf(parts[0], sep);
    } else {
      var rest := parts[1..];
      var hs := p + sep;
      assert s == hs + Join(rest, sep);
      assert SepFirstAfter(parts[0], sep);
      forall j | 0 <= j < |p|
        ensures !IsPrefix(sep, s[j..])
      {
        assert !IsPrefix(sep, hs[j..]);
        assert s[j..][..|sep|] == hs[j..][..|sep|];
      }
      assert s[|p|..|p| + |sep|] == sep;
      FindIs(s, sep, |p|);
      assert s[|p| + |sep|..] == Join(rest, sep);
      assert s[..|p|] == p;
      assert LeftmostParts(rest, sep) by {
        forall k | 0 <= k < |rest| ensures rest[k] == parts[k + 1] { }
      }
      SplitOnUnique(Join(rest, sep), sep, rest);
      assert parts == [p] + rest;
    }
  }

  /** A sequence's multiset is its front's plus its last element. */
  lemma MultisetLast<T>(s: seq<T>)
    requires |s| > 0
    ensures multiset(s) == multiset(s[..|s| - 1]) + multiset{s[|s| - 1]}
  {
    assert s == s[..|s| - 1] + [s[|s| - 1]];
  }

  lemma AppendAssoc<T>(x: seq<T>, y: seq<T>, z: seq<T>)
    ensures x + y + z == x + (y + z)
  {
  }

  /** `"".join(parts)`. */
  function Concat(parts: seq<string>): (r: string)
    ensures |parts| == 0 ==> r == ""
  {
    if |parts| == 0 then "" else Concat(parts[..|parts| - 1]) + parts[|parts| - 1]
  }

  /** `sep.join(parts)`. */
  function Join(parts: seq<string>, sep: string): string {
    if |parts| == 0 then ""
    else if |parts| == 1 then parts[0]
    else parts[0] + sep + Join(parts[1..], sep)
  }

  /** Splitting on a separator and joining with it gives back the original text. */
  lemma {:induction false} JoinSplitOn(s: string, sep: string)
    requires |sep| > 0
    ensures Join(SplitOn(s, sep), sep) == s
    decreases |s|
  {
    var f := Find(s, sep);
    if f.Some? {
      var i := f.value;
      var rest := s[i + |sep|..];
      var tail := SplitOn(rest, sep);
      JoinSplitOn(rest, sep);
      assert SplitOn(s, sep) == [s[..i]] + tail;
      JoinAround(s, sep, i, tail);
    }
  }

  /** The text before an occurrence, the separator, and a join of the rest give back `s`. */
  lemma JoinAround(s: string, sep: string, i: nat, tail: seq<string>)
    requires i + |sep| <= |s| && s[i..i + |sep|] == sep
    requires |tail| >= 1 && Join(tail, sep) == s[i + |sep|..]
    ensures Join([s[..i]] + tail, sep) == s
  {
    JoinCons(s[..i], tail, sep);
    SliceAround(s, sep, i);
  }

  lemma SliceAround(s: string, sep: string, i: nat)
    requires i + |sep| <= |s| && s[i..i + |sep|] == sep
    ensures s == s[..i] + sep + s[i + |sep|..]
  {
  }

  lemma JoinCons(head: string, tail: seq<string>, sep: string)
    requires |tail| >= 1
    ensures Join([head] + tail, sep) == head + sep + Join(tail, sep)
  {
    assert ([head] + tail)[1..] == tail;
  }

  /** The index of the first line boundary in `s`, if any. */
  function FirstLineBreak(s: string): (r: Option<nat>)
    ensures r.Some? ==> r.value < |s| && IsLineBreak(s[r.value])
    ensures forall j :: 0 <= j < |s| && (r.None? || j < r.value) ==> !IsLineBreak(s[j])
    decreases |s|
  {
    if |s| == 0 then None
    else if IsLineBreak(s[0]) then Some(0)
    else
      match FirstLineBreak(s[1..])
      case None => None
      case Some(k) => Some(k + 1)
  }

  /** `s.splitlines()`: the lines of `s` without their terminators; no trailing empty line. */
  function SplitLines(s: string): (r: seq<string>)
    ensures forall i, j :: 0 <= i < |r| && 0 <= j < |r[i]| ==> !IsLineBreak(r[i][j])
    ensures s == "" <==> r == []
    decreases |s|
  {
    match FirstLineBreak(s)
    case None => if s == "" then [] else [s]
    case Some(i) =>
      var skip := if s[i] == '\r' && i + 1 < |s| && s[i + 1] == '\n' then 2 else 1;
      [s[..i]] + SplitLines(s[i + skip..])
  }

  /** `s.split()[0]`: the first whitespace-separated token, if there is one. */
  function FirstToken(s: string): (r: Option<string>)
    ensures r.Some? ==> |r.value| > 0 && forall j :: 0 <= j < |r.value| ==> !IsSpace(r.value[j])
    ensures r.None? <==> AllSpace(s)
    ensures r.Some? ==> IsPrefix(r.value, LStrip(s))
    ensures r.Some? ==> |r.value| == |LStrip(s)| || IsSpace(LStrip(s)[|r.value|])
  {
    var t := LStrip(s);
    if t == "" then None else Some(TakeUntilSpace(t))
  }

  function TakeUntilSpace(s: string): (r: string)
    ensures |r| <= |s| && r == s[..|r|]
    ensures forall j :: 0 <= j < |r| ==> !IsSpace(r[j])
    ensures |r| < |s| ==> IsSpace(s[|r|])
    decreases |s|
  {
    if |s| == 0 || IsSpace(s[0]) then "" else [s[0]] + TakeUntilSpace(s[1..])
  }

  /** `s.lower()` on ASCII letters. */
  function Lower(s: string): (r: string)
    ensures |r| == |s|
    ensures forall i :: 0 <= i < |s| ==> r[i] == LowerChar(s[i])
  {
    seq(|s|, i requires 0 <= i < |s| => LowerChar(s[i]))
  }

  function LowerChar(c: char): char {
    if 'A' <= c <= 'Z' then (c as int + 32) as char else c
  }

  /** `s[:n] + "..." if len(s) > n else s`. */
  function Preview(s: string, n: nat): (r: string)
    ensures |s| <= n ==> r == s
    ensures |s| > n ==> |r| == n + 3 && r[..n] == s[..n] && r[n..] == "..."
    ensures |r| <= n + 3
  {
    if |s| > n then s[..n] + "..." else s
  }

  /** Python's `s[:n]`, which never fails. */
  function Take(s: string, n: nat): (r: string)
    ensures |r| == if |s| < n then |s| else n
    ensures IsPrefix(r, s)
  {
    if |s| <= n then s else s[..n]
  }

  /** `c * n`. */
  function Repeat(c: char, n: nat): (r: string)
    ensures |r| == n && forall i :: 0 <= i < n ==> r[i] == c
  {
    seq(n, i => c)
  }

  function DigitChar(d: nat): char
    requires d < 10
  {
    "0123456789"[d]
  }

  /** Python's `str(n)` for a natural number. */
  function NatToString(n: nat): (r: string)
    ensures |r| >= 1 && forall i :: 0 <= i < |r| ==> '0' <= r[i] <= '9'
  {
    if n < 10 then [DigitChar(n)] else NatToString(n / 10) + [DigitChar(n % 10)]
  }

  /** Python's `str(n)` for an integer. */
  function IntToString(n: int): string {
    if n < 0 then "-" + NatToString(-n) else NatToString(n)
  }
}

=== FILE: tables.dfy ===
/**
 * A Python dict with string keys, as an association list in insertion order:
 * iteration visits keys in the order they were first inserted, and assigning
 * to an existing key overwrites its value in place.
 */
module Tables {
  import opened Options

  type Table<V> = seq<(string, V)>

  /** The keys, in iteration order. */
  function Keys<V>(t: Table<V>): (r: seq<string>)
    ensures |r| == |t|
  {
    if |t| == 0 then [] else [t[0].0] + Keys(t[1..])
  }

  /** No key occurs twice, as in every dict. */
  predicate DistinctKeys<V>(t: Table<V>) {
    forall i, j :: 0 <= i < j < |t| ==> t[i].0 != t[j].0
  }

  /** `d.get(k)`. */
  function Lookup<V>(t: Table<V>, k: string): (r: Option<V>)
    ensures r.Some? <==> k in Keys(t)
  {
    if |t| == 0 then None
    else if t[0].0 == k then Some(t[0].1)
    else Lookup(t[1..], k)
  }

  /** `d[k] = v`. */
  function Put<V>(t: Table<V>, k: string, v: V): (r: Table<V>)
    ensures Lookup(r, k) == Some(v)
    ensures forall c :: c != k ==> Lookup(r, c) == Lookup(t, c)
    ensures k in Keys(t) ==> Keys(r) == Keys(t)
    ensures k !in Keys(t) ==> Keys(r) == Keys(t) + [k]
  {
    if |t| == 0 then
      [(k, v)]
    else
      var x, tail := t[0], t[1..];
      if x.0 == k then
        assert ([(k, v)] + tail)[1..] == tail;
        [(k, v)] + tail
      else
        var rest := Put(tail, k, v);
        assert ([x] + rest)[1..] == rest;
        [x] + rest
  }

  lemma KeyIndex<V>(t: Table<V>, i: nat)
    requires i < |t|
    ensures Keys(t)[i] == t[i].0
  {
    if i > 0 {
      KeyIndex(t[1..], i - 1);
    }
  }

  /** A dict assignment never creates a second copy of a key. */
  lemma PutKeepsKeysDistinct<V>(t: Table<V>, k: string, v: V)
    requires DistinctKeys(t)
    ensures DistinctKeys(Put(t, k, v))
  {
    var r := Put(t, k, v);
    forall i, j | 0 <= i < j < |r| ensures r[i].0 != r[j].0 {
      KeyIndex(r, i);
      KeyIndex(r, j);
      if k in Keys(t) {
        KeyIndex(t, i);
        KeyIndex(t, j);
      } else if j < |t| {
        assert Keys(r)[j] == Keys(t)[j];
        assert Keys(r)[i] == Keys(t)[i];
        KeyIndex(t, i);
        KeyIndex(t, j);
      } else {
        assert Keys(r)[j] == k;
        assert Keys(r)[i] == Keys(t)[i];
        KeyIndex(t, i);
      }
    }
  }
}

=== FILE: workers.dfy ===
/**
 * `ParallelProcessor.get_optimal_workers`: thread and process pool sizes
 * from the CPU count and the physical memory, both inputs here.
 */
module Workers {
  const GiB: nat := 1024 * 1024 * 1024

  function Min(a: int, b: int): int { if a <= b then a else b }
  function Max(a: int, b: int): int { if a >= b then a else b }

  /**
   * Twice the CPUs for I/O-bound threads, at most 32; one CPU fewer than
   * the machine has for processes, at most one per 2 GiB of memory, and
   * never fewer than one.
   */
  function OptimalWorkers(cpuCount: nat, memoryBytes: nat): (r: (int, int))
    ensures r.0 <= 32 && r.0 <= 2 * cpuCount
    ensures r.0 == 32 || r.0 == 2 * cpuCount
    ensures r.1 >= 1
    ensures r.1 == 1 || (r.1 <= cpuCount - 1 && r.1 * 2 * GiB <= memoryBytes)
    ensures cpuCount >= 2 && memoryBytes >= 2 * GiB ==> r.1 >= 1 && (r.1 == cpuCount - 1 || (r.1 + 1) * 2 * GiB > memoryBytes)
  {
    var memoryHalves := memoryBytes / (2 * GiB);
    (Min(2 * cpuCount, 32), Max(1, Min(cpuCount - 1, memoryHalves)))
  }

  /** More CPUs or more memory never shrink either pool. */
  lemma WorkersMonotone(c1: nat, m1: nat, c2: nat, m2: nat)
    requires c1 <= c2 && m1 <= m2
    ensures OptimalWorkers(c1, m1).0 <= OptimalWorkers(c2, m2).0
    ensures OptimalWorkers(c1, m1).1 <= OptimalWorkers(c2, m2).1
  {
    DivMonotone(m1, m2, 2 * GiB);
  }

  lemma DivMonotone(a: nat, b: nat, d: nat)
    requires a <= b && d > 0
    ensures a / d <= b / d
  {
    assert a == a / d * d + a % d;
    assert b == b / d * d + b % d;
    assert a / d * d < (b / d + 1) * d;
    MulCancel(a / d, b / d + 1, d);
  }

  lemma MulCancel(x: int, y: int, d: int)
    requires d > 0 && x * d < y * d
    ensures x < y
  {
    assert x * d - y * d == (x - y) * d;
  }
}
